=== FILE: README.md ===
# Ragas evaluation pipeline: a verified model

This project models the resumable fetch-then-evaluate pipeline of a RAG
evaluation tool in Dafny.

The tool reads a spreadsheet of questions and asks a remote assistant for each
answer (`AI回答`) and its reference list (`参考文档`). It asks a retrieval flow
for each question's passages (`Contexts`), checkpointing its progress so a
restarted run resumes where it stopped. It then aligns the rows into evaluation
samples and hands them to a scorer in batches with retries.

A spreadsheet cell is `Option<string>`, with `None` standing for pandas' NaN, which
`str()` prints as `"nan"`. Everything around the opaque collaborators is modelled:
string extraction, filters, task lists, counters, retry loops and the retention
sweep that every checkpoint save runs before it writes. The collaborators (the HTTP service, the scoring call, HTML conversion,
URL and JSON decoding, the file system clock) are parameters.

The modules follow the program's files:

| module | file | what it holds |
|---|---|---|
| `Wrappers`, `Text`, `Seqs`, `Table` | — | `Option`/`Result`; Python string helpers (`strip`, `find`, `split`, `replace`, `in`); counting, filtering and order-preserving de-duplication; the row and cell types |
| `Checkpoints` | `app.py` | `save_processing_state`, `load_processing_state`, `cleanup_old_state_files` |
| `Orchestrator` | `app.py` | the checkpoint merge, task building and the two result loops of `process_method2_file`, as the class `Session` |
| `Alignment` | `app.py` | `align_data_for_evaluation`, the validation and metric selection of `evaluate_dataset`, the truncation of `display_evaluation_results` |
| `ContextsColumn` | `convert_to_ragas_formats.py` | `extract_contexts_from_contexts_column` |
| `RagasFormats` | `convert_to_ragas_formats.py` | `extract_contexts_from_reference` and the two dataset converters |
| `AnswerCleaning` | `convert_to_ragas_formats.py` | `clean_ai_answer` |
| `Evaluator` | `evaluate_dataset.py` | dataset creation, batching, the two retry loops, the quality audit, the result columns |
| `Fetching` | both fetch scripts | content extraction and unescaping, `safe_update_excel`, the four-way status tally, the progress log points, the success rate and the shared task loop |
| `AnswerFetch` | `get_answer_parallel.py` | `parse_reference_names`, `clean_ai_response`, `query_answer`, `process_single_question`, `process_file_parallel` |
| `ContextFetch` | `get_contexts_parallel.py` | `html_to_text`'s early return, `query_contexts`, `process_single_question`, `process_file_parallel` |

The thread pools are modelled by their completion order. That order is any
permutation of the task list (`multiset(order) == multiset(tasks)`), and the
model proves that the resulting sheet and counters do not depend on it.
Where the code and its evident intent part, the model follows the code and
proves the intended behaviour of a corrected variant beside it (see Findings):
the one-pass image-tag removal, the content cut at the first `"}` and the
`[^%22]` character class are modelled as written.
`parse_reference_names` and `clean_ai_response` are modelled although no other
file calls them: `app.py:35-36` imports only `query_answer` and `query_contexts`.
The checkpoint merge follows `app.py:371-380`: a filled saved value replaces the
current one even when the freshly read sheet already holds a value.

## Model

| member | source | states |
|---|---|---|
| Checkpoints.StateFileName | app.py:220 | the state file name is `state_` + fingerprint + `.pkl`, ten characters longer than the fingerprint |
| Checkpoints.StateFileNameInjective | app.py:220 | distinct fingerprints never share a state file |
| Checkpoints.Snapshot | app.py:222-232 | a checkpoint keeps exactly the four columns `问题`, `AI回答`, `参考文档`, `Contexts` of every row, in order, and both progress sets |
| Checkpoints.Save | app.py:210-243 | the save returns True exactly when the pickle was written and the size check and log call after it did not raise; a failure after a complete write returns False but leaves the checkpoint readable; a failure before the sweep leaves the directory unchanged; otherwise the sweep runs first, so a file other than the state file survives iff the sweep did not delete it, with its content unchanged; a written state file holds the checkpoint, a torn one holds unreadable bytes |
| Checkpoints.Load | app.py:245-261 | load yields a checkpoint exactly when the state file exists and unpickles, and then it is the file's content; otherwise None |
| Checkpoints.LoadAfterSave | app.py:216-235 | a completed save is read back exactly, whatever the sweep before it deleted |
| Checkpoints.LoadAfterTornSave | app.py:216-235 | a save that fails while pickling leaves a file that loads as None (the write is not atomic) |
| Checkpoints.SaveKeepsOthers | app.py:216-235 | saving one fingerprint's state leaves what loads for another fingerprint unchanged, unless the save's sweep deleted that file, which then loads as None |
| Checkpoints.SaveSweepsStale | app.py:184-217 | a save deletes another fingerprint's checkpoint that the sweep sees as older than fourteen days and can unlink, so it then loads as None |
| Checkpoints.SavedNamesAreSwept | app.py:163 | every file a save writes is one the sweep considers (`state_` prefix, `.pkl` suffix) |
| Checkpoints.StateFiles | app.py:162-175 | a file is collected iff the listing has a `state_….pkl` entry for it whose `stat` succeeded; at most one per listing entry |
| Checkpoints.CollectStateFiles | app.py:162-175 | the collection loop yields exactly the state files whose `stat` succeeded, in listing order |
| Checkpoints.InsertSorted | app.py:178 | inserting into an mtime-sorted list keeps it sorted |
| Checkpoints.SortByMtimeSpec | app.py:178 | the sort is oldest-first and a permutation of the collected files |
| Checkpoints.SweepFrom | app.py:181-203 | the sweep deletes at most the files it visits |
| Checkpoints.SweptWereOld | app.py:162-200 | every name a save's sweep deletes is a listed `state_….pkl` file whose `stat` succeeded, older than three days and not locked |
| Checkpoints.DeleteOld | app.py:181-203 | the deletion loop deletes exactly the sweep's files, counts each and ends with the sweep's running size |
| Checkpoints.CleanupOldStateFiles | app.py:147-208 | the whole cleanup sweeps the collected files oldest first, with the initial file count as the `> 50` test |
| Checkpoints.SweepKeepsYoung | app.py:184-194 | a deleted file is older than three days, was visited, and could be unlinked |
| Checkpoints.SweepDeletesStale | app.py:185-186 | a file older than fourteen days is always deleted unless unlinking it fails |
| Checkpoints.StaleIsSwept | app.py:162-186 | a listed state file older than fourteen days that can be unlinked is among the names the sweep deletes |
| Checkpoints.SweepBytes | app.py:196-200 | the running size drops by exactly the sizes of the deleted files |
| Checkpoints.SweepOldestFirst | app.py:178-181 | what the sweep deletes, it deletes oldest first |
| Checkpoints.SweepAppend | app.py:181-203 | the sweep of a concatenation is the sweep of the first part, then of the second from the size the first left |
| Orchestrator.FilledBelowMembers | app.py:371-380 | an index joins progress through the merge iff it is a saved row below the current row count with a filled value |
| Orchestrator.MergedRows | app.py:371-380 | for each row: a filled saved answer replaces answer and reference, a filled saved Contexts replaces Contexts, whatever the fresh values were; other columns and rows past the saved ones stay |
| Orchestrator.MergeIdempotent | app.py:371-380 | merging the same checkpoint twice equals merging it once |
| Orchestrator.ProgressStep | app.py:376-380 | one merge-loop iteration adds index `j` to progress exactly when the saved value is filled and `j` is below the row count |
| Orchestrator.TaskListSound | app.py:393-405 | every task is for a row with a non-blank question, outside the kind's progress, whose field is blank, and carries the stripped question |
| Orchestrator.TaskListComplete | app.py:393-405 | every row that needs a task gets one, carrying its row index and its stripped question |
| Orchestrator.TaskListOrdered | app.py:393-405 | tasks come in strictly increasing row order |
| Orchestrator.BuildTasks | app.py:390-405 | the single loop builds exactly both task lists |
| Orchestrator.RunClosed | app.py:432-442 | the result loop equals its closed form whatever the completion order |
| Orchestrator.RunOrderIndependent | app.py:432-433 | any two completion orders of the same tasks give the same state and the same success count |
| Orchestrator.RunEffect | app.py:436-442 | after the loop the kind's progress grows by exactly the succeeded rows, the other kind's progress is unchanged, a succeeded row holds its result and every other row is unchanged |
| Orchestrator.TaskListEmpty | app.py:393-405 | no row needing a task means an empty task list |
| Orchestrator.RunCompletes | app.py:393-405 | when every task of a kind succeeds, rebuilding that kind's tasks finds nothing left |
| Orchestrator.NeededIsDone | app.py:436-439 | a row that needed a task is in the done set when every task succeeds |
| Orchestrator.TasksFit | app.py:425-433 | a permutation of a kind's task list with an outcome per task fits the state |
| Orchestrator.ResumeSkipsDone | app.py:400-404 | a restart never fetches again a row in the saved progress set |
| Orchestrator.ResumeRestores | app.py:364-380 | merging a state's own checkpoint into the original sheet restores every fetched value and all progress |
| Orchestrator.Session.constructor | app.py:359-360 | a session starts with empty progress sets, zero counters and no checkpoints, with the given view of the state directory at each save |
| Orchestrator.Session.SaveState | app.py:210-243 | the `n`-th save of a session sweeps the directory as it looks at that save, then writes the current snapshot to the session's state file and records it; sheet, progress and counters are unchanged |
| Orchestrator.Session.MergeCheckpoint | app.py:371-380 | the merge loop leaves exactly the merged state |
| Orchestrator.Session.MergeRecord | app.py:372-380 | one iteration merges saved record `idx` into row `idx` if the sheet has it, and grows progress accordingly |
| Orchestrator.Session.Finish | app.py:432-446 | one finished future applies its outcome, counts one completion, and counts a success only when the fetch succeeded |
| Orchestrator.Session.Advance | app.py:432-451 | completion `k` extends the run over the first `k` tasks by one step |
| Orchestrator.Session.RunPhase | app.py:421-451 | a kind's loop runs every task in completion order, counts all of them, and saves after every tenth completion of that kind |
| Orchestrator.Session.Process | app.py:358-494 | resume, then both loops, then a final save: the state is the two runs over the merged state, `completed` grows by both task counts, the success counters by the successes, `|order|/10` saves per kind plus one, and the state file loads as the final snapshot |
| Orchestrator.SavedAfterSpec | app.py:448-450 | after `k` completions a kind has saved `k / 10` checkpoints, the `j`-th one right after completion `10(j+1)` |
| Alignment.AlignPartition | app.py:265-300 | kept plus skipped equals the row count, and kept samples come from strictly increasing rows |
| Alignment.AlignComplete | app.py:279-288 | every row that yields a sample contributes it |
| Alignment.AlignRowSample | app.py:270-288 | a kept sample comes from a row with a non-blank question, and an answer and a Contexts cell that are both present, non-blank and not `"nan"`; it holds the stripped question, the stripped answer, usable passages extracted from the Contexts cell, and ground truth equal to its answer |
| Alignment.AlignRowKept | app.py:270-288 | conversely, a row meeting all those conditions yields exactly that sample |
| Alignment.AlignForEvaluation | app.py:263-300 | the loop returns exactly the samples in row order and the number of skipped rows |
| Alignment.AlignOne | app.py:268-295 | one iteration keeps or skips a row as the alignment rule says |
| Alignment.AlignedAreValid | app.py:570-583 | the second filter never drops a sample that alignment produced |
| Alignment.Validate | app.py:567-583 | the validation loop keeps exactly the valid samples in order, and valid plus invalid is the input count |
| Alignment.EvaluateDataset | app.py:557-659 | scoring is on the valid samples with the known selected metrics, in order |
| Alignment.ScoredOnlyWhenUsable | app.py:559-654 | scoring happens iff some sample is valid, a key is set, a selected metric is known and the call succeeds; then samples and metrics are non-empty and all valid/known |
| Alignment.Truncate | app.py:674-681 | both lists are cut to the shorter length, as prefixes |
| Alignment.TruncateIdempotent | app.py:674-681 | cutting twice is cutting once; equal lengths are left alone |
| ContextsColumn.ExtractContexts | convert_to_ragas_formats.py:14-43 | the result is never empty; NaN or empty input gives `["无参考文档"]` |
| ContextsColumn.ExtractText | convert_to_ragas_formats.py:20-43 | a non-empty cell gives the passages of its stripped text, or `["参考文档信息不明确"]` when there are none |
| ContextsColumn.HeaderModePassages | convert_to_ragas_formats.py:24-32 | in header mode every passage is non-empty, trimmed, single-spaced and has no `[` |
| ContextsColumn.FallbackPassages | convert_to_ragas_formats.py:34-43 | in fallback mode no passage spans a blank line |
| ContextsColumn.KeepCleanedShape | convert_to_ragas_formats.py:28-32 | each kept cleaned passage is non-empty, trimmed, single-spaced and has no `[` |
| ContextsColumn.KeepChunksShape | convert_to_ragas_formats.py:36-41 | no kept fallback chunk contains a blank line |
| ContextsColumn.UnclearShape | convert_to_ragas_formats.py:43 | the fallback sentinel is trimmed, single-spaced, and has no `[` and no blank line |
| ContextsColumn.FindPassages | convert_to_ragas_formats.py:24-25 | no passage found by the header pattern contains `[` |
| ContextsColumn.PassageEnd | convert_to_ragas_formats.py:24 | the lazy passage stops at the first look-ahead success, with no `[` before it |
| ContextsColumn.ContextsRoundTrip | convert_to_ragas_formats.py:14-43 | rendering well-formed `[name.ext]:` sections and extracting them gives back exactly their passages, whitespace collapsed |
| ContextsColumn.RenderFound | convert_to_ragas_formats.py:24-25 | the header pattern finds exactly the rendered passages |
| ContextsColumn.FindLaid | convert_to_ragas_formats.py:24-25 | `findall` over laid-out sections returns exactly their passages |
| ContextsColumn.KeepCleanedSections | convert_to_ragas_formats.py:28-32 | cleaning well-formed passages only collapses whitespace and drops none |
| ContextsColumn.CollapsedSingleSpaced | convert_to_ragas_formats.py:30 | already single-spaced passages come back unchanged |
| ContextsColumn.ExtractContextsColumn | convert_to_ragas_formats.py:14-43 | the imperative function returns exactly the modelled passages |
| ContextsColumn.CleanMatches | convert_to_ragas_formats.py:28-32 | the header-mode loop keeps exactly the non-empty cleaned passages |
| ContextsColumn.KeepLongChunks | convert_to_ragas_formats.py:35-41 | the fallback loop keeps exactly the stripped, label-free chunks longer than ten characters |
| ContextsColumn.DropLabel | convert_to_ragas_formats.py:40 | dropping the `[...]:` label only removes a prefix |
| RagasFormats.ParseScoreAccepts | convert_to_ragas_formats.py:53-58 | a matched score text parses as a number iff it has at most one dot and at least one digit |
| RagasFormats.ScoreAll | convert_to_ragas_formats.py:58 | scoring fails exactly when some matched score does not parse; otherwise every match keeps its name |
| RagasFormats.SortDescSorted | convert_to_ragas_formats.py:58 | the sort puts higher scores first |
| RagasFormats.SortDescStable | convert_to_ragas_formats.py:58 | equal scores keep their text order |
| RagasFormats.TopSpec | convert_to_ragas_formats.py:58 | the top list has `min(3, n)` entries, descending, drawn from the matches, and nothing left out scores higher than one kept |
| RagasFormats.ReferenceOutcome | convert_to_ragas_formats.py:45-67 | empty input gives `["无参考文档"]`; the call raises iff a matched score does not parse; otherwise the list is never empty |
| RagasFormats.ReferenceRanked | convert_to_ragas_formats.py:53-60 | with matches, the result is `来源文档: name` for the best three, highest first, ties in text order |
| RagasFormats.ReferenceFallback | convert_to_ragas_formats.py:63-67 | without matches, the result is one or two stripped first lines that are not blank and mention no score, or `["参考文档信息不明确"]` |
| RagasFormats.KeepLinesSpec | convert_to_ragas_formats.py:65 | every kept line is the stripped form of a non-blank line without `相关度` |
| RagasFormats.FallbackContextsShape | convert_to_ragas_formats.py:121-128 | a standard answer of at most 200 characters is its own single context; a longer one gives at most three stripped non-blank segments without separators |
| RagasFormats.Format1RowSpec | convert_to_ragas_formats.py:112-140 | a row yields a format-1 sample iff question, standard answer and AI answer are present; the sample holds the stripped question, the answer `clean_ai_answer` produces (with its one-pass tag removal), which is trimmed, and the stripped standard answer as ground truth |
| RagasFormats.Format2RowSpec | convert_to_ragas_formats.py:173-197 | a row yields a format-2 sample iff question and standard answer are present; its answer is `""` |
| RagasFormats.ContextsNonEmpty | convert_to_ragas_formats.py:118-128 | contexts are empty only for a long standard answer with no non-blank segment when the row has no Contexts |
| RagasFormats.CreateFormat1 | convert_to_ragas_formats.py:108-140 | the loop returns exactly the format-1 samples in row order, with answers cleaned as written |
| RagasFormats.CreateFormat2 | convert_to_ragas_formats.py:169-197 | the loop returns exactly the format-2 samples in row order |
| RagasFormats.FormatsPartition | convert_to_ragas_formats.py:112-197 | each converter counts every row once, format-1 samples come from increasing rows, format-2 answers are empty, and format 2 keeps at least as many rows |
| RagasFormats.Format2KeepsMore | convert_to_ragas_formats.py:112-175 | format 2 keeps at least as many rows as format 1 |
| AnswerCleaning.SubNoMatch | convert_to_ragas_formats.py:78-91 | a substitution with no match leaves the text as it is |
| AnswerCleaning.SubLength | convert_to_ragas_formats.py:78-91 | a substitution never lengthens the text and shortens it when something matches |
| AnswerCleaning.RemoveImagesSpec | convert_to_ragas_formats.py:78 | with the tag removal repeated until nothing changes (the corrected half of the first Findings row), no `<img…>` tag is left; tag-free text is untouched |
| AnswerCleaning.SinglePassLeavesTag | convert_to_ragas_formats.py:78 | one pass over `<<img>img>` leaves the tag `<img>` |
| AnswerCleaning.CleanAnswer | convert_to_ragas_formats.py:69-96 | `clean_ai_answer` as written (one image-tag pass): NaN or empty input gives `""` |
| AnswerCleaning.CleanAnswerShape | convert_to_ragas_formats.py:74-94 | the answer as written cleans it is no longer than the input and has no whitespace at either end |
| AnswerCleaning.CleanAnswerFixed | convert_to_ragas_formats.py:74-94 | stripped text without image tags that no other step matches comes back unchanged from the cleaning as written |
| AnswerCleaning.CleanRestFixed | convert_to_ragas_formats.py:80-94 | stripped text that none of the five later substitutions matches is left unchanged by them |
| AnswerCleaning.CleanAnswerAgrees | convert_to_ragas_formats.py:78 | on text without image tags the as-written cleaning and the cleaning with repeated tag removal agree |
| AnswerCleaning.CleanAnswerLeavesTag | convert_to_ragas_formats.py:74-94 | the cleaning as written turns the answer `<<img>img>` into `<img>`, still an image tag |
| AnswerCleaning.CleanAnswerRepeatedDropsTag | convert_to_ragas_formats.py:74-94 | with the tag removal repeated to a fixed point, the same answer cleans to `""` |
| AnswerCleaning.CleanAnswerRepeatedShape | convert_to_ragas_formats.py:74-94 | the cleaning with repeated tag removal is no longer than the input and trimmed |
| AnswerCleaning.CleanAnswerRepeatedTagFree | convert_to_ragas_formats.py:69-96 | with the tag removal repeated, the whole cleaned answer holds no `<img…>` tag, for every input |
| AnswerCleaning.SubKeepsTagFree | convert_to_ragas_formats.py:80-91 | none of the five substitutions after the image tags creates an image tag: each leaves newlines where it deletes or deletes up to a newline or the end |
| Evaluator.CreateDataset | evaluate_dataset.py:91-105 | the four columns have the input's length |
| Evaluator.CreateDatasetRows | evaluate_dataset.py:95-98 | reading row `i` back gives sample `i`, with ground truth defaulting to the answer |
| Evaluator.SliceOfCreate | evaluate_dataset.py:177-183 | a batch cut from the dataset is the dataset of that range of samples |
| Evaluator.NumBatchesCeiling | evaluate_dataset.py:167 | the batch count is the ceiling of total over batch size, zero iff there are no samples |
| Evaluator.BatchBounds | evaluate_dataset.py:172-174 | each batch is a non-empty range of at most `batch_size` samples within the dataset |
| Evaluator.BatchesContiguous | evaluate_dataset.py:172-174 | each batch starts where the previous ended; the first starts at 0 and the last ends at the total |
| Evaluator.BatchCover | evaluate_dataset.py:172-174 | every sample lies in exactly one batch |
| Evaluator.TierOf | evaluate_dataset.py:236-245 | the throttled tier is chosen iff the message has `Connection error` or `timeout` in any case; the rate tier iff it has neither but has `rate` or `limit` in any case; the transient tier otherwise |
| Evaluator.BackoffBounds | evaluate_dataset.py:234-248 | waits are `5·3^a + [5,15]`, `5·4^a + [10,30]` or `5 + [1,5]` by tier, and the throttled wait grows with the attempt |
| Evaluator.Lead | evaluate_dataset.py:210-217 | for a batch after the first, every attempt is preceded by a jitter; the attempt's call comes last |
| Evaluator.Pause | evaluate_dataset.py:234-248 | a wait follows a failed attempt except the last |
| Evaluator.BatchResult | evaluate_dataset.py:205-251 | a batch returns the first successful attempt's result, and None iff every attempt failed |
| Evaluator.BatchTraceShape | evaluate_dataset.py:205-251 | every call in the trace is an attempt below `max_retries`, preceded by a jitter iff the batch is not the first; the trace ends with a call |
| Evaluator.EvaluateBatch | evaluate_dataset.py:201-251 | the retry loop produces exactly the modelled trace and result |
| Evaluator.PresentFirst | evaluate_dataset.py:187-199 | the success list is empty iff every batch failed; its first entry is the first successful batch's |
| Evaluator.FirstBatchWins | evaluate_dataset.py:187-199 | the merged result is the first successful batch's, and None iff all batches failed |
| Evaluator.RunBatch | evaluate_dataset.py:173-187 | one iteration cuts its batch and evaluates it |
| Evaluator.MergeResults | evaluate_dataset.py:253-263 | the merge returns the first batch result |
| Evaluator.RunBatchEvaluation | evaluate_dataset.py:162-199 | the method returns the first successful batch's result (None iff none) and the number of successful batches |
| Evaluator.QualityAuditSpec | evaluate_dataset.py:146-158 | the audited metrics are exactly the selected metrics that have a column; each audit counts the exact zeros and the missing values of that column |
| Evaluator.ZerosAndMissing | evaluate_dataset.py:152-153 | zero and missing counts together never exceed the column length |
| Evaluator.RunSpec | evaluate_dataset.py:113-142 | the run returns the first success with its audit, raises the last failure iff all attempts fail, and waits `(attempt+1)·10` between attempts |
| Evaluator.RunEvaluation | evaluate_dataset.py:107-142 | the retry loop produces exactly the modelled waits and ending |
| Evaluator.CheckQuality | evaluate_dataset.py:144-160 | the audit loop yields exactly the modelled audit |
| Evaluator.BaseColumns | evaluate_dataset.py:270-274 | the saved table starts with `question`, `answer`, `ground_truth` |
| Evaluator.CombinedSpec | evaluate_dataset.py:277-282 | score columns are appended only under new names; base columns stay first and names stay distinct |
| Evaluator.SaveColumns | evaluate_dataset.py:265-284 | the saved columns are the base columns plus the new score columns |
| Fetching.ValueEnd | get_answer_parallel.py:117 | read as a JSON string (the corrected reading behind the second Findings row, in place of the as-written `find('"}')` of `RawContent`), the value ends at a `"` followed by `}`, skipping escaped characters |
| Fetching.RawContent | get_answer_parallel.py:115-119 | the value is cut only when the reply holds the content marker, and the cut value never contains `"}` |
| Fetching.UnescapeEscape | get_answer_parallel.py:121 | unescaping inverts the JSON escaping of `"` and newline for text without backslashes or control characters other than newline |
| Fetching.ContentAt | get_answer_parallel.py:115-121 | a reply whose first quote opens the content marker, followed by the escaped value of a text without backslashes or control characters other than newline and without `"}`, and then `"}`, yields that text |
| Fetching.ContentRoundTrip | get_answer_parallel.py:115-121 | any reply built as prefix + marker + escaped text + `"}` + suffix yields the text back, for text without backslashes or control characters other than newline and without `"}` |
| Fetching.EscapeNoQuoteBrace | get_answer_parallel.py:116-121 | escaping text without backslashes or control characters other than newline and without `"}` creates no `"}`, so the cut cannot fall inside the value |
| Fetching.EscapedQuoteCutsValue | get_answer_parallel.py:116-121 | the as-written `find('"}')` cuts the value `a\"}b` to `a\` |
| Fetching.EscapedQuoteKept | get_contexts_parallel.py:114-120 | read to the end of the JSON string, the same reply yields `a"}b` |
| Fetching.JsonContentRoundTrip | get_answer_parallel.py:115-121 | read to the end of the JSON string (the corrected half of the second Findings row), any text without backslashes or control characters other than newline comes back, `"}` included |
| Fetching.SaveFromSpec | get_answer_parallel.py:189-213 | the save succeeds iff one of three attempts does; it stops at the first success; writes alternate with one-second pauses, none after the last attempt |
| Fetching.SafeUpdate | get_contexts_parallel.py:141-164 | the retry loop produces exactly the modelled attempts and result |
| Fetching.Bump | get_answer_parallel.py:292 | one result raises the counter of its own status by one and leaves the other three as they were |
| Fetching.TaskRowsMember | get_answer_parallel.py:261-265 | a row is a task iff its question is non-blank |
| Fetching.TaskRowsOrdered | get_contexts_parallel.py:209-213 | tasks come in increasing row order |
| Fetching.TallyTotal | get_answer_parallel.py:290-295 | the counters sum to the number of finished tasks |
| Fetching.TallyOrderFree | get_contexts_parallel.py:238-240 | the tally does not depend on completion order |
| Fetching.ProgressPointsSpec | get_answer_parallel.py:295-296 | progress is logged after completion `x` iff `x` is a multiple of 5 or the last |
| Fetching.SuccessRateBounds | get_answer_parallel.py:309 | the rate exists iff tasks exceed skipped, and then lies between 0 and 100 |
| Fetching.FinishTasks | get_contexts_parallel.py:238-247 | the loop writes every finished task's row, tallies its status and logs progress at the modelled points |
| Fetching.RunTasks | get_answer_parallel.py:261-309 | no tasks gives no report; otherwise the sheet holds every task's result, and the summary has the tally, all progress points and the guarded rate |
| AnswerFetch.NameAt | get_answer_parallel.py:46-62 | read up to the closing `%22`, a found name ends in the pattern's extension |
| AnswerFetch.FindNames | get_answer_parallel.py:46-62 | read up to the closing `%22`, every name found ends in the extension |
| AnswerFetch.FindNamesAsWritten | get_answer_parallel.py:46-62 | with the written character class, every name found ends in the extension |
| AnswerFetch.NameFound | get_answer_parallel.py:46-62 | read up to the closing `%22` (the corrected half of the third Findings row), a name written as prefix + name + close is found, and the search resumes after it |
| AnswerFetch.PlainDocAgrees | get_answer_parallel.py:56 | for the unencoded `.doc` pattern the character class and the corrected matcher find the same names |
| AnswerFetch.AsWrittenExcludesClose | get_answer_parallel.py:46-62 | names found by the written patterns never contain `%` or `2` |
| AnswerFetch.DigitTwoMissed | get_answer_parallel.py:46 | in every text, the written pattern misses the encoded name `a2.doc` |
| AnswerFetch.DigitTwoFound | get_answer_parallel.py:46 | the corrected matcher finds exactly `a2.doc` |
| AnswerFetch.AllNamesAgree | get_answer_parallel.py:36-68 | on a text without any URL-encoded `docFileName%22%3A%22` field, the written patterns and the reading up to `%22` find the same names |
| AnswerFetch.NoPrefixNoNames | get_answer_parallel.py:46-62 | a pattern whose prefix does not occur finds no names |
| AnswerFetch.AppendNew | get_answer_parallel.py:48-53 | appending unseen names keeps the list the de-duplication of everything seen |
| AnswerFetch.ParseReferenceNames | get_answer_parallel.py:36-68 | the result is the de-duplicated concatenation of encoded `.doc`, unencoded `.doc` and encoded `.xlsx` names found by the written character-class patterns; `""` gives `[]` |
| AnswerFetch.ReferenceNamesSpec | get_answer_parallel.py:36-68 | for every text, the names are distinct and are exactly the names the written patterns find |
| AnswerFetch.ReferenceNamesOrder | get_answer_parallel.py:36-68 | the names keep first-occurrence order across the three patterns |
| AnswerFetch.CutAtReferenceSpec | get_answer_parallel.py:125-126 | the kept answer has no reference div; with one, it is the stripped text before the first div; without, the answer |
| AnswerFetch.CleanAiResponse | get_answer_parallel.py:70-92 | `""` gives `""`; a reply without the marker or without a `"}` after it gives `无法解析回答内容` |
| AnswerFetch.CleanAiResponseSpec | get_answer_parallel.py:77-90 | an answer cut at the first `"}` after the marker is then cut at the reference div and stripped, and contains no div |
| AnswerFetch.ReferenceLineCount | get_answer_parallel.py:147-152 | a reference line ends in one newline when the entry has a name, and is empty otherwise |
| AnswerFetch.ReferenceTextLines | get_answer_parallel.py:147-152 | the reference text has one line per entry with `docFileName` |
| AnswerFetch.QueryAnswer | get_answer_parallel.py:107-187 | success iff the request succeeded; failure gives empty answer and reference with the error; an unparsable reply succeeds with `无法解析回答内容` |
| AnswerFetch.QueryAnswerRoundTrip | get_answer_parallel.py:115-127 | a reply carrying the escaped form of an answer without backslashes or control characters other than newline, without `"}` and without a reference div yields that answer and an empty reference |
| AnswerFetch.QueryAnswerWithBlock | get_answer_parallel.py:124-157 | with a reference div, the answer is the stripped text before it and the reference is built from the decoded block after it, the value being cut at the first `"}` |
| AnswerFetch.AnswerOutcome | get_answer_parallel.py:215-240 | skipped iff the answer is filled; api_failed iff the request failed; completed iff it succeeded and a save attempt did; only completed writes answer and reference |
| AnswerFetch.SkipNeedsNothing | get_answer_parallel.py:223-225 | a skipped row's outcome depends neither on the service nor on the file |
| AnswerFetch.AnsweredRow | get_answer_parallel.py:215-240 | only answer and reference change; a row with a blank question or a filled answer is unchanged |
| AnswerFetch.ProcessAnswers | get_answer_parallel.py:242-313 | every row ends as its answered row; no report iff every question is blank; otherwise the counters are the tally, sum to the task count, and the rate is guarded |
| ContextFetch.HtmlToText | get_contexts_parallel.py:37-40 | empty text is returned unchanged; anything else goes to the converter |
| ContextFetch.QueryContexts | get_contexts_parallel.py:96-139 | found iff the request succeeded, the marker is present and a `"}` follows it; then the text is the converted value cut at that `"}`, else `("", False)` |
| ContextFetch.QueryContextsRoundTrip | get_contexts_parallel.py:114-126 | a reply carrying the escaped form of passages without backslashes or control characters other than newline and without `"}` yields their conversion |
| ContextFetch.ContextOutcome | get_contexts_parallel.py:166-191 | skipped iff Contexts is filled; api_failed iff nothing was extracted; completed iff a save attempt succeeded; only completed writes Contexts |
| ContextFetch.SkipNeedsNothing | get_contexts_parallel.py:174-176 | a skipped row's outcome depends neither on the service nor on the file |
| ContextFetch.ContextRow | get_contexts_parallel.py:166-191 | only Contexts changes; a row with a blank question or filled Contexts is unchanged |
| ContextFetch.ProcessContexts | get_contexts_parallel.py:193-261 | every row ends as its context row; no report iff every question is blank; otherwise the counters are the tally, sum to the task count, and the rate is guarded |

## Left out

- File and OS I/O (pickle, Excel, `os.listdir`/`stat`/`unlink`, temp files) are not modelled. The state directory is a map, and the Excel file a sequence of rows.
- Failures of `stat` and `unlink` are listing entries and a set of locked names.
- The Streamlit UI is not modelled: pages, progress bars, session state, `main`, `display_metrics_info`, and the remainder of `display_evaluation_results` after the truncation.
- Logging is not modelled, and neither are `print_summary`, `load_dataset` or `evaluate_partial_data`.
- Concurrency is not modelled. Thread pools and `as_completed` become a completion order that is any permutation of the tasks. `file_lock` becomes nothing, since each save is a single step.
- Floating point is not modelled. Directory sizes are whole bytes and ages whole seconds. Random draws are only constrained to their intervals. Score parsing accepts exact decimals, and the success rate is an exact real.
- The MD5 fingerprint, timestamps and the `timestamp` field of a checkpoint are not modelled. The fingerprint is an opaque string.
- The HTTP service, the scoring call, the LLM and the embeddings are parameters returning an outcome. In the fetch scripts each row's request carries its own session id (`thirdId`), so the service is a function of the row index as well as the question.
- `html_to_text` beyond its early return is a parameter, because it depends on the html2text library.
- The URL decoding and JSON parsing of the reference block are a `decode` parameter returning the decoded entries (`get_answer_parallel.py:132-146`). So is the choice of the longest URL-encoded fragment. `urllib.parse.unquote` in `parse_reference_names` is the `unquote` parameter.
- Entries of a decoded JSON list that are not objects are not modelled, nor is a reference text left half-built when decoding raises midway.
- The `响应解析出错` branch of `clean_ai_response` is not modelled: nothing in the modelled body raises.
- Column creation and the `astype('object')` conversion in `process_file_parallel` are not modelled. Neither is the fact that an empty string written to Excel reads back as NaN (`get_answer_parallel.py:249-258`, `get_contexts_parallel.py:200-206`).
- Orchestrator.Session.SaveState: assumes every checkpoint save succeeds. Failed saves and torn writes are covered by `Checkpoints.Save` and `Checkpoints.LoadAfterTornSave` but not threaded through the session.
- `Text.IsWord` approximates Python's Unicode `\w` as ASCII letters, digits, `_` and CJK ideographs U+4E00–U+9FFF. `IsDigit` covers ASCII digits only.
- `Text.Lower` models `.lower()` as ASCII lowering. This is exact for `Evaluator.TierOf`: no keyword among `timeout`, `rate` and `limit` contains `k`, which rules out the Kelvin sign, and none ends in `i`, which rules out the two-character lowering of U+0130. The case-insensitive `<img` pattern folds `i` with `I`, U+0130 and U+0131, as Python's `re.IGNORECASE` does.
- Evaluator.NumBatches: requires a positive `batch_size`; with 0, `(total + batch_size - 1) // batch_size` (`evaluate_dataset.py:167`) raises ZeroDivisionError, and no caller passes 0.
- Checkpoints.Save: the view of the state directory that the sweep acts on (its listing, `stat` results, clock, size and the names `unlink` refuses) is a parameter, not derived from the directory map. An exception escaping the sweep midway is not modelled, and neither is `cleanup_temp_excel_files` (`app.py:218`), which only deletes `tmp*.xlsx` files outside the state directory.
- `multi_file_datasets_generator.py` is not part of this model.

## Findings

| source | as written | input that shows it | evidently intended | confidence | as-written member | corrected member |
|---|---|---|---|---|---|---|
| convert_to_ragas_formats.py:78 | `re.sub(r'<img[^>]*>', '')` makes one pass, so removing an inner tag can join an outer tag around it | `<<img>img>` becomes `<img>` | no `<img` tag is left in the cleaned answer | not executed | AnswerCleaning.CleanAnswerLeavesTag | AnswerCleaning.CleanAnswerRepeatedTagFree |
| get_answer_parallel.py:116-121 | the value ends at the first `"}` after the marker, even when that quote is escaped | a reply `"content":{"type":"text","value":"a\"}b"}}` yields `a\` instead of `a"}b` | the value ends at the first unescaped `"` followed by `}` | not executed | Fetching.EscapedQuoteCutsValue | Fetching.JsonContentRoundTrip |
| get_answer_parallel.py:46-62 | `[^%22]+` is a character class that excludes `%` and `2`, not the text `%22`, so encoded names holding a `2` or any percent-escape are never found; no other file calls `parse_reference_names` | no text yields the name `a2.doc`; `docFileName%22%3A%22a2.doc%22` yields nothing | the name runs up to the closing `%22` | not executed | AnswerFetch.DigitTwoMissed | AnswerFetch.NameFound |

=== FILE: alignment.dfy ===
/**
 * Turning the fetched sheet into evaluation samples: `align_data_for_evaluation`
 * keeps the rows that have a question, an answer and usable passages; the
 * validation in `evaluate_dataset` filters the samples again, picks the known
 * metrics and decides whether scoring happens at all; the result display cuts
 * results and samples to a common length.
 */
module Alignment {
  import opened Wrappers
  import opened Text
  import opened Table
  import opened Seqs
  import opened ContextsColumn

  /** An evaluation sample: `{'question', 'answer', 'contexts', 'ground_truth'}`. */
  datatype Item = Item(question: string, answer: string, contexts: seq<string>, groundTruth: string)

  /** `any(ctx.strip() for ctx in contexts)`. */
  predicate AnyText(contexts: seq<string>) {
    exists k :: 0 <= k < |contexts| && !IsBlank(contexts[k])
  }

  // ---------------------------------------------------------------------------
  // align_data_for_evaluation

  /** The sample a row yields, or `None` when the row is skipped. */
  function AlignRow(row: Row): Option<Item> {
    if Blank(row.question) then None
    else
      var answer := Strip(Str(row.answer));
      var raw := Strip(Str(row.contexts));
      if answer != "" && raw != "" && answer != "nan" && raw != "nan" then
        var contexts := ExtractContexts(Some(raw));
        if contexts != [] && AnyText(contexts) then Some(Item(Strip(row.question.value), answer, contexts, answer))
        else None
      else None
  }

  /** The samples of `rows`, in row order. */
  function Aligned(rows: seq<Row>): seq<Item> {
    FilterMap(rows, AlignRow)
  }

  /**
   * Every row is counted once, as a sample or as skipped; sample `k` is what row
   * `KeptIndices(rows, AlignRow)[k]` yields, and those row indices increase.
   */
  lemma AlignPartition(rows: seq<Row>)
    ensures |Aligned(rows)| + Count(rows, Drops(AlignRow)) == |rows|
    ensures |KeptIndices(rows, AlignRow)| == |Aligned(rows)|
    ensures forall k :: 0 <= k < |Aligned(rows)| ==>
      KeptIndices(rows, AlignRow)[k] < |rows| && AlignRow(rows[KeptIndices(rows, AlignRow)[k]]) == Some(Aligned(rows)[k])
    ensures forall k, l :: 0 <= k < l < |Aligned(rows)| ==> KeptIndices(rows, AlignRow)[k] < KeptIndices(rows, AlignRow)[l]
  {
    FilterMapPartition(rows, AlignRow);
    KeptIndicesOrdered(rows, AlignRow);
    forall k | 0 <= k < |Aligned(rows)|
      ensures KeptIndices(rows, AlignRow)[k] < |rows| && AlignRow(rows[KeptIndices(rows, AlignRow)[k]]) == Some(Aligned(rows)[k])
    {
      FilterMapAt(rows, AlignRow, k);
    }
  }

  /** Every row that yields a sample contributes it. */
  lemma AlignComplete(rows: seq<Row>, i: nat)
    requires i < |rows| && AlignRow(rows[i]).Some?
    ensures AlignRow(rows[i]).value in Aligned(rows)
  {
    KeptIndicesComplete(rows, AlignRow, i);
    var k :| 0 <= k < |KeptIndices(rows, AlignRow)| && KeptIndices(rows, AlignRow)[k] == i;
    FilterMapPartition(rows, AlignRow);
    FilterMapAt(rows, AlignRow, k);
  }

  /** A kept sample's ground truth is its answer: the stripped, non-"nan" answer cell. */
  lemma AlignRowSample(row: Row)
    requires AlignRow(row).Some?
    ensures var it := AlignRow(row).value;
      && it.groundTruth == it.answer == Strip(Str(row.answer))
      && it.answer != "" && it.answer != "nan" && row.answer.Some?
      && it.question == Strip(row.question.value) && it.question != ""
      && Strip(Str(row.contexts)) != "" && Strip(Str(row.contexts)) != "nan" && row.contexts.Some?
      && it.contexts == ExtractContexts(Some(Strip(Str(row.contexts)))) && AnyText(it.contexts)
  {
  }

  /** The keep rule in the other direction: a row meeting all five conditions yields its sample. */
  lemma AlignRowKept(row: Row)
    requires row.question.Some? && Strip(row.question.value) != ""
    requires Strip(Str(row.answer)) != "" && Strip(Str(row.answer)) != "nan"
    requires Strip(Str(row.contexts)) != "" && Strip(Str(row.contexts)) != "nan"
    requires ExtractContexts(Some(Strip(Str(row.contexts)))) != []
    requires AnyText(ExtractContexts(Some(Strip(Str(row.contexts)))))
    ensures AlignRow(row) == Some(Item(Strip(row.question.value), Strip(Str(row.answer)),
      ExtractContexts(Some(Strip(Str(row.contexts)))), Strip(Str(row.answer))))
  {
  }

  /** The loop of `align_data_for_evaluation`. */
  method AlignForEvaluation(rows: seq<Row>) returns (aligned: seq<Item>, skipped: nat)
    ensures aligned == Aligned(rows)
    ensures skipped == Count(rows, Drops(AlignRow))
  {
    aligned, skipped := [], 0;
    var index := 0;
    while index < |rows|
      invariant 0 <= index <= |rows|
      invariant aligned == FilterMap(rows[..index], AlignRow)
      invariant skipped == Count(rows[..index], Drops(AlignRow))
    {
      var row := rows[index];
      assert rows[..index + 1][..index] == rows[..index];
      var sample := AlignOne(row);
      if sample.Some? {
        aligned := aligned + [sample.value];
      } else {
        skipped := skipped + 1;
      }
      index := index + 1;
    }
    assert rows[..index] == rows;
  }

  /** The loop body of `align_data_for_evaluation` for one row. */
  method AlignOne(row: Row) returns (sample: Option<Item>)
    ensures sample == AlignRow(row)
  {
    if Blank(row.question) {
      return None;
    }
    var question := Strip(row.question.value);
    var answer := Strip(Str(row.answer));
    var raw := Strip(Str(row.contexts));
    if answer != "" && raw != "" && answer != "nan" && raw != "nan" {
      var contexts := ExtractContextsColumn(Some(raw));
      if contexts != [] && AnyText(contexts) {
        sample := Some(Item(question, answer, contexts, answer));
      } else {
        sample := None;
      }
    } else {
      sample := None;
    }
  }

  // ---------------------------------------------------------------------------
  // evaluate_dataset

  /** A sample passes the completeness checks of `evaluate_dataset`. */
  predicate ValidSample(it: Item) {
    it.question != "" && it.answer != "" && it.contexts != [] && AnyText(it.contexts)
  }

  function ValidSamples(items: seq<Item>): seq<Item> {
    Filter(items, ValidSample)
  }

  /** The second filter never drops a sample the alignment produced. */
  lemma AlignedAreValid(rows: seq<Row>)
    ensures ValidSamples(Aligned(rows)) == Aligned(rows)
  {
    var a := Aligned(rows);
    forall k | 0 <= k < |a| ensures ValidSample(a[k]) {
      FilterMapAt(rows, AlignRow, k);
      AlignRowSample(rows[KeptIndices(rows, AlignRow)[k]]);
    }
    FilterAll(a, ValidSample);
  }

  /** The validation loop of `evaluate_dataset`. */
  method Validate(items: seq<Item>) returns (valid: seq<Item>, invalidCount: nat)
    ensures valid == ValidSamples(items)
    ensures invalidCount + |valid| == |items|
  {
    valid, invalidCount := [], 0;
    var i := 0;
    while i < |items|
      invariant 0 <= i <= |items|
      invariant valid == Filter(items[..i], ValidSample)
      invariant invalidCount + |valid| == i
    {
      var item := items[i];
      assert items[..i + 1][..i] == items[..i];
      if item.question == "" || item.answer == "" || item.contexts == [] {
        invalidCount := invalidCount + 1;
      } else if item.contexts == [] || !AnyText(item.contexts) {
        invalidCount := invalidCount + 1;
      } else {
        valid := valid + [item];
      }
      i := i + 1;
    }
    assert items[..i] == items;
  }

  /** The metric names `evaluate_dataset` knows. */
  const KnownMetrics: seq<string> := ["faithfulness", "answer_relevancy", "context_precision",
                                      "context_recall", "answer_similarity", "answer_correctness"]

  predicate Known(m: string) {
    m in KnownMetrics
  }

  /** `[metric_map[m] for m in selected_metrics if m in metric_map]`, by name. */
  function SelectMetrics(selected: seq<string>): seq<string> {
    Filter(selected, Known)
  }

  /** How `evaluate_dataset` ends. */
  datatype Evaluation =
    | NoData            // empty input
    | NoValidSamples    // every sample failed validation
    | MissingKey        // no API key in the environment
    | NoMetrics         // no selected metric is known
    | ScoringFailed     // the scoring call raised
    | Scored(samples: seq<Item>, metrics: seq<string>)

  /**
   * `evaluate_dataset` with the environment's API key and whether the scoring call
   * succeeds as parameters; an empty key counts as missing.
   */
  function EvaluateDataset(items: seq<Item>, selected: seq<string>, apiKey: Option<string>, scoringSucceeds: bool): (r: Evaluation)
    ensures r.Scored? ==> r.samples == ValidSamples(items) && r.metrics == SelectMetrics(selected)
  {
    if items == [] then NoData
    else if ValidSamples(items) == [] then NoValidSamples
    else if apiKey.None? || apiKey.value == "" then MissingKey
    else if SelectMetrics(selected) == [] then NoMetrics
    else if !scoringSucceeds then ScoringFailed
    else Scored(ValidSamples(items), SelectMetrics(selected))
  }

  /** Scoring happens only on a non-empty, fully valid sample list with at least one known metric and a key. */
  lemma ScoredOnlyWhenUsable(items: seq<Item>, selected: seq<string>, apiKey: Option<string>, scoringSucceeds: bool)
    ensures var r := EvaluateDataset(items, selected, apiKey, scoringSucceeds);
      r.Scored? <==> (exists k :: 0 <= k < |items| && ValidSample(items[k]))
                     && apiKey.Some? && apiKey.value != ""
                     && (exists k :: 0 <= k < |selected| && Known(selected[k]))
                     && scoringSucceeds
    ensures var r := EvaluateDataset(items, selected, apiKey, scoringSucceeds);
      r.Scored? ==> r.samples != [] && r.metrics != []
                    && (forall k :: 0 <= k < |r.samples| ==> ValidSample(r.samples[k]))
                    && (forall k :: 0 <= k < |r.metrics| ==> Known(r.metrics[k]))
  {
    FilterNonEmpty(items, ValidSample);
    FilterNonEmpty(selected, Known);
    FilterSpec(items, ValidSample);
    FilterSpec(selected, Known);
  }

  // ---------------------------------------------------------------------------
  // display_evaluation_results

  /** On a length mismatch, results and samples are both cut to the shorter length. */
  function Truncate<R, S>(results: seq<R>, samples: seq<S>): (r: (seq<R>, seq<S>))
    ensures |r.0| == |r.1| <= |results| && |r.1| <= |samples|
    ensures |r.0| == |results| || |r.1| == |samples|
    ensures r.0 == results[..|r.0|] && r.1 == samples[..|r.1|]
  {
    if |results| != |samples| then
      var m := if |results| < |samples| then |results| else |samples|;
      (results[..m], samples[..m])
    else (results, samples)
  }

  /** Cutting is idempotent, and a no-op when the lengths already agree. */
  lemma TruncateIdempotent<R, S>(results: seq<R>, samples: seq<S>)
    ensures var t := Truncate(results, samples); Truncate(t.0, t.1) == t
    ensures |results| == |samples| ==> Truncate(results, samples) == (results, samples)
  {
  }
}

=== FILE: answer_cleaning.dfy ===
/**
 * `clean_ai_answer`: the fetched answer text loses its image tags and the
 * "相关图片" (related pictures) paragraphs, runs of blank lines shrink to one
 * blank line, and the result is stripped.
 *
 * Each step is one `re.sub` with a fixed pattern. A `Rule` names the pattern;
 * `MatchEnd` says where the regular-expression engine's match starting at a
 * position ends (leftmost, with the engine's greedy and lazy choices), and
 * `SubFrom` is `re.sub`'s left-to-right scan over non-overlapping matches.
 */
module AnswerCleaning {
  import opened Wrappers
  import opened Text

  const Pictures: string := "相关图片"

  /** The six substitutions, in the order they run. */
  datatype Rule =
    | ImageTag          // <img[^>]*>                          -> ""      (IGNORECASE | DOTALL)
    | PictureParagraph  // \n\n\s*相关图片[^.\n]*?\s*\n\n       -> "\n\n"  (IGNORECASE)
    | TrailingPictures  // \n\n\s*相关图片[^.\n]*?\s*$          -> ""      (IGNORECASE)
    | PictureLine       // \n\s*相关图片[^.\n]*?\s*\n           -> "\n"    (IGNORECASE)
    | PictureTail       // 相关图片[^.\n]*?$                    -> ""      (IGNORECASE | MULTILINE)
    | BlankLines        // \n\s*\n\s*\n                         -> "\n\n"

  function Replacement(rule: Rule): string {
    match rule
    case PictureParagraph => "\n\n"
    case PictureLine => "\n"
    case BlankLines => "\n\n"
    case _ => ""
  }

  // ---------------------------------------------------------------------------
  // Matching

  /**
   * `i` under IGNORECASE: besides `i` and `I`, the engine folds the dotted
   * capital I and the dotless small i onto it.
   */
  predicate FoldsToI(c: char) {
    c == 'i' || c == 'I' || c == '\U{0130}' || c == '\U{0131}'
  }

  /** `<img` at `i`, ignoring case. */
  predicate ImgAt(s: string, i: nat) {
    i + 4 <= |s| && s[i] == '<' && FoldsToI(s[i + 1]) && (s[i + 2] == 'm' || s[i + 2] == 'M') && (s[i + 3] == 'g' || s[i + 3] == 'G')
  }

  /** `<img[^>]*>` at `i`: the tag runs to the first `>` after `<img`. */
  function ImageTagEnd(s: string, i: nat): (r: Option<nat>)
    ensures r.Some? ==> i + 5 <= r.value <= |s|
  {
    if ImgAt(s, i) then
      var g := CharFrom(s, '>', i + 4);
      if g < |s| then Some(g + 1) else None
    else None
  }

  /** The last `\n` in `s[lo..hi]`. */
  function LastNewline(s: string, lo: nat, hi: nat): (r: Option<nat>)
    requires lo <= hi <= |s|
    ensures r.Some? ==> lo <= r.value < hi && s[r.value] == '\n'
    ensures r.Some? ==> forall k :: r.value < k < hi ==> s[k] != '\n'
    ensures r.None? ==> forall k :: lo <= k < hi ==> s[k] != '\n'
    decreases hi - lo
  {
    if hi == lo then None
    else if s[hi - 1] == '\n' then Some(hi - 1)
    else LastNewline(s, lo, hi - 1)
  }

  /** The last `\n\n` inside `s[lo..hi]`. */
  function LastPair(s: string, lo: nat, hi: nat): (r: Option<nat>)
    requires lo <= hi <= |s|
    ensures r.Some? ==> lo <= r.value && r.value + 2 <= hi && s[r.value] == '\n' && s[r.value + 1] == '\n'
    decreases hi - lo
  {
    if hi < lo + 2 then None
    else if s[hi - 2] == '\n' && s[hi - 1] == '\n' then Some(hi - 2)
    else LastPair(s, lo, hi - 1)
  }

  /**
   * The part after `[^.\n]*?`, tried at `k`: `\s*` backs off from the end of
   * the whitespace run to the last place where the rest of the pattern fits.
   */
  function TailEnd(rule: Rule, s: string, k: nat): (r: Option<nat>)
    requires k <= |s|
    ensures r.Some? ==> k <= r.value <= |s|
    ensures r.Some? && rule == PictureParagraph ==> k + 2 <= r.value
    ensures r.Some? && rule == PictureLine ==> k + 1 <= r.value
    ensures r.Some? && rule == TrailingPictures ==> r.value == |s|
    ensures r.Some? && rule == PictureTail ==> r.value == |s| || s[r.value] == '\n'
  {
    match rule
    case PictureParagraph =>                     // \s*\n\n
      (match LastPair(s, k, SpaceRunEnd(s, k))
       case Some(t) => Some(t + 2)
       case None => None)
    case TrailingPictures =>                     // \s*$
      if SpaceRunEnd(s, k) == |s| then Some(|s|) else None
    case PictureLine =>                          // \s*\n
      (match LastNewline(s, k, SpaceRunEnd(s, k))
       case Some(t) => Some(t + 1)
       case None => None)
    case PictureTail =>                          // $ with MULTILINE
      if k == |s| || s[k] == '\n' then Some(k) else None
    case _ => None
  }

  /** `[^.\n]*?` from `k`: the shortest extension after which the tail fits. */
  function LazyFrom(rule: Rule, s: string, k: nat): (r: Option<nat>)
    requires k <= |s|
    ensures r.Some? ==> k <= r.value <= |s|
    ensures r.Some? && rule == PictureParagraph ==> k + 2 <= r.value
    ensures r.Some? && rule == PictureLine ==> k + 1 <= r.value
    ensures r.Some? && rule == TrailingPictures ==> r.value == |s|
    ensures r.Some? && rule == PictureTail ==> r.value == |s| || s[r.value] == '\n'
    decreases |s| - k
  {
    match TailEnd(rule, s, k)
    case Some(e) => Some(e)
    case None =>
      if k < |s| && s[k] != '.' && s[k] != '\n' then LazyFrom(rule, s, k + 1) else None
  }

  /** `相关图片` at `j`, followed by the lazy part and the tail. */
  function PicturesFrom(rule: Rule, s: string, j: nat): (r: Option<nat>)
    requires j <= |s|
    ensures r.Some? ==> j + 4 <= r.value <= |s|
    ensures r.Some? && rule == PictureParagraph ==> j + 6 <= r.value
    ensures r.Some? && rule == PictureLine ==> j + 5 <= r.value
    ensures r.Some? && rule == TrailingPictures ==> r.value == |s|
    ensures r.Some? && rule == PictureTail ==> r.value == |s| || s[r.value] == '\n'
  {
    if OccursAt(s, Pictures, j) then LazyFrom(rule, s, j + 4) else None
  }

  /** Where the match of `rule` that starts at `i` ends, if there is one. */
  function MatchEnd(rule: Rule, s: string, i: nat): (r: Option<nat>)
    requires i < |s|
    ensures r.Some? ==> i + |Replacement(rule)| < r.value <= |s|
    ensures r.Some? && rule == TrailingPictures ==> r.value == |s|
    ensures r.Some? && rule == PictureTail ==> r.value == |s| || s[r.value] == '\n'
  {
    match rule
    case ImageTag => ImageTagEnd(s, i)
    case PictureParagraph | TrailingPictures =>  // \n\n\s*相关图片…
      if OccursAt(s, "\n\n", i) then PicturesFrom(rule, s, SpaceRunEnd(s, i + 2)) else None
    case PictureLine =>                          // \n\s*相关图片…
      if s[i] == '\n' then PicturesFrom(rule, s, SpaceRunEnd(s, i + 1)) else None
    case PictureTail => PicturesFrom(rule, s, i)
    case BlankLines =>                           // \n\s*\n\s*\n: up to the last newline of the run
      if s[i] == '\n' then
        var run := SpaceRunEnd(s, i + 1);
        match LastNewline(s, i + 1, run)
        case Some(t2) => if LastNewline(s, i + 1, t2).Some? then Some(t2 + 1) else None
        case None => None
      else None
  }

  // ---------------------------------------------------------------------------
  // Substitution

  /** `re.sub` from position `i` on: each match is replaced, every other character kept. */
  function SubFrom(rule: Rule, s: string, i: nat): string
    decreases |s| - i
  {
    if i >= |s| then []
    else
      match MatchEnd(rule, s, i)
      case Some(e) => Replacement(rule) + SubFrom(rule, s, e)
      case None => [s[i]] + SubFrom(rule, s, i + 1)
  }

  function Sub(rule: Rule, s: string): string {
    SubFrom(rule, s, 0)
  }

  /** Text with no match is left as it is. */
  lemma {:induction false} SubNoMatch(rule: Rule, s: string, i: nat)
    requires i <= |s|
    requires forall k :: i <= k < |s| ==> MatchEnd(rule, s, k).None?
    ensures SubFrom(rule, s, i) == s[i..]
    decreases |s| - i
  {
    if i < |s| {
      SubNoMatch(rule, s, i + 1);
    }
  }

  /** A substitution never lengthens the text, and shortens it when there is a match. */
  lemma {:induction false} SubLength(rule: Rule, s: string, i: nat)
    requires i <= |s|
    ensures |SubFrom(rule, s, i)| <= |s| - i
    ensures (exists k :: i <= k < |s| && MatchEnd(rule, s, k).Some?) ==> |SubFrom(rule, s, i)| < |s| - i
    decreases |s| - i
  {
    if i < |s| {
      match MatchEnd(rule, s, i)
      case Some(e) =>
        SubLength(rule, s, e);
      case None =>
        SubLength(rule, s, i + 1);
    }
  }

  // ---------------------------------------------------------------------------
  // Image tags

  /** No image tag starts anywhere in `s`. */
  predicate TagFree(s: string) {
    forall i :: 0 <= i < |s| ==> ImageTagEnd(s, i).None?
  }

  /** Removing image tags until none is left. */
  function RemoveImages(s: string): (r: string)
    ensures |r| <= |s|
    decreases |s|
  {
    var t := Sub(ImageTag, s);
    SubLength(ImageTag, s, 0);
    if |t| < |s| then RemoveImages(t) else s
  }

  /** The result has no image tag, and text without one is left alone. */
  lemma {:induction false} RemoveImagesSpec(s: string)
    ensures TagFree(RemoveImages(s))
    ensures TagFree(s) ==> RemoveImages(s) == s
    decreases |s|
  {
    var t := Sub(ImageTag, s);
    SubLength(ImageTag, s, 0);
    if |t| < |s| {
      RemoveImagesSpec(t);
      if TagFree(s) {
        SubNoMatch(ImageTag, s, 0);
      }
    } else {
      forall i | 0 <= i < |s| ensures ImageTagEnd(s, i).None? {
        assert MatchEnd(ImageTag, s, i) == ImageTagEnd(s, i);
      }
    }
  }

  /** A single pass leaves a tag behind when removing one tag closes another around it. */
  lemma SinglePassLeavesTag()
    ensures Sub(ImageTag, "<<img>img>") == "<img>"
    ensures ImageTagEnd("<img>", 0) == Some(5)
  {
    var s := "<<img>img>";
    assert ImageTagEnd(s, 1) == Some(6) by {
      assert CharFrom(s, '>', 5) == 5;
    }
    assert SubFrom(ImageTag, s, 6) == "img>" by {
      assert !ImgAt(s, 6) && !ImgAt(s, 7) && !ImgAt(s, 8) && !ImgAt(s, 9);
      assert SubFrom(ImageTag, s, 9) == ">";
      assert SubFrom(ImageTag, s, 8) == "g>";
      assert SubFrom(ImageTag, s, 7) == "mg>";
    }
    assert !ImgAt(s, 0);
    assert CharFrom("<img>", '>', 4) == 4;
  }

  /** An image tag in `u` from the `<img` at `p` to the `>` at `g`. */
  predicate TagAt(u: string, p: nat, g: nat) {
    ImgAt(u, p) && p + 4 <= g < |u| && u[g] == '>'
  }

  /** Text is tag-free exactly when no `<img` in it has a `>` after it. */
  lemma TagFreeIff(u: string)
    ensures TagFree(u) <==> forall p: nat, g: nat :: !TagAt(u, p, g)
  {
    if TagFree(u) {
      forall p: nat, g: nat | p < |u| && ImgAt(u, p) ensures !(p + 4 <= g < |u| && u[g] == '>') {
        assert ImageTagEnd(u, p).None?;
      }
    } else {
      var p :| 0 <= p < |u| && ImageTagEnd(u, p).Some?;
      assert TagAt(u, p, CharFrom(u, '>', p + 4));
    }
  }

  /** The characters of `u` up to index `q` hold no newline. */
  predicate NoNewlineThrough(u: string, q: nat) {
    forall k :: 0 <= k <= q && k < |u| ==> u[k] != '\n'
  }

  /** A match of a step after the image tags is replaced by newlines only. */
  lemma ReplacementNewlines(rule: Rule)
    requires rule != ImageTag
    ensures forall k :: 0 <= k < |Replacement(rule)| ==> Replacement(rule)[k] == '\n'
  {
  }

  /**
   * The output of a step after the image tags from a match on starts with a
   * newline: the replacement's, or the one the deleted match runs up to.
   */
  lemma MatchOutputHead(rule: Rule, s: string, i: nat, e: nat)
    requires rule != ImageTag && i < |s| && MatchEnd(rule, s, i) == Some(e)
    ensures SubFrom(rule, s, i) == Replacement(rule) + SubFrom(rule, s, e)
    ensures SubFrom(rule, s, i) == [] || SubFrom(rule, s, i)[0] == '\n'
  {
    var rest := SubFrom(rule, s, e);
    if rule == PictureTail && e < |s| {
      assert s[e] == '\n';
      assert MatchEnd(rule, s, e).None? by {
        if e + 4 <= |s| {
          assert s[e..e + 4][0] == s[e];
        }
      }
      assert rest == [s[e]] + SubFrom(rule, s, e + 1);
    }
  }

  /** A `>` in the output of a step after the image tags stands for a `>` of the input at the same place or later. */
  lemma {:induction false} GtOrigin(rule: Rule, s: string, i: nat, q: nat)
    requires rule != ImageTag && i <= |s|
    requires q < |SubFrom(rule, s, i)| && SubFrom(rule, s, i)[q] == '>'
    ensures exists j :: i + q <= j < |s| && s[j] == '>'
    decreases |s| - i
  {
    var out := SubFrom(rule, s, i);
    match MatchEnd(rule, s, i)
    case Some(e) =>
      MatchOutputHead(rule, s, i, e);
      ReplacementNewlines(rule);
      var n := |Replacement(rule)|;
      assert q >= n;
      assert SubFrom(rule, s, e)[q - n] == '>';
      GtOrigin(rule, s, e, q - n);
    case None =>
      var rest := SubFrom(rule, s, i + 1);
      assert out == [s[i]] + rest;
      if q == 0 {
        assert s[i] == '>';
      } else {
        assert rest[q - 1] == '>';
        GtOrigin(rule, s, i + 1, q - 1);
      }
  }

  /**
   * Up to its first newline, the output of a step after the image tags is the
   * input verbatim: a match either leaves newlines in its place or runs to a
   * newline or the end.
   */
  lemma {:induction false} VerbatimAt(rule: Rule, s: string, i: nat, q: nat)
    requires rule != ImageTag && i <= |s|
    requires q < |SubFrom(rule, s, i)| && NoNewlineThrough(SubFrom(rule, s, i), q)
    ensures i + q < |s| && SubFrom(rule, s, i)[q] == s[i + q]
    decreases |s| - i
  {
    var out := SubFrom(rule, s, i);
    match MatchEnd(rule, s, i)
    case Some(e) =>
      MatchOutputHead(rule, s, i, e);
      assert false;
    case None =>
      var rest := SubFrom(rule, s, i + 1);
      assert out == [s[i]] + rest;
      if q > 0 {
        assert NoNewlineThrough(rest, q - 1) by {
          forall k | 0 <= k <= q - 1 && k < |rest| ensures rest[k] != '\n' {
            assert rest[k] == out[k + 1];
          }
        }
        VerbatimAt(rule, s, i + 1, q - 1);
        assert out[q] == rest[q - 1];
      }
  }

  /** A tag past the first part of a concatenation is a tag of the second part. */
  lemma TagInSuffix(u: string, v: string, p: nat, g: nat)
    requires TagAt(u + v, p, g) && p >= |u|
    ensures TagAt(v, p - |u|, g - |u|)
  {
    var w := u + v;
    assert w[p] == v[p - |u|] && w[p + 1] == v[p + 1 - |u|] && w[p + 2] == v[p + 2 - |u|] && w[p + 3] == v[p + 3 - |u|];
    assert w[g] == v[g - |u|];
  }

  /** An `<img` at the head of the output, with a `>` after it, is a tag of the input at the same place. */
  lemma HeadTag(rule: Rule, s: string, i: nat, g: nat)
    requires rule != ImageTag && i < |s| && MatchEnd(rule, s, i).None?
    requires TagAt(SubFrom(rule, s, i), 0, g)
    ensures exists j :: TagAt(s, i, j)
  {
    var out := SubFrom(rule, s, i);
    var rest := SubFrom(rule, s, i + 1);
    assert out == [s[i]] + rest;
    assert |rest| >= 3 && out[1] == rest[0] && out[2] == rest[1] && out[3] == rest[2];
    VerbatimAt(rule, s, i + 1, 0);
    VerbatimAt(rule, s, i + 1, 1);
    VerbatimAt(rule, s, i + 1, 2);
    assert ImgAt(s, i);
    assert rest[g - 1] == '>';
    GtOrigin(rule, s, i + 1, g - 1);
    var j :| i + 1 + (g - 1) <= j < |s| && s[j] == '>';
    assert TagAt(s, i, j);
  }

  /** Every image tag in the output of a step after the image tags was already a tag of its input. */
  lemma {:induction false} SubTagsFrom(rule: Rule, s: string, i: nat)
    requires rule != ImageTag && i <= |s|
    ensures forall p: nat, g: nat :: TagAt(SubFrom(rule, s, i), p, g) ==> exists p': nat, g': nat :: i <= p' && TagAt(s, p', g')
    decreases |s| - i
  {
    var out := SubFrom(rule, s, i);
    if i < |s| {
      match MatchEnd(rule, s, i)
      case Some(e) =>
        SubTagsFrom(rule, s, e);
        MatchOutputHead(rule, s, i, e);
        ReplacementNewlines(rule);
        var rest := SubFrom(rule, s, e);
        var n := |Replacement(rule)|;
        forall p: nat, g: nat | TagAt(out, p, g) ensures exists p': nat, g': nat :: i <= p' && TagAt(s, p', g') {
          assert p >= n;
          TagInSuffix(Replacement(rule), rest, p, g);
        }
      case None =>
        SubTagsFrom(rule, s, i + 1);
        var rest := SubFrom(rule, s, i + 1);
        assert out == [s[i]] + rest;
        forall p: nat, g: nat | TagAt(out, p, g) ensures exists p': nat, g': nat :: i <= p' && TagAt(s, p', g') {
          if p > 0 {
            TagInSuffix([s[i]], rest, p, g);
          } else {
            HeadTag(rule, s, i, g);
          }
        }
    }
  }

  /** The steps after the image tags never create an image tag. */
  lemma SubKeepsTagFree(rule: Rule, s: string)
    requires rule != ImageTag && TagFree(s)
    ensures TagFree(Sub(rule, s))
  {
    TagFreeIff(s);
    SubTagsFrom(rule, s, 0);
    TagFreeIff(Sub(rule, s));
  }

  /** Neither does the final `strip()`. */
  lemma StripKeepsTagFree(s: string)
    requires TagFree(s)
    ensures TagFree(Strip(s))
  {
    var r := Strip(s);
    var o := StripOffset(s);
    StripSpec(s);
    TagFreeIff(s);
    forall p: nat, g: nat | TagAt(r, p, g) ensures TagAt(s, o + p, o + g) {
      assert r[p] == s[o + p] && r[p + 1] == s[o + p + 1] && r[p + 2] == s[o + p + 2] && r[p + 3] == s[o + p + 3];
    }
    TagFreeIff(r);
  }

  // ---------------------------------------------------------------------------
  // clean_ai_answer

  /** The steps after the image tags, then the final `strip()`. */
  function CleanRest(s: string): string {
    var b := Sub(PictureParagraph, s);
    var c := Sub(TrailingPictures, b);
    var d := Sub(PictureLine, c);
    var e := Sub(PictureTail, d);
    Strip(Sub(BlankLines, e))
  }

  /** `clean_ai_answer`: one image-tag pass, then the remaining steps. */
  function CleanAnswer(cell: Option<string>): (r: string)
    ensures cell.None? || cell.value == "" ==> r == ""
  {
    if cell.None? || cell.value == "" then ""
    else CleanRest(Sub(ImageTag, Strip(cell.value)))
  }

  /** `clean_ai_answer` with the image-tag step repeated until no tag is left. */
  function CleanAnswerRepeated(cell: Option<string>): (r: string)
    ensures cell.None? || cell.value == "" ==> r == ""
  {
    if cell.None? || cell.value == "" then ""
    else CleanRest(RemoveImages(Strip(cell.value)))
  }

  /** Every step only removes or shortens, and the result has no whitespace at either end. */
  lemma CleanAnswerShape(cell: Option<string>)
    ensures cell.Some? ==> |CleanAnswer(cell)| <= |cell.value|
    ensures Trimmed(CleanAnswer(cell))
  {
    if cell.Some? && cell.value != "" {
      StripTrims(cell.value);
      SubShorter(ImageTag, Strip(cell.value));
      CleanRestShape(Sub(ImageTag, Strip(cell.value)));
    }
  }

  /** The same holds of the repeated image-tag removal. */
  lemma CleanAnswerRepeatedShape(cell: Option<string>)
    ensures cell.Some? ==> |CleanAnswerRepeated(cell)| <= |cell.value|
    ensures Trimmed(CleanAnswerRepeated(cell))
  {
    if cell.Some? && cell.value != "" {
      StripTrims(cell.value);
      CleanRestShape(RemoveImages(Strip(cell.value)));
    }
  }

  /** With the tag removal repeated, the cleaned answer holds no image tag at all. */
  lemma CleanAnswerRepeatedTagFree(cell: Option<string>)
    ensures TagFree(CleanAnswerRepeated(cell))
  {
    if cell.Some? && cell.value != "" {
      var a := RemoveImages(Strip(cell.value));
      RemoveImagesSpec(Strip(cell.value));
      var b := Sub(PictureParagraph, a);
      var c := Sub(TrailingPictures, b);
      var d := Sub(PictureLine, c);
      var e := Sub(PictureTail, d);
      SubKeepsTagFree(PictureParagraph, a);
      SubKeepsTagFree(TrailingPictures, b);
      SubKeepsTagFree(PictureLine, c);
      SubKeepsTagFree(PictureTail, d);
      SubKeepsTagFree(BlankLines, e);
      StripKeepsTagFree(Sub(BlankLines, e));
    }
  }

  /** The steps after the image tags never lengthen the text and leave no whitespace at either end. */
  lemma CleanRestShape(a: string)
    ensures |CleanRest(a)| <= |a| && Trimmed(CleanRest(a))
  {
    var b := Sub(PictureParagraph, a);
    var c := Sub(TrailingPictures, b);
    var d := Sub(PictureLine, c);
    var e := Sub(PictureTail, d);
    var f := Sub(BlankLines, e);
    SubShorter(PictureParagraph, a);
    SubShorter(TrailingPictures, b);
    SubShorter(PictureLine, c);
    SubShorter(PictureTail, d);
    SubShorter(BlankLines, e);
    StripTrims(f);
    assert CleanRest(a) == Strip(f);
  }

  /** A substitution never lengthens the text. */
  lemma SubShorter(rule: Rule, s: string)
    ensures |Sub(rule, s)| <= |s|
  {
    SubLength(rule, s, 0);
  }

  /** No match of `rule` starts anywhere in `s`. */
  predicate NoMatch(rule: Rule, s: string) {
    forall k :: 0 <= k < |s| ==> MatchEnd(rule, s, k).None?
  }

  /** Stripped text that none of the steps after the image tags matches comes back unchanged. */
  lemma CleanRestFixed(s: string)
    requires s != "" && !IsSpace(s[0]) && !IsSpace(s[|s| - 1])
    requires NoMatch(PictureParagraph, s) && NoMatch(TrailingPictures, s)
    requires NoMatch(PictureLine, s) && NoMatch(PictureTail, s) && NoMatch(BlankLines, s)
    ensures CleanRest(s) == s
  {
    StripTrimmed(s);
    assert s[0..] == s;
    SubNoMatch(PictureParagraph, s, 0);
    SubNoMatch(TrailingPictures, s, 0);
    SubNoMatch(PictureLine, s, 0);
    SubNoMatch(PictureTail, s, 0);
    SubNoMatch(BlankLines, s, 0);
  }

  /** Text that is already stripped and that no step matches comes back unchanged. */
  lemma CleanAnswerFixed(s: string)
    requires s != "" && !IsSpace(s[0]) && !IsSpace(s[|s| - 1])
    requires TagFree(s) && NoMatch(PictureParagraph, s) && NoMatch(TrailingPictures, s)
    requires NoMatch(PictureLine, s) && NoMatch(PictureTail, s) && NoMatch(BlankLines, s)
    ensures CleanAnswer(Some(s)) == s
  {
    StripTrimmed(s);
    assert NoMatch(ImageTag, s) by {
      forall k | 0 <= k < |s| ensures MatchEnd(ImageTag, s, k).None? {
        assert MatchEnd(ImageTag, s, k) == ImageTagEnd(s, k);
      }
    }
    SubNoMatch(ImageTag, s, 0);
    assert s[0..] == s;
    CleanRestFixed(s);
  }

  /** A single line without `相` is matched by none of the steps after the image tags. */
  lemma PlainLineUnmatched(s: string)
    requires forall k :: 0 <= k < |s| ==> s[k] != '\n' && s[k] != Pictures[0]
    ensures NoMatch(PictureParagraph, s) && NoMatch(TrailingPictures, s)
    ensures NoMatch(PictureLine, s) && NoMatch(PictureTail, s) && NoMatch(BlankLines, s)
  {
    forall k | 0 <= k < |s| ensures !OccursAt(s, Pictures, k) {
      if k + 4 <= |s| {
        assert s[k..k + 4][0] == s[k];
      }
    }
  }

  /** On text that carries no image tag the written and the repeated cleaning agree. */
  lemma CleanAnswerAgrees(cell: Option<string>)
    requires cell.Some? ==> TagFree(Strip(cell.value))
    ensures CleanAnswer(cell) == CleanAnswerRepeated(cell)
  {
    if cell.Some? && cell.value != "" {
      var s := Strip(cell.value);
      RemoveImagesSpec(s);
      SubNoMatch(ImageTag, s, 0);
    }
  }

  /** The written cleaning of `<<img>img>` still holds the image tag `<img>`. */
  lemma CleanAnswerLeavesTag(s: string, t: string)
    requires s == "<<img>img>" && t == "<img>"
    ensures CleanAnswer(Some(s)) == t && ImageTagEnd(t, 0).Some?
  {
    SinglePassLeavesTag();
    TrimmedTagged(s, t);
    TagUnchangedByRest(t);
    CleanAnswerOfStripped(s, t);
  }

  /** `<img>` is one stripped line without pictures: the steps after the image tags leave it alone. */
  lemma TagUnchangedByRest(t: string)
    requires t == "<img>"
    ensures CleanRest(t) == t
  {
    PlainLineUnmatched(t);
    CleanRestFixed(t);
  }

  /** The written cleaning of stripped text is the remaining steps over its one image-tag pass. */
  lemma CleanAnswerOfStripped(s: string, t: string)
    requires s != "" && Strip(s) == s && Sub(ImageTag, s) == t
    ensures CleanAnswer(Some(s)) == CleanRest(t)
  {
  }

  /** The repeated cleaning of `<<img>img>` removes both tags and leaves nothing. */
  lemma CleanAnswerRepeatedDropsTag(s: string, t: string)
    requires s == "<<img>img>" && t == "<img>"
    ensures CleanAnswerRepeated(Some(s)) == ""
  {
    SinglePassLeavesTag();
    TrimmedTagged(s, t);
    RemoveBothTags(s, t);
  }

  /** `<<img>img>` is its own `strip()` and longer than `<img>`. */
  lemma TrimmedTagged(s: string, t: string)
    requires s == "<<img>img>" && t == "<img>"
    ensures Strip(s) == s && s != "" && |t| < |s|
  {
    StripTrimmed(s);
  }

  /** Repeating the pass removes `<img>` as well. */
  lemma RemoveBothTags(s: string, t: string)
    requires Sub(ImageTag, s) == t && t == "<img>" && |t| < |s|
    ensures RemoveImages(s) == ""
  {
    assert Sub(ImageTag, t) == "" by {
      assert ImgAt(t, 0) && CharFrom(t, '>', 4) == 4;
      assert MatchEnd(ImageTag, t, 0) == Some(5);
      assert SubFrom(ImageTag, t, 5) == [];
    }
    assert RemoveImages("") == "" by {
      assert Sub(ImageTag, "") == "";
    }
  }
}

=== FILE: answer_fetch.dfy ===
/**
 * `get_answer_parallel.py`: ask the assistant every question of the sheet
 * that has no answer yet, and write back its answer (`AI回答`) and the list
 * of documents it cited (`参考文档`).
 *
 * The HTTP call is a `Reply`; the URL decoding and JSON parsing of the cited
 * documents block is a parameter that yields the decoded entry list.
 */
module AnswerFetch {
  import opened Wrappers
  import opened Text
  import opened Seqs
  import opened Table
  import opened Fetching
  import RagasFormats

  // ---------------------------------------------------------------------------
  // parse_reference_names

  /** A `findall` pattern of the form `prefix(name\.ext)close`. */
  datatype Pattern = Pattern(prefix: string, ext: string, close: string)

  const EncodedDoc := Pattern("docFileName%22%3A%22", ".doc", "%22")
  const PlainDoc := Pattern("\"docFileName\":\"", ".doc", "\"")
  const EncodedXlsx := Pattern("docFileName%22%3A%22", ".xlsx", "%22")

  /** The three patterns: non-empty pieces, and the extension ends with a character the closing text does not contain. */
  predicate WellFormed(p: Pattern) {
    |p.prefix| > 0 && |p.close| > 0 && |p.ext| > 0 && p.ext[|p.ext| - 1] !in p.close
  }

  /** The name ends with the extension and has at least one character before it. */
  predicate EndsWithExt(n: string, ext: string) {
    |n| > |ext| && n[|n| - |ext|..] == ext
  }

  /**
   * A match at `i`, the name running up to the first closing text: the name
   * and where the match ends.
   */
  function NameAt(s: string, i: nat, p: Pattern): (r: Option<(string, nat)>)
    requires WellFormed(p)
    ensures r.Some? ==> i < r.value.1 <= |s| && EndsWithExt(r.value.0, p.ext)
  {
    if !OccursAt(s, p.prefix, i) then None
    else
      var a := i + |p.prefix|;
      NameBefore(s, a, IndexFrom(s, p.close, a), p)
  }

  /** The name from `a` up to the closing text found at `e`, kept when it ends with the extension. */
  function NameBefore(s: string, a: nat, e: Option<nat>, p: Pattern): (r: Option<(string, nat)>)
    ensures r.Some? ==> a < r.value.1 <= |s| && EndsWithExt(r.value.0, p.ext)
  {
    if e.Some? && a <= e.value && OccursAt(s, p.close, e.value) && EndsWithExt(s[a..e.value], p.ext)
    then Some((s[a..e.value], e.value + |p.close|))
    else None
  }

  /** `re.findall` from `i` with `NameAt`. */
  function FindNames(s: string, i: nat, p: Pattern): (r: seq<string>)
    requires WellFormed(p)
    ensures forall k :: 0 <= k < |r| ==> EndsWithExt(r[k], p.ext)
    decreases |s| - i
  {
    if i >= |s| then []
    else match NameAt(s, i, p)
      case Some((n, e)) => [n] + FindNames(s, e, p)
      case None => FindNames(s, i + 1, p)
  }

  /** The end of the run of characters from `a` that do not occur in `close`. */
  function ClassRunEnd(s: string, a: nat, close: string): (e: nat)
    requires a <= |s|
    ensures a <= e <= |s| && (e < |s| ==> s[e] in close)
    ensures forall k :: a <= k < e ==> s[k] !in close
    decreases |s| - a
  {
    if a < |s| && s[a] !in close then ClassRunEnd(s, a + 1, close) else a
  }

  /**
   * A match at `i` as the scripts write it: `[^%22]+` is a character class,
   * so the name is the run of characters other than `%`, `2` (or `"`).
   */
  function NameAtAsWritten(s: string, i: nat, p: Pattern): (r: Option<(string, nat)>)
    requires WellFormed(p)
    ensures r.Some? ==> i < r.value.1 <= |s| && EndsWithExt(r.value.0, p.ext)
  {
    if !OccursAt(s, p.prefix, i) then None
    else
      var a := i + |p.prefix|;
      var e := ClassRunEnd(s, a, p.close);
      if EndsWithExt(s[a..e], p.ext) && OccursAt(s, p.close, e) then Some((s[a..e], e + |p.close|)) else None
  }

  /** `re.findall` from `i` with the patterns as the scripts write them. */
  function FindNamesAsWritten(s: string, i: nat, p: Pattern): (r: seq<string>)
    requires WellFormed(p)
    ensures forall k :: 0 <= k < |r| ==> EndsWithExt(r[k], p.ext)
    decreases |s| - i
  {
    if i >= |s| then []
    else match NameAtAsWritten(s, i, p)
      case Some((n, e)) => [n] + FindNamesAsWritten(s, e, p)
      case None => FindNamesAsWritten(s, i + 1, p)
  }

  /** For the unencoded pattern the character class and "up to the closing quote" agree at every position. */
  lemma PlainDocAgreesAt(s: string, i: nat)
    ensures NameAtAsWritten(s, i, PlainDoc) == NameAt(s, i, PlainDoc)
  {
    if OccursAt(s, PlainDoc.prefix, i) {
      var a := i + |PlainDoc.prefix|;
      var e := ClassRunEnd(s, a, PlainDoc.close);
      NameAtUnfold(s, i, a, PlainDoc);
      forall k | a <= k < e ensures !OccursAt(s, PlainDoc.close, k) {
        assert s[k..k + 1][0] == s[k];
      }
      if e < |s| {
        assert s[e..e + 1] == PlainDoc.close;
        IndexAt(s, PlainDoc.close, a, e);
        assert NameAt(s, i, PlainDoc) == NameBefore(s, a, Some(e), PlainDoc);
      } else {
        assert NameAt(s, i, PlainDoc) == None;
      }
    }
  }

  lemma {:induction false} PlainDocAgrees(s: string, i: nat)
    ensures FindNamesAsWritten(s, i, PlainDoc) == FindNames(s, i, PlainDoc)
    decreases |s| - i
  {
    if i < |s| {
      PlainDocAgreesAt(s, i);
      match NameAt(s, i, PlainDoc)
      case Some((n, e)) => PlainDocAgrees(s, e);
      case None => PlainDocAgrees(s, i + 1);
    }
  }

  /** The character class never lets a name contain a character of the closing text. */
  lemma {:induction false} AsWrittenExcludesClose(s: string, i: nat, p: Pattern)
    requires WellFormed(p)
    ensures forall n, c :: n in FindNamesAsWritten(s, i, p) && c in p.close ==> c !in n
    decreases |s| - i
  {
    if i < |s| {
      match NameAtAsWritten(s, i, p)
      case Some((n, e)) =>
        AsWrittenExcludesClose(s, e, p);
        var a := i + |p.prefix|;
        forall k | 0 <= k < |n| ensures n[k] !in p.close {
          assert n[k] == s[a + k];
        }
      case None => AsWrittenExcludesClose(s, i + 1, p);
    }
  }

  /** A name without the first character of the closing text holds no closing text. */
  lemma CloseAbsent(n: string, close: string)
    requires |close| > 0 && close[0] !in n
    ensures forall k :: !OccursAt(n, close, k)
  {
    forall k | 0 <= k && k + |close| <= |n| ensures n[k..k + |close|][0] == n[k] {
    }
  }

  /** The character class drops an encoded `.doc` name with the digit 2 in it, from every text. */
  lemma DigitTwoMissed(s: string)
    ensures "a2.doc" !in FindNamesAsWritten(s, 0, EncodedDoc)
  {
    var n := "a2.doc";
    assert EncodedDoc.close[1] == n[1] == '2';
    NoCloseCharFound(s, 0, EncodedDoc, n, '2');
  }

  /** A name holding a character of the closing text is never found by the written pattern. */
  lemma NoCloseCharFound(s: string, i: nat, p: Pattern, n: string, c: char)
    requires WellFormed(p) && c in p.close && c in n
    ensures n !in FindNamesAsWritten(s, i, p)
  {
    AsWrittenExcludesClose(s, i, p);
  }

  /** The name that runs up to `%22` is found in the same text. */
  lemma DigitTwoFound(s: string)
    requires s == "docFileName%22%3A%22a2.doc%22"
    ensures FindNames(s, 0, EncodedDoc) == ["a2.doc"]
  {
    var n, p := "a2.doc", EncodedDoc;
    DigitTwoLayout(s, n);
    NameFound(s, 0, 20, 26, 29, n, p);
    assert FindNames(s, 29, p) == [];
  }

  /** How the text of `DigitTwoFound` splits into prefix, name and closing text. */
  lemma DigitTwoLayout(s: string, n: string)
    requires s == "docFileName%22%3A%22a2.doc%22" && n == "a2.doc"
    ensures var p := EncodedDoc;
      && WellFormed(p) && EndsWithExt(n, p.ext)
      && (forall k :: !OccursAt(n, p.close, k))
      && |p.prefix| == 20 && |n| == 6 && |p.close| == 3 && |s| == 29
      && s[0..20] == p.prefix && s[20..26] == n && s[26..29] == p.close
  {
    assert forall k :: !OccursAt(n, "%22", k) by {
      assert n[0] != '%' && n[1] != '%' && n[2] != '%' && n[3] != '%' && n[4] != '%' && n[5] != '%';
      CloseAbsent(n, "%22");
    }
    assert s[..20] == EncodedDoc.prefix && s[20..26] == n && s[26..29] == "%22";
  }

  /** An occurrence inside a slice is an occurrence in the whole text. */
  lemma OccursShift(x: string, pat: string, i: nat, j: nat, k: nat)
    requires i <= j <= |x| && OccursAt(x[i..j], pat, k)
    ensures OccursAt(x, pat, i + k)
  {
    var u, v := x[i..j][k..k + |pat|], x[i + k..i + k + |pat|];
    forall t | 0 <= t < |pat| ensures u[t] == v[t] {
      assert u[t] == x[i..j][k + t] == x[i + k + t];
    }
    assert u == v;
  }

  /** A window of `n = s[a..e]` is the same window of `s`, shifted by `a`. */
  lemma SliceOfSlice(s: string, a: nat, e: nat, n: string, k: nat, c: nat)
    requires a <= e <= |s| && s[a..e] == n && k + c <= |n|
    ensures s[a + k..a + k + c] == n[k..k + c]
  {
    var u, v := s[a + k..a + k + c], n[k..k + c];
    forall t | 0 <= t < c ensures u[t] == v[t] {
      assert n[k + t] == s[a..e][k + t] == s[a + k + t];
    }
    assert u == v;
  }

  /** The closing text after a name that ends with the extension is its first occurrence after the prefix. */
  lemma CloseAfterName(s: string, a: nat, e: nat, f: nat, n: string, p: Pattern)
    requires WellFormed(p) && EndsWithExt(n, p.ext)
    requires forall k :: !OccursAt(n, p.close, k)
    requires e == a + |n| && f == e + |p.close| && f <= |s| && s[a..e] == n && s[e..f] == p.close
    ensures IndexFrom(s, p.close, a) == Some(e)
  {
    var last := p.ext[|p.ext| - 1];
    var c := |p.close|;
    assert s[e - 1] == last by {
      assert n[|n| - |p.ext|..][|p.ext| - 1] == n[|n| - 1];
      assert s[a..e][|n| - 1] == s[e - 1];
    }
    forall k | a <= k && k + c <= e ensures !OccursAt(s, p.close, k) {
      SliceOfSlice(s, a, e, n, k - a, c);
      assert !OccursAt(n, p.close, k - a);
    }
    IndexAt(s, p.close, a, e);
  }


  /** `NameAt` once the prefix is known to be at `i`; `a` is where the name starts. */
  lemma NameAtUnfold(s: string, i: nat, a: nat, p: Pattern)
    requires WellFormed(p) && OccursAt(s, p.prefix, i) && a == i + |p.prefix|
    ensures NameAt(s, i, p) == NameBefore(s, a, IndexFrom(s, p.close, a), p)
  {
  }

  /** The name runs from `a` to `e`, where the closing text starts; the match ends at `f`. */
  lemma NameBeforeFound(s: string, a: nat, e: nat, f: nat, n: string, p: Pattern)
    requires EndsWithExt(n, p.ext) && a <= e <= |s| && s[a..e] == n && OccursAt(s, p.close, e) && f == e + |p.close|
    ensures NameBefore(s, a, Some(e), p) == Some((n, f))
  {
  }

  /** One step of `FindNames` after a match at `i`. */
  lemma FindNamesStep(s: string, i: nat, p: Pattern, n: string, f: nat)
    requires WellFormed(p) && i < |s| && NameAt(s, i, p) == Some((n, f))
    ensures FindNames(s, i, p) == [n] + FindNames(s, f, p)
  {
  }

  /**
   * A name written as the prefix at `i..a`, a name ending with the extension
   * and holding no closing text at `a..e`, and the closing text at `e..f`
   * is the next name found from `i`; the search resumes at `f`.
   */
  lemma NameFound(s: string, i: nat, a: nat, e: nat, f: nat, n: string, p: Pattern)
    requires WellFormed(p) && EndsWithExt(n, p.ext)
    requires forall k :: !OccursAt(n, p.close, k)
    requires a == i + |p.prefix| && e == a + |n| && f == e + |p.close| && f <= |s|
    requires s[i..a] == p.prefix && s[a..e] == n && s[e..f] == p.close
    ensures FindNames(s, i, p) == [n] + FindNames(s, f, p)
  {
    CloseAfterName(s, a, e, f, n, p);
    NameAtUnfold(s, i, a, p);
    NameBeforeFound(s, a, e, f, n, p);
    FindNamesStep(s, i, p, n, f);
  }

  /** `[unquote(x) for x in xs]`. */
  function Unquoted(xs: seq<string>, unquote: string -> string): (r: seq<string>)
    ensures |r| == |xs| && forall k :: 0 <= k < |xs| ==> r[k] == unquote(xs[k])
  {
    seq(|xs|, k requires 0 <= k < |xs| => unquote(xs[k]))
  }

  /** Every name the three patterns yield, in the order the scripts visit them, duplicates included. */
  function AllNames(text: string, unquote: string -> string): seq<string> {
    (if Contains(text, "docFileName") then Unquoted(FindNamesAsWritten(text, 0, EncodedDoc), unquote) else [])
    + FindNamesAsWritten(text, 0, PlainDoc)
    + Unquoted(FindNamesAsWritten(text, 0, EncodedXlsx), unquote)
  }

  /** The same with every name running up to its closing text, as the patterns evidently intend. */
  function AllNamesToClose(text: string, unquote: string -> string): seq<string> {
    (if Contains(text, "docFileName") then Unquoted(FindNames(text, 0, EncodedDoc), unquote) else [])
    + FindNames(text, 0, PlainDoc)
    + Unquoted(FindNames(text, 0, EncodedXlsx), unquote)
  }

  /** Without the prefix anywhere in the text, neither matcher finds a name. */
  lemma {:induction false} NoPrefixNoNames(s: string, i: nat, p: Pattern)
    requires WellFormed(p) && !Contains(s, p.prefix)
    ensures FindNames(s, i, p) == [] && FindNamesAsWritten(s, i, p) == []
    decreases |s| - i
  {
    if i < |s| {
      assert !OccursAt(s, p.prefix, i);
      NoPrefixNoNames(s, i + 1, p);
    }
  }

  /** A text without URL-encoded file names yields the same names under both readings of the patterns. */
  lemma AllNamesAgree(text: string, unquote: string -> string)
    requires !Contains(text, EncodedDoc.prefix)
    ensures AllNames(text, unquote) == AllNamesToClose(text, unquote)
  {
    NoPrefixNoNames(text, 0, EncodedDoc);
    NoPrefixNoNames(text, 0, EncodedXlsx);
    PlainDocAgrees(text, 0);
  }

  /** Appends the names not yet present, one at a time. */
  method AppendNew(acc: seq<string>, ghost seen: seq<string>, xs: seq<string>) returns (r: seq<string>)
    requires acc == Dedup(seen)
    ensures r == Dedup(seen + xs)
  {
    r := acc;
    var k := 0;
    assert seen + xs[..0] == seen;
    while k < |xs|
      invariant k <= |xs|
      invariant r == Dedup(seen + xs[..k])
    {
      PrefixSnoc(seen, xs, k);
      DedupSnoc(seen + xs[..k], xs[k]);
      if xs[k] !in r {
        r := r + [xs[k]];
      }
      k := k + 1;
    }
    assert xs[..k] == xs;
  }

  /**
   * `parse_reference_names`: the cited file names, each once, in the order
   * of their first match. `unquote` is `urllib.parse.unquote`.
   */
  method ParseReferenceNames(text: string, unquote: string -> string) returns (names: seq<string>)
    ensures names == Dedup(AllNames(text, unquote))
    ensures text == "" ==> names == []
  {
    names := [];
    if text == "" {
      return;
    }
    var encoded: seq<string> := [];
    if Contains(text, "docFileName") {
      encoded := Unquoted(FindNamesAsWritten(text, 0, EncodedDoc), unquote);
    }
    names := AppendNew(names, [], encoded);
    assert [] + encoded == encoded;
    var plain := FindNamesAsWritten(text, 0, PlainDoc);
    names := AppendNew(names, encoded, plain);
    names := AppendNew(names, encoded + plain, Unquoted(FindNamesAsWritten(text, 0, EncodedXlsx), unquote));
  }

  /** The names come out without duplicates, and they are exactly the names matched. */
  lemma ReferenceNamesSpec(text: string, unquote: string -> string)
    ensures Distinct(Dedup(AllNames(text, unquote)))
    ensures forall x :: x in Dedup(AllNames(text, unquote)) <==> x in AllNames(text, unquote)
  {
    DedupElements(AllNames(text, unquote));
  }

  /**
   * The names keep the order of their first match: encoded `.doc` names before
   * unencoded ones, those before encoded `.xlsx` names.
   */
  lemma ReferenceNamesOrder(text: string, unquote: string -> string, i: nat, j: nat)
    requires i < j < |Dedup(AllNames(text, unquote))|
    ensures var all := AllNames(text, unquote); var d := Dedup(all);
      d[i] in all && d[j] in all && FirstIndex(all, d[i]) < FirstIndex(all, d[j])
  {
    DedupOrder(AllNames(text, unquote), i, j);
  }

  // ---------------------------------------------------------------------------
  // clean_ai_response and the answer part of query_answer

  const Unparsed: string := "无法解析回答内容"
  const DivMarker: string := "<div id=\"referenceSource\""

  /** `answer.split('<div id="referenceSource"')[0].strip()` when the block is there, the answer otherwise. */
  function CutAtReference(answer: string): string {
    if Contains(answer, DivMarker) then Strip(Split(answer, DivMarker)[0]) else answer
  }

  /** A slice of a text without the pattern is without it too. */
  lemma SliceAbsent(x: string, pat: string, i: nat, j: nat)
    requires i <= j <= |x| && !Contains(x, pat)
    ensures !Contains(x[i..j], pat)
  {
    forall k: nat | OccursAt(x[i..j], pat, k) ensures OccursAt(x, pat, i + k) {
      OccursShift(x, pat, i, j, k);
    }
  }

  /** Trimming a text without the pattern leaves it without the pattern. */
  lemma StripAbsent(x: string, pat: string)
    requires !Contains(x, pat)
    ensures !Contains(Strip(x), pat)
  {
    StripSpec(x);
    SliceAbsent(x, pat, StripOffset(x), StripOffset(x) + |Strip(x)|);
  }

  /** The first piece of a split is the text before the first separator. */
  lemma SplitFirst(s: string, sep: string)
    requires |sep| > 0 && Contains(s, sep)
    ensures Split(s, sep)[0] == s[..IndexFrom(s, sep, 0).value]
  {
  }

  /**
   * The answer keeps only what precedes the first cited-documents block,
   * trimmed; an answer without the block is kept as it is.
   */
  lemma CutAtReferenceSpec(answer: string)
    ensures !Contains(CutAtReference(answer), DivMarker)
    ensures Contains(answer, DivMarker) ==>
      CutAtReference(answer) == Strip(answer[..IndexFrom(answer, DivMarker, 0).value])
    ensures !Contains(answer, DivMarker) ==> CutAtReference(answer) == answer
  {
    if Contains(answer, DivMarker) {
      var before := Split(answer, DivMarker)[0];
      SplitFirst(answer, DivMarker);
      StripAbsent(before, DivMarker);
    }
  }

  /** `clean_ai_response`. */
  function CleanAiResponse(reply: string): (r: string)
    ensures reply == "" ==> r == ""
    ensures reply != "" && Extracted(reply).None? ==> r == Unparsed
  {
    if reply == "" then ""
    else match Extracted(reply)
      case None => Unparsed
      case Some(answer) => Strip(CutAtReference(answer))
  }

  /**
   * A parsed reply gives the text before the first cited-documents block,
   * trimmed at both ends and free of the block.
   */
  lemma CleanAiResponseSpec(reply: string)
    requires reply != "" && Extracted(reply).Some?
    ensures var answer := Extracted(reply).value; var r := CleanAiResponse(reply);
      && !Contains(r, DivMarker)
      && (r != [] ==> !IsSpace(r[0]) && !IsSpace(r[|r| - 1]))
      && (Contains(answer, DivMarker) ==> r == Strip(answer[..IndexFrom(answer, DivMarker, 0).value]))
      && (!Contains(answer, DivMarker) ==> r == Strip(answer))
  {
    var answer := Extracted(reply).value;
    var cut := CutAtReference(answer);
    var r := CleanAiResponse(reply);
    assert r == Strip(cut);
    assert !Contains(r, DivMarker) by {
      CutAtReferenceSpec(answer);
      StripAbsent(cut, DivMarker);
    }
    assert r != [] ==> !IsSpace(r[0]) && !IsSpace(r[|r| - 1]) by {
      StripSpec(cut);
    }
    assert Contains(answer, DivMarker) ==> r == Strip(answer[..IndexFrom(answer, DivMarker, 0).value]) by {
      CutAtReferenceSpec(answer);
      if Contains(answer, DivMarker) {
        StripIdempotent(answer[..IndexFrom(answer, DivMarker, 0).value]);
      }
    }
    assert !Contains(answer, DivMarker) ==> r == Strip(answer) by {
      CutAtReferenceSpec(answer);
    }
  }

  /** A decoded entry of the cited-documents list: `docFileName` and `score`, as printed, when present. */
  datatype Entry = Entry(fileName: Option<string>, score: Option<string>)

  /**
   * What the decoding of the cited-documents block yields: nothing usable,
   * a JSON list, or text that is not valid JSON, from which the file names
   * are picked out by a regular expression.
   */
  datatype RefBlock = NoEntries | Entries(list: seq<Entry>) | Undecodable(names: seq<string>)

  /** One reference line: `- name (相关度: score)\n`, `- name\n`, or nothing for an entry without a name. */
  function ReferenceLine(e: Entry): string {
    match e.fileName
    case None => ""
    case Some(n) =>
      "- " + n + (match e.score case Some(sc) => RagasFormats.ScoreMarker + sc + ")" case None => "") + "\n"
  }

  function ReferenceText(entries: seq<Entry>): string {
    if entries == [] then ""
    else ReferenceText(entries[..|entries| - 1]) + ReferenceLine(entries[|entries| - 1])
  }

  function NameLines(names: seq<string>): string {
    if names == [] then "" else NameLines(names[..|names| - 1]) + "- " + names[|names| - 1] + "\n"
  }

  function ReferenceFrom(block: RefBlock): string {
    match block
    case NoEntries => ""
    case Entries(list) => ReferenceText(list)
    case Undecodable(names) => NameLines(names)
  }

  function IsNewline(c: char): bool {
    c == '\n'
  }

  predicate OneLine(t: string) {
    forall k :: 0 <= k < |t| ==> t[k] != '\n'
  }

  lemma {:induction false} NoNewlines(t: string)
    requires OneLine(t)
    ensures Count(t, IsNewline) == 0
  {
    if t != [] {
      NoNewlines(t[..|t| - 1]);
    }
  }

  /** An entry with a name gives exactly one line; one without gives nothing. */
  lemma ReferenceLineCount(e: Entry)
    requires e.fileName.Some? ==> OneLine(e.fileName.value)
    requires e.score.Some? ==> OneLine(e.score.value)
    ensures Count(ReferenceLine(e), IsNewline) == if e.fileName.Some? then 1 else 0
  {
    if e.fileName.Some? {
      var middle := "- " + e.fileName.value + (match e.score case Some(sc) => RagasFormats.ScoreMarker + sc + ")" case None => "");
      assert OneLine(middle);
      NoNewlines(middle);
      assert ReferenceLine(e) == middle + "\n";
      CountAppend(middle, "\n", IsNewline);
    }
  }

  function Named(e: Entry): bool {
    e.fileName.Some?
  }

  /** The reference text holds one line per entry that has a file name. */
  lemma {:induction false} ReferenceTextLines(entries: seq<Entry>)
    requires forall k :: 0 <= k < |entries| ==>
      (entries[k].fileName.Some? ==> OneLine(entries[k].fileName.value)) &&
      (entries[k].score.Some? ==> OneLine(entries[k].score.value))
    ensures Count(ReferenceText(entries), IsNewline) == Count(entries, Named)
  {
    if entries != [] {
      var n := |entries| - 1;
      ReferenceTextLines(entries[..n]);
      ReferenceLineCount(entries[n]);
      CountAppend(ReferenceText(entries[..n]), ReferenceLine(entries[n]), IsNewline);
    }
  }

  /** What `query_answer` returns. */
  datatype AnswerResult = AnswerResult(aiAnswer: string, reference: string, success: bool, error: Option<string>)

  /**
   * `query_answer` after the HTTP call; `decode` stands for the URL decoding
   * and JSON parsing of the block that follows the answer.
   */
  function QueryAnswer(reply: Reply, decode: string -> RefBlock): (r: AnswerResult)
    ensures r.success <==> reply.Replied?
    ensures !r.success ==> r == AnswerResult("", "", false, Some(reply.error))
    ensures r.success && Extracted(reply.text).None? ==> r == AnswerResult(Unparsed, "", true, None)
  {
    match reply
    case Failed(error) => AnswerResult("", "", false, Some(error))
    case Replied(text) =>
      match Extracted(text)
      case None => AnswerResult(Unparsed, "", true, None)
      case Some(answer) =>
        var reference := if Contains(answer, DivMarker) then ReferenceFrom(decode(answer[IndexFrom(answer, DivMarker, 0).value..])) else "";
        AnswerResult(CutAtReference(answer), reference, true, None)
  }

  /**
   * A reply that carries a plain answer without `"}` and no cited-documents
   * block gives the answer back unchanged and an empty reference.
   */
  lemma QueryAnswerRoundTrip(pre: string, answer: string, post: string, decode: string -> RefBlock)
    requires '"' !in pre && Plain(answer) && !Contains(answer, ValueClose) && !Contains(answer, DivMarker)
    ensures QueryAnswer(Replied(pre + ContentMarker + Escape(answer) + ValueClose + post), decode)
         == AnswerResult(answer, "", true, None)
  {
    ContentRoundTrip(pre, answer, post);
  }

  /** With the block, the answer is the text before it and the reference what its entries render to. */
  lemma QueryAnswerWithBlock(text: string, decode: string -> RefBlock)
    requires Extracted(text).Some? && Contains(Extracted(text).value, DivMarker)
    ensures var answer := Extracted(text).value; var k := IndexFrom(answer, DivMarker, 0).value;
      QueryAnswer(Replied(text), decode) == AnswerResult(Strip(answer[..k]), ReferenceFrom(decode(answer[k..])), true, None)
  {
    CutAtReferenceSpec(Extracted(text).value);
  }

  // ---------------------------------------------------------------------------
  // process_single_question and process_file_parallel

  /** `str(row['问题']).strip()`, the question sent. */
  function Question(row: Row): string {
    Strip(Str(row.question))
  }

  /**
   * `process_single_question`: the status, and the row as saved. `saves`
   * says which write attempts succeed.
   */
  function AnswerOutcome(row: Row, reply: Reply, decode: string -> RefBlock, saves: nat -> bool): (r: TaskOutcome)
    ensures r.status == Skipped <==> !Blank(row.answer)
    ensures r.status == ApiFailed <==> Blank(row.answer) && reply.Failed?
    ensures r.status == Completed <==> Blank(row.answer) && reply.Replied? && SaveFrom(saves, 0).1
    ensures r.written.Some? <==> r.status == Completed
    ensures r.written.Some? ==>
      var res := QueryAnswer(reply, decode);
      r.written.value == row.(answer := Some(res.aiAnswer), reference := Some(res.reference))
  {
    if !Blank(row.answer) then TaskOutcome(Skipped, None)
    else
      var res := QueryAnswer(reply, decode);
      if !res.success then TaskOutcome(ApiFailed, None)
      else if SaveFrom(saves, 0).1 then
        TaskOutcome(Completed, Some(row.(answer := Some(res.aiAnswer), reference := Some(res.reference))))
      else TaskOutcome(SaveFailed, None)
  }

  /** A row that already has an answer is skipped whatever the assistant or the file would do. */
  lemma SkipNeedsNothing(row: Row, r1: Reply, r2: Reply, decode: string -> RefBlock, s1: nat -> bool, s2: nat -> bool)
    requires !Blank(row.answer)
    ensures AnswerOutcome(row, r1, decode, s1) == AnswerOutcome(row, r2, decode, s2) == TaskOutcome(Skipped, None)
  {
  }

  /** The outcome of each task: row `i`'s request (its own session id) is answered by `api(i)`, and its save attempts are `saves(i)`. */
  function Outcomes(api: nat -> string -> Reply, decode: string -> RefBlock, saves: nat -> nat -> bool): (nat, Row) -> TaskOutcome {
    (i: nat, row: Row) => AnswerOutcome(row, api(i)(Question(row)), decode, saves(i))
  }

  /** Row `i` after the run: answered and saved, or as it was. */
  function AnsweredRow(rows: seq<Row>, i: nat, api: nat -> string -> Reply, decode: string -> RefBlock, saves: nat -> nat -> bool): (r: Row)
    requires i < |rows|
    ensures r.question == rows[i].question && r.contexts == rows[i].contexts && r.others == rows[i].others
    ensures Blank(rows[i].question) || !Blank(rows[i].answer) ==> r == rows[i]
  {
    if Blank(rows[i].question) then rows[i]
    else match AnswerOutcome(rows[i], api(i)(Question(rows[i])), decode, saves(i)).written
      case Some(w) => w
      case None => rows[i]
  }

  /**
   * `process_file_parallel`, the pool finishing the tasks in `order`: the
   * sheet as saved, and the final counters.
   */
  method ProcessAnswers(rows: seq<Row>, order: seq<nat>, api: nat -> string -> Reply, decode: string -> RefBlock, saves: nat -> nat -> bool)
    returns (sheet: seq<Row>, report: Report)
    requires multiset(order) == multiset(TaskRows(rows))
    ensures |sheet| == |rows| && forall i :: 0 <= i < |rows| ==> sheet[i] == AnsweredRow(rows, i, api, decode, saves)
    ensures report.NoTasks? <==> forall i :: 0 <= i < |rows| ==> Blank(rows[i].question)
    ensures report.Summary? ==>
      var tasks := TaskRows(rows);
      && report.counts == TallyOf(rows, Outcomes(api, decode, saves), tasks)
      && Total(report.counts) == |tasks|
      && report.rate == SuccessRate(|tasks|, report.counts)
  {
    var outcome := Outcomes(api, decode, saves);
    sheet, report := RunTasks(rows, order, outcome);
    forall i | 0 <= i < |rows| ensures sheet[i] == AnsweredRow(rows, i, api, decode, saves) {
      AppliedTasks(rows, outcome, i);
    }
    NoTaskRows(rows);
    if TaskRows(rows) != [] {
      TallyTotal(rows, outcome, TaskRows(rows));
    }
  }
}

=== FILE: checkpoints.dfy ===
/**
 * Checkpoint files of the resumable fetch step: `save_processing_state`,
 * `load_processing_state` and the retention sweep `cleanup_old_state_files`
 * over the state directory. The directory is a map from file name to content;
 * times are whole seconds and sizes whole bytes.
 */
module Checkpoints {
  import opened Wrappers
  import opened Text
  import opened Table

  /** What a checkpoint file holds: the four kept columns of every row and both progress sets. */
  datatype Checkpoint = Checkpoint(records: seq<Record>, answerProgress: set<nat>, contextProgress: set<nat>)

  /** A state file's content: a complete pickle, or one cut short by a failed write. */
  datatype Blob = Intact(state: Checkpoint) | Corrupt

  /** The state directory, by file name. */
  type Store = map<string, Blob>

  const StatePrefix: string := "state_"
  const StateSuffix: string := ".pkl"

  function StateFileName(hash: string): (name: string)
    ensures |name| == |hash| + 10
  {
    StatePrefix + hash + StateSuffix
  }

  /** Distinct fingerprints never share a state file. */
  lemma StateFileNameInjective(h1: string, h2: string)
    requires StateFileName(h1) == StateFileName(h2)
    ensures h1 == h2
  {
    var n := StateFileName(h1);
    assert h1 == n[6..|n| - 4];
    assert h2 == n[6..|n| - 4];
  }

  /** The checkpoint written for the current table: its kept columns and both progress sets. */
  function Snapshot(rows: seq<Row>, answerProgress: set<nat>, contextProgress: set<nat>): (c: Checkpoint)
    ensures |c.records| == |rows|
    ensures forall i :: 0 <= i < |rows| ==> c.records[i] == Project(rows[i])
  {
    Checkpoint(ProjectAll(rows), answerProgress, contextProgress)
  }

  /**
   * How a save ends: written; failed before the sweep (`os.makedirs` raised); failed
   * after the sweep but before the file was opened; failed while pickling into it; or
   * failed after a complete write (`os.path.getsize` or the log call raised).
   */
  datatype SaveOutcome = Written | FailedBeforeSweep | FailedBeforeOpen | FailedWhileWriting | FailedAfterWrite

  /**
   * `save_processing_state`: the directory afterwards and the returned flag. Unless
   * `os.makedirs` fails, the retention sweep runs first, over the directory as `view`
   * shows it; then the state file is written.
   */
  function Save(store: Store, view: SweepView, hash: string, state: Checkpoint, outcome: SaveOutcome): (r: (Store, bool))
    ensures r.1 <==> outcome == Written
    ensures outcome == FailedBeforeSweep ==> r.0 == store
    ensures outcome == FailedBeforeOpen ==> r.0 == store - SweptNames(view)
    ensures forall name :: name != StateFileName(hash) ==>
      (name in r.0 <==> name in store && (outcome == FailedBeforeSweep || name !in SweptNames(view)))
    ensures forall name :: name != StateFileName(hash) && name in r.0 ==> r.0[name] == store[name]
    ensures outcome == Written ==> StateFileName(hash) in r.0 && r.0[StateFileName(hash)] == Intact(state)
    ensures outcome == FailedWhileWriting ==> StateFileName(hash) in r.0 && r.0[StateFileName(hash)] == Corrupt
    ensures outcome == FailedAfterWrite ==> StateFileName(hash) in r.0 && r.0[StateFileName(hash)] == Intact(state)
  {
    var swept := store - SweptNames(view);
    match outcome
    case Written => (swept[StateFileName(hash) := Intact(state)], true)
    case FailedBeforeSweep => (store, false)
    case FailedBeforeOpen => (swept, false)
    case FailedWhileWriting => (swept[StateFileName(hash) := Corrupt], false)
    case FailedAfterWrite => (swept[StateFileName(hash) := Intact(state)], false)
  }

  /** `load_processing_state`: `None` when the file is missing or cannot be unpickled. */
  function Load(store: Store, hash: string): (r: Option<Checkpoint>)
    ensures r.Some? <==> StateFileName(hash) in store && store[StateFileName(hash)].Intact?
    ensures r.Some? ==> store[StateFileName(hash)] == Intact(r.value)
  {
    var name := StateFileName(hash);
    if name in store && store[name].Intact? then Some(store[name].state) else None
  }

  /** A completed save is read back exactly: the sweep runs before the write, so it cannot remove it. */
  lemma LoadAfterSave(store: Store, view: SweepView, hash: string, state: Checkpoint)
    ensures Load(Save(store, view, hash, state, Written).0, hash) == Some(state)
  {
  }

  /** A save that fails while writing leaves a file that loads as nothing: the write is not atomic. */
  lemma LoadAfterTornSave(store: Store, view: SweepView, hash: string, state: Checkpoint)
    ensures Load(Save(store, view, hash, state, FailedWhileWriting).0, hash) == None
  {
  }

  /**
   * Saving one file's state leaves every other file's state as it was, unless the
   * sweep that ran first deleted that file; then it loads as nothing.
   */
  lemma SaveKeepsOthers(store: Store, view: SweepView, hash: string, other: string, state: Checkpoint, outcome: SaveOutcome)
    requires other != hash
    ensures Load(Save(store, view, hash, state, outcome).0, other)
      == if outcome != FailedBeforeSweep && StateFileName(other) in SweptNames(view) then None else Load(store, other)
  {
    if StateFileName(other) == StateFileName(hash) {
      StateFileNameInjective(other, hash);
    }
  }

  /**
   * A save loses another fingerprint's checkpoint when the sweep sees it more than
   * fourteen days old and can unlink it.
   */
  lemma SaveSweepsStale(store: Store, view: SweepView, hash: string, other: string, state: Checkpoint,
                        outcome: SaveOutcome, e: DirEntry)
    requires other != hash && outcome != FailedBeforeSweep
    requires e in view.listing && e.name == StateFileName(other) && e.stat.Some?
    requires view.now - e.stat.value.mtime > 14 * Day && e.name !in view.locked
    ensures Load(Save(store, view, hash, state, outcome).0, other) == None
  {
    SavedNamesAreSwept(other);
    StaleIsSwept(view, e);
    SaveKeepsOthers(store, view, hash, other, state, outcome);
  }

  /** A stale, unlocked state file in the listing is among the names the sweep deletes. */
  lemma StaleIsSwept(view: SweepView, e: DirEntry)
    requires e in view.listing && Collectable(e)
    requires view.now - e.stat.value.mtime > 14 * Day && e.name !in view.locked
    ensures e.name in SweptNames(view)
  {
    var files := StateFiles(view.listing);
    var f := Collected(e);
    assert f in files;
    assert f in multiset(SortByMtime(files));
    SweepDeletesStale(SortByMtime(files), view.now, view.dirBytes, |files|, view.locked, f);
  }

  /**
   * Every name the sweep deletes is a state file of the listing whose `os.stat`
   * succeeded, more than three days old and unlinkable.
   */
  lemma SweptWereOld(view: SweepView, name: string)
    requires name in SweptNames(view)
    ensures IsStateFileName(name) && name !in view.locked
    ensures exists e :: e in view.listing && Collectable(e) && e.name == name && view.now - e.stat.value.mtime > 3 * Day
  {
    var files := StateFiles(view.listing);
    var f :| f in Sweep(view).deleted && f.name == name;
    SweepKeepsYoung(SortByMtime(files), view.now, view.dirBytes, |files|, view.locked, f);
    assert f in multiset(SortByMtime(files));
    assert f in files;
    var e :| e in view.listing && Collectable(e) && f == Collected(e);
  }

  // ---------------------------------------------------------------------------
  // Retention sweep

  datatype FileStat = FileStat(mtime: int, size: nat)

  /** One `os.listdir` entry; `stat` is `None` when `os.stat` raised. */
  datatype DirEntry = DirEntry(name: string, stat: Option<FileStat>)

  /** A checkpoint file the sweep considers. */
  datatype StateFile = StateFile(name: string, mtime: int, size: nat)

  const Day: int := 86400
  const MiB: int := 1048576

  /** `filename.startswith("state_") and filename.endswith(".pkl")`. */
  predicate IsStateFileName(name: string) {
    && |name| >= |StatePrefix| && name[..|StatePrefix|] == StatePrefix
    && |name| >= |StateSuffix| && name[|name| - |StateSuffix|..] == StateSuffix
  }

  /** Every name a save writes is one the sweep considers. */
  lemma SavedNamesAreSwept(hash: string)
    ensures IsStateFileName(StateFileName(hash))
  {
    var n := StateFileName(hash);
    assert n[..6] == StatePrefix;
    assert n[|n| - 4..] == StateSuffix;
  }

  /** An entry the collection loop keeps: a state-file name whose `os.stat` succeeded. */
  predicate Collectable(e: DirEntry) {
    IsStateFileName(e.name) && e.stat.Some?
  }

  /** The record the collection loop makes of a kept entry. */
  function Collected(e: DirEntry): StateFile
    requires e.stat.Some?
  {
    StateFile(e.name, e.stat.value.mtime, e.stat.value.size)
  }

  /**
   * The files the sweep collects, in listing order: a file is collected iff the
   * listing holds a state-file entry for it whose `os.stat` succeeded.
   */
  function StateFiles(listing: seq<DirEntry>): (r: seq<StateFile>)
    ensures |r| <= |listing|
    ensures forall f :: f in r <==> exists e :: e in listing && Collectable(e) && f == Collected(e)
  {
    if listing == [] then []
    else
      var init := listing[..|listing| - 1];
      var e := listing[|listing| - 1];
      assert listing == init + [e];
      StateFiles(init) + (if Collectable(e) then [Collected(e)] else [])
  }

  predicate SortedByMtime(fs: seq<StateFile>) {
    forall i, j :: 0 <= i < j < |fs| ==> fs[i].mtime <= fs[j].mtime
  }

  /** Insertion after every file that is not newer, so equal times keep their listing order. */
  function InsertByMtime(f: StateFile, sorted: seq<StateFile>): (r: seq<StateFile>)
    ensures multiset(r) == multiset(sorted) + multiset{f}
  {
    if sorted == [] then [f]
    else if f.mtime < sorted[0].mtime then [f] + sorted
    else
      assert sorted == [sorted[0]] + sorted[1..];
      [sorted[0]] + InsertByMtime(f, sorted[1..])
  }

  lemma {:induction false} InsertSorted(f: StateFile, sorted: seq<StateFile>)
    requires SortedByMtime(sorted)
    ensures SortedByMtime(InsertByMtime(f, sorted))
  {
    if sorted == [] {
    } else if f.mtime < sorted[0].mtime {
      SortedCons(f, sorted);
    } else {
      var rest := InsertByMtime(f, sorted[1..]);
      InsertSorted(f, sorted[1..]);
      forall k | 0 <= k < |rest| ensures sorted[0].mtime <= rest[k].mtime {
        assert rest[k] in multiset(rest);
        assert rest[k] == f || rest[k] in sorted[1..];
      }
      SortedCons(sorted[0], rest);
    }
  }

  /** A file no newer than any of a sorted list can go in front of it. */
  lemma SortedCons(x: StateFile, r: seq<StateFile>)
    requires SortedByMtime(r) && forall k :: 0 <= k < |r| ==> x.mtime <= r[k].mtime
    ensures SortedByMtime([x] + r)
  {
    forall i, j | 0 <= i < j < |[x] + r| ensures ([x] + r)[i].mtime <= ([x] + r)[j].mtime {
      assert ([x] + r)[j] == r[j - 1];
      if i > 0 {
        assert ([x] + r)[i] == r[i - 1];
      }
    }
  }

  /** `files_info.sort(key=lambda x: x['mtime'])`, a stable sort. */
  function SortByMtime(fs: seq<StateFile>): (r: seq<StateFile>)
    ensures multiset(r) == multiset(fs)
  {
    if fs == [] then []
    else
      var init := fs[..|fs| - 1];
      assert fs == init + [fs[|fs| - 1]];
      InsertByMtime(fs[|fs| - 1], SortByMtime(init))
  }

  /** The sweep's order is oldest first and holds exactly the collected files. */
  lemma {:induction false} SortByMtimeSpec(fs: seq<StateFile>)
    ensures SortedByMtime(SortByMtime(fs)) && multiset(SortByMtime(fs)) == multiset(fs)
  {
    if fs != [] {
      SortByMtimeSpec(fs[..|fs| - 1]);
      InsertSorted(fs[|fs| - 1], SortByMtime(fs[..|fs| - 1]));
    }
  }

  /** The three tiers of the sweep, by age in seconds and the running directory size in bytes. */
  predicate ShouldDelete(f: StateFile, now: int, dirBytes: int, count: nat) {
    || now - f.mtime > 14 * Day
    || (dirBytes > 100 * MiB && now - f.mtime > 7 * Day)
    || (count > 50 && now - f.mtime > 3 * Day)
  }

  datatype SweepResult = SweepResult(deleted: seq<StateFile>, remainingBytes: int)

  /**
   * The sweep over `files`, oldest first, from a running size of `bytes`; `count` is the
   * number of files collected and `locked` the names whose `os.unlink` raises.
   */
  function SweepFrom(files: seq<StateFile>, now: int, bytes: int, count: nat, locked: set<string>): (r: SweepResult)
    ensures |r.deleted| <= |files|
  {
    if files == [] then SweepResult([], bytes)
    else
      var f := files[0];
      if ShouldDelete(f, now, bytes, count) && f.name !in locked then
        var rest := SweepFrom(files[1..], now, bytes - f.size, count, locked);
        SweepResult([f] + rest.deleted, rest.remainingBytes)
      else SweepFrom(files[1..], now, bytes, count, locked)
  }

  function SumSizes(fs: seq<StateFile>): int {
    if fs == [] then 0 else fs[0].size + SumSizes(fs[1..])
  }

  /**
   * The directory as the sweep sees it when a save starts: the `os.listdir` entries
   * with their `os.stat`, the clock, the directory size from `get_directory_size` and
   * the names whose `os.unlink` raises.
   */
  datatype SweepView = SweepView(listing: seq<DirEntry>, now: int, dirBytes: int, locked: set<string>)

  /** The sweep of `cleanup_old_state_files` over a view: collect, sort oldest first, delete by tier. */
  function Sweep(view: SweepView): SweepResult {
    var files := StateFiles(view.listing);
    SweepFrom(SortByMtime(files), view.now, view.dirBytes, |files|, view.locked)
  }

  /** The names the sweep deletes. */
  function SweptNames(view: SweepView): set<string> {
    set f | f in Sweep(view).deleted :: f.name
  }

  /** The collection loop of `cleanup_old_state_files`. */
  method CollectStateFiles(listing: seq<DirEntry>) returns (filesInfo: seq<StateFile>)
    ensures filesInfo == StateFiles(listing)
  {
    filesInfo := [];
    var i := 0;
    while i < |listing|
      invariant 0 <= i <= |listing|
      invariant filesInfo == StateFiles(listing[..i])
    {
      var e := listing[i];
      assert listing[..i + 1][..i] == listing[..i];
      if IsStateFileName(e.name) && e.stat.Some? {
        filesInfo := filesInfo + [StateFile(e.name, e.stat.value.mtime, e.stat.value.size)];
      }
      i := i + 1;
    }
    assert listing[..i] == listing;
  }

  /** The deletion loop of `cleanup_old_state_files` over the sorted files. */
  method DeleteOld(files: seq<StateFile>, now: int, dirBytes: int, count: nat, locked: set<string>)
    returns (deleted: seq<StateFile>, cleaned: nat, remainingBytes: int)
    ensures SweepFrom(files, now, dirBytes, count, locked) == SweepResult(deleted, remainingBytes)
    ensures cleaned == |deleted|
  {
    deleted, cleaned, remainingBytes := [], 0, dirBytes;
    var k := 0;
    while k < |files|
      invariant 0 <= k <= |files|
      invariant cleaned == |deleted|
      invariant SweepFrom(files, now, dirBytes, count, locked) == Resume(deleted, SweepFrom(files[k..], now, remainingBytes, count, locked))
    {
      var f := files[k];
      ghost var rest := files[k + 1..];
      assert files[k..] == [f] + rest;
      if ShouldDelete(f, now, remainingBytes, count) && f.name !in locked {
        deleted := deleted + [f];
        cleaned := cleaned + 1;
        remainingBytes := remainingBytes - f.size;
      }
      k := k + 1;
    }
  }

  /** A sweep's result with `done` deleted before it. */
  function Resume(done: seq<StateFile>, r: SweepResult): SweepResult {
    SweepResult(done + r.deleted, r.remainingBytes)
  }

  /**
   * `cleanup_old_state_files`: collect the state files, sort them oldest first and delete
   * by the tiered rule, lowering the running size by each file removed.
   */
  method CleanupOldStateFiles(listing: seq<DirEntry>, now: int, dirBytes: int, locked: set<string>)
    returns (deleted: seq<StateFile>, cleaned: nat, remainingBytes: int)
    ensures Sweep(SweepView(listing, now, dirBytes, locked)) == SweepResult(deleted, remainingBytes)
    ensures cleaned == |deleted|
  {
    var filesInfo := CollectStateFiles(listing);
    var files := SortByMtime(filesInfo);
    deleted, cleaned, remainingBytes := DeleteOld(files, now, dirBytes, |filesInfo|, locked);
  }

  /** A file at most three days old is never deleted. */
  lemma {:induction false} SweepKeepsYoung(files: seq<StateFile>, now: int, bytes: int, count: nat, locked: set<string>, f: StateFile)
    requires f in SweepFrom(files, now, bytes, count, locked).deleted
    ensures now - f.mtime > 3 * Day
    ensures f in files && f.name !in locked
    decreases |files|
  {
    var g := files[0];
    if ShouldDelete(g, now, bytes, count) && g.name !in locked && f != g {
      SweepKeepsYoung(files[1..], now, bytes - g.size, count, locked, f);
    } else if !(ShouldDelete(g, now, bytes, count) && g.name !in locked) {
      SweepKeepsYoung(files[1..], now, bytes, count, locked, f);
    }
  }

  /** A file older than fourteen days is always deleted unless `os.unlink` fails on it. */
  lemma {:induction false} SweepDeletesStale(files: seq<StateFile>, now: int, bytes: int, count: nat, locked: set<string>, f: StateFile)
    requires f in files && now - f.mtime > 14 * Day && f.name !in locked
    ensures f in SweepFrom(files, now, bytes, count, locked).deleted
    decreases |files|
  {
    var g := files[0];
    if f != g {
      var b := if ShouldDelete(g, now, bytes, count) && g.name !in locked then bytes - g.size else bytes;
      SweepDeletesStale(files[1..], now, b, count, locked, f);
    }
  }

  /** The running size ends lowered by exactly the sizes of the deleted files. */
  lemma {:induction false} SweepBytes(files: seq<StateFile>, now: int, bytes: int, count: nat, locked: set<string>)
    ensures var r := SweepFrom(files, now, bytes, count, locked);
      r.remainingBytes == bytes - SumSizes(r.deleted) && r.remainingBytes <= bytes
    decreases |files|
  {
    if files != [] {
      var g := files[0];
      if ShouldDelete(g, now, bytes, count) && g.name !in locked {
        SweepBytes(files[1..], now, bytes - g.size, count, locked);
        var rest := SweepFrom(files[1..], now, bytes - g.size, count, locked).deleted;
        assert ([g] + rest)[1..] == rest;
      } else {
        SweepBytes(files[1..], now, bytes, count, locked);
      }
    }
  }

  /** The sweep visits the files in order: what it deletes is oldest first. */
  lemma {:induction false} SweepOldestFirst(files: seq<StateFile>, now: int, bytes: int, count: nat, locked: set<string>)
    requires SortedByMtime(files)
    ensures SortedByMtime(SweepFrom(files, now, bytes, count, locked).deleted)
    decreases |files|
  {
    if files != [] {
      var g := files[0];
      var b := if ShouldDelete(g, now, bytes, count) && g.name !in locked then bytes - g.size else bytes;
      SweepOldestFirst(files[1..], now, b, count, locked);
      var rest := SweepFrom(files[1..], now, b, count, locked).deleted;
      forall x | x in rest ensures g.mtime <= x.mtime {
        SweepKeepsYoung(files[1..], now, b, count, locked, x);
      }
    }
  }

  /** The sweep of a concatenation runs the first part, then the second from the size the first left. */
  lemma {:induction false} SweepAppend(a: seq<StateFile>, b: seq<StateFile>, now: int, bytes: int, count: nat, locked: set<string>)
    ensures var first := SweepFrom(a, now, bytes, count, locked);
      SweepFrom(a + b, now, bytes, count, locked)
        == Resume(first.deleted, SweepFrom(b, now, first.remainingBytes, count, locked))
    decreases |a|
  {
    if a == [] {
      assert a + b == b;
    } else {
      var g := a[0];
      var next := if ShouldDelete(g, now, bytes, count) && g.name !in locked then bytes - g.size else bytes;
      assert (a + b)[1..] == a[1..] + b;
      SweepAppend(a[1..], b, now, next, count, locked);
    }
  }
}

=== FILE: context_fetch.dfy ===
/**
 * `get_contexts_parallel.py`: ask the retrieval flow every question of the
 * sheet that has no passages yet, and write the passages it returns into the
 * `Contexts` column.
 *
 * The HTTP call is a `Reply`; the HTML-to-text conversion is a parameter.
 */
module ContextFetch {
  import opened Wrappers
  import opened Text
  import opened Table
  import opened Fetching

  /** `html_to_text`: an empty text is returned as it is; any other goes through the converter. */
  function HtmlToText(convert: string -> string, t: string): (r: string)
    ensures t == "" ==> r == ""
    ensures t != "" ==> r == convert(t)
  {
    if t == "" then t else convert(t)
  }

  /** `query_contexts` after the HTTP call: the converted passages and whether they were found. */
  function QueryContexts(reply: Reply, convert: string -> string): (r: (string, bool))
    ensures !r.1 ==> r.0 == ""
    ensures r.1 <==> reply.Replied? && Extracted(reply.text).Some?
    ensures r.1 ==> r.0 == HtmlToText(convert, Extracted(reply.text).value)
  {
    match reply
    case Failed(_) => ("", false)
    case Replied(text) =>
      match Extracted(text)
      case None => ("", false)
      case Some(contexts) => (HtmlToText(convert, contexts), true)
  }

  /** A reply that carries the JSON encoding of a plain text without `"}` gives that text, converted. */
  lemma QueryContextsRoundTrip(pre: string, t: string, post: string, convert: string -> string)
    requires '"' !in pre && Plain(t) && !Contains(t, ValueClose)
    ensures QueryContexts(Replied(pre + ContentMarker + Escape(t) + ValueClose + post), convert) == (HtmlToText(convert, t), true)
  {
    ContentRoundTrip(pre, t, post);
  }

  /** `process_single_question`: the status, and the row as saved. */
  function ContextOutcome(row: Row, reply: Reply, convert: string -> string, saves: nat -> bool): (r: TaskOutcome)
    ensures r.status == Skipped <==> !Blank(row.contexts)
    ensures r.status == ApiFailed <==> Blank(row.contexts) && !QueryContexts(reply, convert).1
    ensures r.status == Completed <==> Blank(row.contexts) && QueryContexts(reply, convert).1 && SaveFrom(saves, 0).1
    ensures r.written.Some? <==> r.status == Completed
    ensures r.written.Some? ==> r.written.value == row.(contexts := Some(QueryContexts(reply, convert).0))
  {
    if !Blank(row.contexts) then TaskOutcome(Skipped, None)
    else
      var (contexts, found) := QueryContexts(reply, convert);
      if !found then TaskOutcome(ApiFailed, None)
      else if SaveFrom(saves, 0).1 then TaskOutcome(Completed, Some(row.(contexts := Some(contexts))))
      else TaskOutcome(SaveFailed, None)
  }

  /** A row that already has passages is skipped whatever the flow or the file would do. */
  lemma SkipNeedsNothing(row: Row, r1: Reply, r2: Reply, convert: string -> string, s1: nat -> bool, s2: nat -> bool)
    requires !Blank(row.contexts)
    ensures ContextOutcome(row, r1, convert, s1) == ContextOutcome(row, r2, convert, s2) == TaskOutcome(Skipped, None)
  {
  }

  /** The outcome of each task: row `i`'s request (its own session id) is answered by `api(i)`, and its save attempts are `saves(i)`. */
  function Outcomes(api: nat -> string -> Reply, convert: string -> string, saves: nat -> nat -> bool): (nat, Row) -> TaskOutcome {
    (i: nat, row: Row) => ContextOutcome(row, api(i)(Strip(Str(row.question))), convert, saves(i))
  }

  /** Row `i` after the run: with the passages saved, or as it was. */
  function ContextRow(rows: seq<Row>, i: nat, api: nat -> string -> Reply, convert: string -> string, saves: nat -> nat -> bool): (r: Row)
    requires i < |rows|
    ensures r.question == rows[i].question && r.answer == rows[i].answer
    ensures r.reference == rows[i].reference && r.others == rows[i].others
    ensures Blank(rows[i].question) || !Blank(rows[i].contexts) ==> r == rows[i]
  {
    if Blank(rows[i].question) then rows[i]
    else match ContextOutcome(rows[i], api(i)(Strip(Str(rows[i].question))), convert, saves(i)).written
      case Some(w) => w
      case None => rows[i]
  }

  /**
   * `process_file_parallel`, the pool finishing the tasks in `order`: the
   * sheet as saved, and the final counters.
   */
  method ProcessContexts(rows: seq<Row>, order: seq<nat>, api: nat -> string -> Reply, convert: string -> string, saves: nat -> nat -> bool)
    returns (sheet: seq<Row>, report: Report)
    requires multiset(order) == multiset(TaskRows(rows))
    ensures |sheet| == |rows| && forall i :: 0 <= i < |rows| ==> sheet[i] == ContextRow(rows, i, api, convert, saves)
    ensures report.NoTasks? <==> forall i :: 0 <= i < |rows| ==> Blank(rows[i].question)
    ensures report.Summary? ==>
      var tasks := TaskRows(rows);
      && report.counts == TallyOf(rows, Outcomes(api, convert, saves), tasks)
      && Total(report.counts) == |tasks|
      && report.rate == SuccessRate(|tasks|, report.counts)
  {
    var outcome := Outcomes(api, convert, saves);
    sheet, report := RunTasks(rows, order, outcome);
    forall i | 0 <= i < |rows| ensures sheet[i] == ContextRow(rows, i, api, convert, saves) {
      AppliedTasks(rows, outcome, i);
    }
    NoTaskRows(rows);
    if TaskRows(rows) != [] {
      TallyTotal(rows, outcome, TaskRows(rows));
    }
  }
}

=== FILE: contexts_column.dfy ===
/**
 * `extract_contexts_from_contexts_column`: splits the text of a Contexts cell
 * into reference passages.  Two modes: the header mode finds every
 * `[file.ext]:` heading followed by a newline and keeps the passage under it;
 * when no heading matches, the fallback splits on blank lines.
 *
 * The header regular expression
 *   \[([^\]]+\.\w+)\]:\s*\n([^[]*?)(?=\n\[[^\]]+\.\w+\]:|$)
 * is modelled by the position functions below, which follow the backtracking
 * order of Python's `re` engine step by step.
 */
module ContextsColumn {
  import opened Wrappers
  import opened Text

  const NoReference: string := "无参考文档"
  const Unclear: string := "参考文档信息不明确"
  const BlankLine: string := "\n\n"

  /** Start of the longest run of word characters that ends at `k`. */
  function WordRunStart(g: string, k: nat): (j: nat)
    requires k <= |g|
    ensures j <= k && forall i :: j <= i < k ==> IsWord(g[i])
    ensures j > 0 ==> !IsWord(g[j - 1])
  {
    if k > 0 && IsWord(g[k - 1]) then WordRunStart(g, k - 1) else k
  }

  /**
   * `[^\]]+\.\w+` on a heading name that contains no `]`: a dot with at
   * least one character before it, followed only by word characters, at
   * least one.  Since `.` is not a word character that dot is the one right
   * before the trailing word run.
   */
  predicate NameOk(g: string) {
    var j := WordRunStart(g, |g|);
    2 <= j < |g| && g[j - 1] == '.'
  }

  /** Where the heading `[name.ext]:` starting at `i` ends, if one starts there. */
  function HeadingEnd(s: string, i: nat): (r: Option<nat>)
    ensures r.Some? ==> i < |s| && s[i] == '[' && i + 3 <= r.value <= |s|
  {
    if i < |s| && s[i] == '[' then
      var q := CharFrom(s, ']', i + 1);
      if q + 1 < |s| && NameOk(s[i + 1..q]) && s[q + 1] == ':' then Some(q + 2) else None
    else None
  }

  /** The look-ahead `(?=\n\[[^\]]+\.\w+\]:|$)` at position `e` (`$` also matches before a final newline). */
  predicate PassageStop(s: string, e: nat) {
    || (e < |s| && s[e] == '\n' && HeadingEnd(s, e + 1).Some?)
    || e == |s|
    || (e + 1 == |s| && s[e] == '\n')
  }

  /** The lazy `[^[]*?`: the first stop at or after `e` that is not past a `[`. */
  function PassageEnd(s: string, e: nat): (r: Option<nat>)
    requires e <= |s|
    ensures r.Some? ==> e <= r.value <= |s| && PassageStop(s, r.value)
    ensures r.Some? ==> forall k :: e <= k < r.value ==> s[k] != '['
    ensures r.Some? ==> forall k {:trigger PassageStop(s, k)} :: e <= k < r.value ==> !PassageStop(s, k)
    decreases |s| - e
  {
    if PassageStop(s, e) then Some(e)
    else if s[e] == '[' then None
    else PassageEnd(s, e + 1)
  }

  /**
   * `\s*\n` after the heading, the whitespace run being `s[h..t]`: the greedy
   * `\s*` gives back one character at a time, so the newlines of the run are
   * tried from the last one down, and the first one after which a passage
   * ends wins.  The result is the passage's start and end.
   */
  function NewlineThenPassage(s: string, h: nat, t: nat): (r: Option<(nat, nat)>)
    requires h <= t <= |s|
    ensures r.Some? ==> h < r.value.0 <= t && s[r.value.0 - 1] == '\n'
    ensures r.Some? ==> PassageEnd(s, r.value.0) == Some(r.value.1)
    decreases t - h
  {
    if t == h then None
    else if s[t - 1] != '\n' then NewlineThenPassage(s, h, t - 1)
    else match PassageEnd(s, t)
      case Some(e) => Some((t, e))
      case None => NewlineThenPassage(s, h, t - 1)
  }

  /** A match of the heading pattern starting at `p`: the passage's start and end. */
  function MatchAt(s: string, p: nat): (r: Option<(nat, nat)>)
    ensures r.Some? ==> p < r.value.0 <= r.value.1 <= |s|
    ensures r.Some? ==> forall k :: r.value.0 <= k < r.value.1 ==> s[k] != '['
  {
    match HeadingEnd(s, p)
    case None => None
    case Some(h) => NewlineThenPassage(s, h, SpaceRunEnd(s, h))
  }

  /** `re.findall` from position `p`: the passages of all non-overlapping matches, left to right. */
  function FindPassages(s: string, p: nat): (r: seq<string>)
    requires p <= |s|
    ensures forall k :: 0 <= k < |r| ==> '[' !in r[k]
    decreases |s| - p
  {
    if p == |s| then []
    else match MatchAt(s, p)
      case Some((c, e)) => [s[c..e]] + FindPassages(s, e)
      case None => FindPassages(s, p + 1)
  }

  /** `re.sub(r'\s+', ' ', content.strip())`. */
  function CleanPassage(content: string): string {
    CollapseSpaces(Strip(content))
  }

  /** The header mode keeps the cleaned passages that are not empty. */
  function KeepCleaned(contents: seq<string>): (r: seq<string>)
  {
    if contents == [] then []
    else
      var c := CleanPassage(contents[0]);
      (if c != [] then [c] else []) + KeepCleaned(contents[1..])
  }

  /** `re.sub(r'^\[.*?\]:\s*', '', chunk)`: `.` stops at a newline, so the label lies on the first line. */
  function DropLabel(chunk: string): (r: string)
    ensures |r| <= |chunk| && r == chunk[|chunk| - |r|..]
  {
    if chunk != [] && chunk[0] == '[' then
      match LabelEnd(chunk, 1)
      case Some(k) => chunk[SpaceRunEnd(chunk, k)..]
      case None => chunk
    else chunk
  }

  /** The lazy `.*?\]:` from `k`: the end of the first `]:` before any newline. */
  function LabelEnd(chunk: string, k: nat): (r: Option<nat>)
    requires k <= |chunk|
    ensures r.Some? ==> k + 2 <= r.value <= |chunk| && chunk[r.value - 2..r.value] == "]:"
    ensures r.Some? ==> forall i :: k <= i < r.value - 2 ==> chunk[i] != '\n'
    decreases |chunk| - k
  {
    if k + 2 <= |chunk| && chunk[k..k + 2] == "]:" then Some(k + 2)
    else if k == |chunk| || chunk[k] == '\n' then None
    else LabelEnd(chunk, k + 1)
  }

  /** The fallback mode on the chunks left by `split('\n\n')`. */
  function KeepChunks(chunks: seq<string>): (r: seq<string>)
  {
    if chunks == [] then []
    else
      var c := Strip(chunks[0]);
      (if |c| > 10 then [DropLabel(c)] else []) + KeepChunks(chunks[1..])
  }

  /** The passages of the already stripped text `t`, before the fallback sentinel. */
  function Passages(t: string): seq<string>
  {
    var found := FindPassages(t, 0);
    if found != [] then KeepCleaned(found) else KeepChunks(Split(t, BlankLine))
  }

  /** `extract_contexts_from_contexts_column` on a cell, `None` being NaN. */
  function ExtractContexts(cell: Option<string>): (r: seq<string>)
    ensures r != []
    ensures cell.None? || cell == Some("") ==> r == [NoReference]
  {
    if cell.None? || cell.value == "" then [NoReference]
    else OrUnclear(Passages(Strip(cell.value)))
  }

  /** The sentinel that replaces an empty passage list. */
  function OrUnclear(ps: seq<string>): (r: seq<string>)
    ensures r != []
  {
    if ps != [] then ps else [Unclear]
  }

  lemma {:induction false} ExtractText(text: string)
    requires text != []
    ensures ExtractContexts(Some(text)) == OrUnclear(Passages(Strip(text)))
  {
  }

  /** Which of the two modes applies to a non-empty cell. */
  predicate HeaderMode(text: string) {
    FindPassages(Strip(text), 0) != []
  }

  /** Every passage the header mode keeps is non-empty, single-spaced, trimmed and free of `[`. */
  lemma {:induction false} KeepCleanedShape(contents: seq<string>)
    requires forall k :: 0 <= k < |contents| ==> '[' !in contents[k]
    ensures forall k :: 0 <= k < |KeepCleaned(contents)| ==> CleanShape(KeepCleaned(contents)[k])
  {
    if contents != [] {
      KeepCleanedShape(contents[1..]);
      var c := CleanPassage(contents[0]);
      if c != [] {
        CleanPassageShape(contents[0]);
      }
    }
  }

  predicate CleanShape(p: string) {
    p != [] && '[' !in p && SingleSpaced(p) && !IsSpace(p[0]) && !IsSpace(p[|p| - 1])
  }

  lemma CleanPassageShape(content: string)
    requires '[' !in content && CleanPassage(content) != []
    ensures CleanShape(CleanPassage(content))
  {
    var t := Strip(content);
    StripSpec(content);
    assert '[' !in t by {
      forall k | 0 <= k < |t| ensures t[k] != '[' {
        assert t[k] == content[StripOffset(content) + k];
      }
    }
    CollapseSpacesText(t, '[');
    CollapseSpacesRuns(t);
    CollapseSpacesLast(t);
  }

  /** In header mode every result passage is non-empty, single-spaced, trimmed and contains no `[`. */
  lemma HeaderModePassages(text: string)
    requires text != [] && HeaderMode(text)
    ensures var r := ExtractContexts(Some(text));
      forall k :: 0 <= k < |r| ==> CleanShape(r[k])
  {
    var t := Strip(text);
    ExtractText(text);
    PassagesHeader(t);
    KeepCleanedShape(FindPassages(t, 0));
    UnclearShape();
  }

  /** The sentinel passage is trimmed, single-spaced and free of `[` and blank lines. */
  lemma UnclearShape()
    ensures CleanShape(Unclear) && NoBlankLine(Unclear)
  {
    var u := Unclear;
    forall k | 0 <= k < |u| ensures '\U{3001}' <= u[k] {
      assert u[k] in {'参', '考', '文', '档', '信', '息', '不', '明', '确'};
    }
    AboveSpaces(u);
  }

  /** A non-empty text whose characters all lie above every space character. */
  lemma AboveSpaces(u: string)
    requires u != [] && forall k :: 0 <= k < |u| ==> '\U{3001}' <= u[k]
    ensures CleanShape(u) && NoBlankLine(u)
  {
  }

  lemma PassagesFallback(t: string)
    requires FindPassages(t, 0) == []
    ensures Passages(t) == KeepChunks(Split(t, BlankLine))
  {
  }

  lemma PassagesHeader(t: string)
    requires FindPassages(t, 0) != []
    ensures Passages(t) == KeepCleaned(FindPassages(t, 0))
  {
  }

  /** No two newlines in a row: the text holds no blank-line separator. */
  predicate NoBlankLine(t: string) {
    forall k :: 0 <= k < |t| - 1 ==> t[k] != '\n' || t[k + 1] != '\n'
  }

  lemma LacksBlankLine(t: string)
    requires !Contains(t, BlankLine)
    ensures NoBlankLine(t)
  {
    ContainsIff(t, BlankLine);
    forall k | 0 <= k < |t| - 1 ensures t[k] != '\n' || t[k + 1] != '\n' {
      assert !OccursAt(t, BlankLine, k);
      assert t[k..k + 2] == [t[k], t[k + 1]];
    }
  }

  lemma InfixNoBlankLine(t: string, i: nat, j: nat)
    requires i <= j <= |t| && NoBlankLine(t)
    ensures NoBlankLine(t[i..j])
  {
    forall k | 0 <= k < j - i - 1 ensures t[i..j][k] != '\n' || t[i..j][k + 1] != '\n' {
      assert t[i..j][k] == t[i + k] && t[i..j][k + 1] == t[i + k + 1];
    }
  }

  /** No passage of the fallback mode contains a blank-line separator. */
  lemma {:induction false} KeepChunksShape(chunks: seq<string>)
    requires forall k :: 0 <= k < |chunks| ==> NoBlankLine(chunks[k])
    ensures forall k :: 0 <= k < |KeepChunks(chunks)| ==> NoBlankLine(KeepChunks(chunks)[k])
  {
    if chunks != [] {
      var tail := KeepChunks(chunks[1..]);
      KeepChunksShape(chunks[1..]);
      var c := Strip(chunks[0]);
      var head := if |c| > 10 then [DropLabel(c)] else [];
      KeptChunkShape(chunks[0]);
      assert KeepChunks(chunks) == head + tail;
      AppendNoBlankLine(head, tail);
    }
  }

  /** Stripping a chunk and dropping its label keeps it free of blank lines. */
  lemma KeptChunkShape(chunk: string)
    requires NoBlankLine(chunk)
    ensures NoBlankLine(DropLabel(Strip(chunk)))
  {
    var c := Strip(chunk);
    StripSpec(chunk);
    var o := StripOffset(chunk);
    InfixNoBlankLine(chunk, o, o + |c|);
    var d := DropLabel(c);
    InfixNoBlankLine(c, |c| - |d|, |c|);
  }

  lemma AppendNoBlankLine(xs: seq<string>, ys: seq<string>)
    requires forall k :: 0 <= k < |xs| ==> NoBlankLine(xs[k])
    requires forall k :: 0 <= k < |ys| ==> NoBlankLine(ys[k])
    ensures forall k :: 0 <= k < |xs + ys| ==> NoBlankLine((xs + ys)[k])
  {
    forall k | 0 <= k < |xs + ys| ensures NoBlankLine((xs + ys)[k]) {
      if k >= |xs| {
        assert (xs + ys)[k] == ys[k - |xs|];
      }
    }
  }

  /** No chunk of `split('\n\n')` spans a blank line. */
  lemma SplitNoBlankLine(t: string)
    ensures forall k :: 0 <= k < |Split(t, BlankLine)| ==> NoBlankLine(Split(t, BlankLine)[k])
  {
    var chunks := Split(t, BlankLine);
    forall k | 0 <= k < |chunks| ensures NoBlankLine(chunks[k]) {
      LacksBlankLine(chunks[k]);
    }
  }

  /** In fallback mode no result passage spans a blank line. */
  lemma {:induction false} FallbackPassages(text: string)
    requires text != [] && !HeaderMode(text)
    ensures var r := ExtractContexts(Some(text));
      forall k :: 0 <= k < |r| ==> NoBlankLine(r[k])
  {
    var t := Strip(text);
    var kept := KeepChunks(Split(t, BlankLine));
    assert forall k :: 0 <= k < |kept| ==> NoBlankLine(kept[k]) by {
      SplitNoBlankLine(t);
      KeepChunksShape(Split(t, BlankLine));
    }
    assert ExtractContexts(Some(text)) == OrUnclear(kept) by {
      ExtractText(text);
      PassagesFallback(t);
    }
    UnclearShape();
  }

  /** One `[name.ext]:` section of a Contexts cell as the fetch step writes it. */
  datatype Section = Section(name: string, passage: string)

  function Block(d: Section): string {
    "[" + d.name + "]:\n" + d.passage
  }

  /** Sections separated by a single newline. */
  function Render(docs: seq<Section>): string {
    if docs == [] then ""
    else if |docs| == 1 then Block(docs[0])
    else Block(docs[0]) + "\n" + Render(docs[1..])
  }

  /** A heading name with an extension, and a trimmed passage without `[`. */
  predicate WellFormed(d: Section) {
    && ']' !in d.name && NameOk(d.name)
    && d.passage != [] && '[' !in d.passage
    && !IsSpace(d.passage[0]) && !IsSpace(d.passage[|d.passage| - 1])
  }

  /** Every section is well formed. */
  predicate AllWellFormed(docs: seq<Section>) {
    docs == [] || (WellFormed(docs[0]) && AllWellFormed(docs[1..]))
  }

  function PassagesOf(docs: seq<Section>): (r: seq<string>)
    ensures |r| == |docs|
  {
    if docs == [] then [] else [docs[0].passage] + PassagesOf(docs[1..])
  }

  /** `t` is written in `s` from position `p` on. */
  predicate At(s: string, p: nat, t: string) {
    p + |t| <= |s| && forall k :: 0 <= k < |t| ==> s[p + k] == t[k]
  }

  lemma AtConcat(s: string, p: nat, x: string, y: string)
    requires At(s, p, x + y)
    ensures At(s, p, x) && At(s, p + |x|, y)
  {
    forall k | 0 <= k < |x| ensures s[p + k] == x[k] { assert (x + y)[k] == x[k]; }
    forall k | 0 <= k < |y| ensures s[p + |x| + k] == y[k] { assert (x + y)[|x| + k] == y[k]; }
  }

  /** A heading written by `Block` is recognised where it starts. */
  lemma HeadingAt(s: string, p: nat, d: Section)
    requires WellFormed(d) && At(s, p, Block(d))
    ensures HeadingEnd(s, p) == Some(p + |d.name| + 3)
  {
    var n := |d.name|;
    var b := Block(d);
    assert b == "[" + d.name + "]:\n" + d.passage;
    assert s[p] == b[0] == '[';
    assert s[p + 1 + n] == b[n + 1] == ']';
    assert s[p + n + 2] == b[n + 2] == ':';
    forall k | 0 <= k < n ensures s[p + 1..p + 1 + n][k] == d.name[k] {
      assert s[p + 1 + k] == b[1 + k];
    }
    assert s[p + 1..p + 1 + n] == d.name;
    forall k | p + 1 <= k < p + 1 + n ensures s[k] != ']' {
      assert s[k] == d.name[k - p - 1];
    }
    var q := CharFrom(s, ']', p + 1);
    assert q == p + 1 + n;
  }

  /** The lazy passage ends at the first stop, provided nothing before it is a `[`. */
  lemma {:induction false} PassageEndIs(s: string, e0: nat, e: nat)
    requires e0 <= e <= |s| && PassageStop(s, e)
    requires forall k :: e0 <= k < e ==> s[k] != '['
    requires forall k {:trigger PassageStop(s, k)} :: e0 <= k < e ==> !PassageStop(s, k)
    ensures PassageEnd(s, e0) == Some(e)
    decreases e - e0
  {
    if e0 < e {
      PassageEndIs(s, e0 + 1, e);
    }
  }

  /** A rendered section at `p..e` followed by a stop matches as one heading and its whole passage, from `c`. */
  lemma SectionMatch(s: string, p: nat, c: nat, e: nat, d: Section)
    requires WellFormed(d) && At(s, p, Block(d)) && c == p + |d.name| + 4 && e == p + |Block(d)|
    requires PassageStop(s, e)
    ensures MatchAt(s, p) == Some((c, e))
  {
    BlockParts(s, p, d);
    assert e == c + |d.passage|;
    HeadingAt(s, p, d);
    PassageInside(s, c, d);
    PassageEndIs(s, c, e);
    MatchFrom(s, p, c - 1, e);
  }

  /** How a rendered section splits into its heading line and its passage. */
  lemma BlockParts(s: string, p: nat, d: Section)
    requires WellFormed(d) && At(s, p, Block(d))
    ensures s[p + |d.name| + 3] == '\n' && At(s, p + |d.name| + 4, d.passage)
    ensures |Block(d)| == |d.name| + 4 + |d.passage|
  {
    var head := "[" + d.name + "]:\n";
    assert Block(d) == head + d.passage;
    AtConcat(s, p, head, d.passage);
    assert s[p + |d.name| + 3] == head[|d.name| + 3];
  }

  /** A heading line that ends right before a passage matches as that passage. */
  lemma MatchFrom(s: string, p: nat, h: nat, e: nat)
    requires HeadingEnd(s, p) == Some(h) && h + 1 < |s| && s[h] == '\n' && !IsSpace(s[h + 1])
    requires PassageEnd(s, h + 1) == Some(e)
    ensures MatchAt(s, p) == Some((h + 1, e))
  {
    assert SpaceRunEnd(s, h) == h + 1;
  }

  /** Inside a written passage there is no `[` and no place where the look-ahead succeeds. */
  lemma PassageInside(s: string, c: nat, d: Section)
    requires WellFormed(d) && At(s, c, d.passage)
    ensures forall k :: c <= k < c + |d.passage| ==> s[k] != '['
    ensures forall k {:trigger PassageStop(s, k)} :: c <= k < c + |d.passage| ==> !PassageStop(s, k)
  {
    var e := c + |d.passage|;
    forall k | c <= k < e ensures s[k] != '[' && !PassageStop(s, k) {
      assert s[k] == d.passage[k - c];
      if k + 1 < e {
        assert s[k + 1] == d.passage[k - c + 1];
      }
    }
  }

  /** Where a rendered section's passage lies. */
  lemma BlockPassage(s: string, p: nat, d: Section)
    requires At(s, p, Block(d))
    ensures s[p + |d.name| + 4..p + |Block(d)|] == d.passage
  {
    assert Block(d) == ("[" + d.name + "]:\n") + d.passage;
    AtConcat(s, p, "[" + d.name + "]:\n", d.passage);
  }

  /** The sections `docs` are laid out in `s` from `p` to the end, one newline apart. */
  predicate Laid(s: string, p: nat, docs: seq<Section>)
    decreases |docs|
  {
    if docs == [] then p == |s|
    else
      var e := p + |Block(docs[0])|;
      && At(s, p, Block(docs[0]))
      && if |docs| == 1 then e == |s|
         else e < |s| && s[e] == '\n' && Laid(s, e + 1, docs[1..])
  }

  /** One step of `findall`: a match at `p` yields its passage and the search resumes at its end. */
  lemma FindStep(s: string, p: nat, c: nat, e: nat)
    requires p < |s| && MatchAt(s, p) == Some((c, e))
    ensures FindPassages(s, p) == [s[c..e]] + FindPassages(s, e)
  {
  }

  /** The last section is the last match. */
  lemma FindLastSection(s: string, p: nat, d: Section)
    requires WellFormed(d) && At(s, p, Block(d)) && p + |Block(d)| == |s|
    ensures FindPassages(s, p) == [d.passage]
  {
    SectionMatch(s, p, p + |d.name| + 4, |s|, d);
    BlockPassage(s, p, d);
    FindStep(s, p, p + |d.name| + 4, |s|);
  }

  /** A section followed by another: its passage, then the search resumes after the separator. */
  lemma FindInnerSection(s: string, p: nat, d: Section, next: Section)
    requires WellFormed(d) && WellFormed(next) && At(s, p, Block(d))
    requires p + |Block(d)| < |s| && s[p + |Block(d)|] == '\n' && At(s, p + |Block(d)| + 1, Block(next))
    ensures FindPassages(s, p) == [d.passage] + FindPassages(s, p + |Block(d)| + 1)
  {
    var c := p + |d.name| + 4;
    var e := p + |Block(d)|;
    var f := p + |Block(d)| + 1;
    assert e + 1 == f;
    HeadingAt(s, f, next);
    assert PassageStop(s, e);
    assert FindPassages(s, e) == FindPassages(s, f) by {
      assert MatchAt(s, e) == None;
    }
    assert FindPassages(s, p) == [d.passage] + FindPassages(s, e) by {
      SectionMatch(s, p, c, e, d);
      BlockPassage(s, p, d);
      FindStep(s, p, c, e);
    }
  }

  /** `findall` over laid-out sections returns exactly their passages. */
  lemma {:induction false} FindLaid(s: string, p: nat, docs: seq<Section>)
    requires docs != [] && AllWellFormed(docs) && Laid(s, p, docs)
    ensures FindPassages(s, p) == PassagesOf(docs)
    decreases |docs|
  {
    var rest := docs[1..];
    assert PassagesOf(docs) == [docs[0].passage] + PassagesOf(rest);
    if |docs| == 1 {
      FindLastSection(s, p, docs[0]);
    } else {
      var q := p + |Block(docs[0])| + 1;
      assert rest[0] == docs[1];
      FindInnerSection(s, p, docs[0], docs[1]);
      FindLaid(s, q, rest);
    }
  }

  /** `Render` lays its sections out one newline apart, wherever it is placed at the end of a text. */
  lemma {:induction false} RenderLaid(pre: string, docs: seq<Section>)
    requires docs != []
    ensures Laid(pre + Render(docs), |pre|, docs)
    decreases |docs|
  {
    var b := Block(docs[0]);
    if |docs| == 1 {
      assert pre + Render(docs) == pre + b + "";
      AtInfix(pre, b, "");
    } else {
      RenderLaid(pre + b + "\n", docs[1..]);
      RenderLaidStep(pre, docs);
    }
  }

  /** The induction step of `RenderLaid`: the first block, its newline, then the rest. */
  lemma RenderLaidStep(pre: string, docs: seq<Section>)
    requires |docs| > 1
    requires Laid(pre + Block(docs[0]) + "\n" + Render(docs[1..]), |pre + Block(docs[0]) + "\n"|, docs[1..])
    ensures Laid(pre + Render(docs), |pre|, docs)
  {
    var s := pre + Render(docs);
    var b := Block(docs[0]);
    var rest := docs[1..];
    var pre' := pre + b + "\n";
    assert Render(docs) == b + "\n" + Render(rest);
    Regroup(pre, b, "\n", Render(rest));
    AtInfix(pre, b, "\n" + Render(rest));
    var e := |pre| + |b|;
    assert |pre'| == e + 1;
    assert s[e] == '\n';
    LaidCons(s, |pre|, e, docs);
  }

  lemma Regroup(w: string, x: string, y: string, z: string)
    ensures w + (x + y + z) == w + x + (y + z) == w + x + y + z
  {
  }

  lemma AtInfix(x: string, y: string, z: string)
    ensures At(x + y + z, |x|, y)
  {
    var s := x + y + z;
    forall k | 0 <= k < |y| ensures s[|x| + k] == y[k] {
    }
  }

  /** A section, a newline, and the other sections laid out after it. */
  lemma LaidCons(s: string, p: nat, e: nat, docs: seq<Section>)
    requires |docs| > 1 && At(s, p, Block(docs[0])) && e == p + |Block(docs[0])|
    requires e < |s| && s[e] == '\n' && Laid(s, e + 1, docs[1..])
    ensures Laid(s, p, docs)
  {
  }

  /** The passages of `docs` after `re.sub(r'\s+', ' ', ...)`. */
  function CollapsedPassages(docs: seq<Section>): (r: seq<string>)
    ensures |r| == |docs|
  {
    if docs == [] then [] else [CollapseSpaces(docs[0].passage)] + CollapsedPassages(docs[1..])
  }

  /** Cleaning well-formed passages only collapses their whitespace and drops none of them. */
  lemma {:induction false} KeepCleanedSections(docs: seq<Section>)
    requires AllWellFormed(docs)
    ensures KeepCleaned(PassagesOf(docs)) == CollapsedPassages(docs)
    decreases |docs|
  {
    if docs != [] {
      var p := docs[0].passage;
      StripTrimmed(p);
      assert PassagesOf(docs)[1..] == PassagesOf(docs[1..]);
      KeepCleanedSections(docs[1..]);
    }
  }

  /** A rendered text starts with `[` and ends in the last passage's non-space character. */
  lemma {:induction false} RenderEnds(docs: seq<Section>)
    requires docs != [] && AllWellFormed(docs)
    ensures var s := Render(docs); s != [] && !IsSpace(s[0]) && !IsSpace(s[|s| - 1])
    decreases |docs|
  {
    var b := Block(docs[0]);
    assert b[0] == '[';
    if |docs| == 1 {
      assert b[|b| - 1] == docs[0].passage[|docs[0].passage| - 1];
    } else {
      RenderEnds(docs[1..]);
      var r := Render(docs[1..]);
      assert Render(docs) == b + "\n" + r;
    }
  }

  /**
   * Reading back what the fetch step writes: every section's passage comes back, in order,
   * with its whitespace runs collapsed to single spaces.
   */
  lemma ContextsRoundTrip(docs: seq<Section>)
    requires docs != [] && AllWellFormed(docs)
    ensures ExtractContexts(Some(Render(docs))) == CollapsedPassages(docs)
  {
    var s := Render(docs);
    RenderStripped(docs);
    RenderFound(docs);
    PassagesHeader(s);
    KeepCleanedSections(docs);
    ExtractText(s);
  }

  /** A rendered text has nothing to strip. */
  lemma RenderStripped(docs: seq<Section>)
    requires docs != [] && AllWellFormed(docs)
    ensures Render(docs) != [] && Strip(Render(docs)) == Render(docs)
  {
    RenderEnds(docs);
    StripTrimmed(Render(docs));
  }

  /** The heading pattern finds exactly the rendered passages. */
  lemma RenderFound(docs: seq<Section>)
    requires docs != [] && AllWellFormed(docs)
    ensures FindPassages(Render(docs), 0) == PassagesOf(docs)
  {
    RenderLaid([], docs);
    assert [] + Render(docs) == Render(docs);
    FindLaid(Render(docs), 0, docs);
  }

  /** Passages that are already single-spaced come back unchanged. */
  lemma {:induction false} CollapsedSingleSpaced(docs: seq<Section>)
    requires forall k :: 0 <= k < |docs| ==> SingleSpaced(docs[k].passage)
    ensures CollapsedPassages(docs) == PassagesOf(docs)
    decreases |docs|
  {
    if docs != [] {
      CollapseSingleSpaced(docs[0].passage);
      CollapsedSingleSpaced(docs[1..]);
    }
  }

  /**
   * The function's loops: append each non-empty cleaned passage when the header
   * pattern matches, else each long enough chunk with its label dropped.
   */
  method ExtractContextsColumn(cell: Option<string>) returns (contexts: seq<string>)
    ensures contexts == ExtractContexts(cell)
  {
    if cell.None? || cell.value == "" {
      return [NoReference];
    }
    var text := Strip(cell.value);
    var matches := FindPassages(text, 0);
    if matches != [] {
      contexts := CleanMatches(matches);
    } else {
      contexts := KeepLongChunks(Split(text, BlankLine));
    }
    assert contexts == Passages(text);
    if contexts == [] {
      contexts := [Unclear];
    }
  }

  /** The header-mode loop. */
  method CleanMatches(matches: seq<string>) returns (contexts: seq<string>)
    ensures contexts == KeepCleaned(matches)
  {
    contexts := [];
    var i := 0;
    while i < |matches|
      invariant 0 <= i <= |matches|
      invariant contexts == KeepCleaned(matches[..i])
    {
      var cleaned := CleanPassage(matches[i]);
      KeepCleanedSnoc(matches, i);
      if cleaned != [] {
        contexts := contexts + [cleaned];
      }
      i := i + 1;
    }
    assert matches[..i] == matches;
  }

  /** The fallback-mode loop. */
  method KeepLongChunks(chunks: seq<string>) returns (contexts: seq<string>)
    ensures contexts == KeepChunks(chunks)
  {
    contexts := [];
    var i := 0;
    while i < |chunks|
      invariant 0 <= i <= |chunks|
      invariant contexts == KeepChunks(chunks[..i])
    {
      var chunk := Strip(chunks[i]);
      KeepChunksSnoc(chunks, i);
      if chunk != [] && |chunk| > 10 {
        chunk := DropLabel(chunk);
        contexts := contexts + [chunk];
      }
      i := i + 1;
    }
    assert chunks[..i] == chunks;
  }

  lemma KeepCleanedSnoc(matches: seq<string>, i: nat)
    requires i < |matches|
    ensures var c := CleanPassage(matches[i]);
      KeepCleaned(matches[..i + 1]) == KeepCleaned(matches[..i]) + (if c != [] then [c] else [])
  {
    assert matches[..i + 1] == matches[..i] + [matches[i]];
    KeepCleanedAppend(matches[..i], [matches[i]]);
    assert [matches[i]][1..] == [];
  }

  lemma {:induction false} KeepCleanedAppend(a: seq<string>, b: seq<string>)
    ensures KeepCleaned(a + b) == KeepCleaned(a) + KeepCleaned(b)
  {
    if a == [] {
      assert a + b == b;
    } else {
      var c := CleanPassage(a[0]);
      var head := if c != [] then [c] else [];
      assert (a + b)[0] == a[0] && (a + b)[1..] == a[1..] + b;
      assert KeepCleaned(a + b) == head + KeepCleaned(a[1..] + b);
      KeepCleanedAppend(a[1..], b);
      assert KeepCleaned(a) == head + KeepCleaned(a[1..]);
      ConsAppend(KeepCleaned(a + b), KeepCleaned(a), head, KeepCleaned(a[1..]), KeepCleaned(b), KeepCleaned(a[1..] + b));
    }
  }

  /** Regrouping `h + (x + y)` as `(h + x) + y` when both sides are named. */
  lemma ConsAppend<T>(whole: seq<T>, front: seq<T>, h: seq<T>, x: seq<T>, y: seq<T>, rest: seq<T>)
    requires whole == h + rest && rest == x + y && front == h + x
    ensures whole == front + y
  {
  }

  lemma KeepChunksSnoc(chunks: seq<string>, i: nat)
    requires i < |chunks|
    ensures var c := Strip(chunks[i]);
      KeepChunks(chunks[..i + 1]) == KeepChunks(chunks[..i]) + (if c != [] && |c| > 10 then [DropLabel(c)] else [])
  {
    assert chunks[..i + 1] == chunks[..i] + [chunks[i]];
    KeepChunksAppend(chunks[..i], [chunks[i]]);
    assert [chunks[i]][1..] == [];
  }

  lemma {:induction false} KeepChunksAppend(a: seq<string>, b: seq<string>)
    ensures KeepChunks(a + b) == KeepChunks(a) + KeepChunks(b)
  {
    if a == [] {
      assert a + b == b;
    } else {
      var c := Strip(a[0]);
      var h := if |c| > 10 then [DropLabel(c)] else [];
      assert KeepChunks(a + b) == h + KeepChunks(a[1..] + b) by {
        assert (a + b)[0] == a[0] && (a + b)[1..] == a[1..] + b;
      }
      KeepChunksAppend(a[1..], b);
      assert h + (KeepChunks(a[1..]) + KeepChunks(b)) == h + KeepChunks(a[1..]) + KeepChunks(b);
    }
  }
}

=== FILE: evaluator.dfy ===
/**
 * The standalone scorer of `evaluate_dataset.py`: it turns the evaluation
 * samples into a column-wise dataset, scores it with bounded retries (all at
 * once, or in contiguous batches of which the first successful one wins),
 * audits the score columns and lays out the saved table.
 *
 * The remote scoring call and the random draws are parameters: a `Service`
 * answers each call by dataset, batch number and attempt, and hands out the
 * unit draws `u` from which `random.uniform(lo, hi)` is `lo + (hi - lo) * u`.
 */
module Evaluator {
  import opened Wrappers
  import opened Text
  import opened Seqs

  // ---------------------------------------------------------------------------
  // Samples and datasets

  /** One entry of the evaluation file; `ground_truth` may be absent. */
  datatype Sample = Sample(question: string, answer: string, contexts: seq<string>, groundTruth: Option<string>)

  /** The column-wise dataset handed to the scorer. */
  datatype Dataset = Dataset(question: seq<string>, answer: seq<string>, contexts: seq<seq<string>>, groundTruth: seq<string>)

  /** All four columns have the same length. */
  predicate WellFormed(d: Dataset) {
    |d.answer| == |d.question| && |d.contexts| == |d.question| && |d.groundTruth| == |d.question|
  }

  function Size(d: Dataset): nat {
    |d.question|
  }

  /** `item.get('ground_truth', item['answer'])`. */
  function GroundTruth(s: Sample): string {
    if s.groundTruth.Some? then s.groundTruth.value else s.answer
  }

  /** `create_ragas_dataset`. */
  function CreateDataset(items: seq<Sample>): (d: Dataset)
    ensures WellFormed(d) && Size(d) == |items|
  {
    Dataset(seq(|items|, i requires 0 <= i < |items| => items[i].question),
            seq(|items|, i requires 0 <= i < |items| => items[i].answer),
            seq(|items|, i requires 0 <= i < |items| => items[i].contexts),
            seq(|items|, i requires 0 <= i < |items| => GroundTruth(items[i])))
  }

  /** Row `i` of a dataset, read back as a sample. */
  function RowAt(d: Dataset, i: nat): Sample
    requires WellFormed(d) && i < Size(d)
  {
    Sample(d.question[i], d.answer[i], d.contexts[i], Some(d.groundTruth[i]))
  }

  /**
   * Reading row `i` back gives sample `i` with its ground truth filled in; a
   * sample list that already carries every ground truth comes back unchanged.
   */
  lemma CreateDatasetRows(items: seq<Sample>)
    ensures forall i: nat :: i < |items| ==>
      RowAt(CreateDataset(items), i) == items[i].(groundTruth := Some(GroundTruth(items[i])))
    ensures (forall i :: 0 <= i < |items| ==> items[i].groundTruth.Some?) ==>
      forall i: nat :: i < |items| ==> RowAt(CreateDataset(items), i) == items[i]
  {
  }

  /** `dataset[column][lo:hi]` for every column. */
  function Slice(d: Dataset, lo: nat, hi: nat): (r: Dataset)
    requires WellFormed(d) && lo <= hi <= Size(d)
    ensures WellFormed(r) && Size(r) == hi - lo
  {
    Dataset(d.question[lo..hi], d.answer[lo..hi], d.contexts[lo..hi], d.groundTruth[lo..hi])
  }

  /** A batch cut from the dataset is the dataset of the samples in that range. */
  lemma SliceOfCreate(items: seq<Sample>, lo: nat, hi: nat)
    requires lo <= hi <= |items|
    ensures Slice(CreateDataset(items), lo, hi) == CreateDataset(items[lo..hi])
  {
    var d, e := CreateDataset(items), CreateDataset(items[lo..hi]);
    assert Slice(d, lo, hi).question == e.question;
    assert Slice(d, lo, hi).answer == e.answer;
    assert Slice(d, lo, hi).contexts == e.contexts;
    assert Slice(d, lo, hi).groundTruth == e.groundTruth;
  }

  // ---------------------------------------------------------------------------
  // Chunking (run_batch_evaluation)

  /** `(total + size - 1) // size`. */
  function NumBatches(total: nat, size: nat): nat
    requires size > 0
  {
    (total + size - 1) / size
  }

  function BatchStart(i: nat, size: nat): nat {
    i * size
  }

  /** `min((i + 1) * size, total)`. */
  function BatchEnd(i: nat, size: nat, total: nat): nat {
    if (i + 1) * size < total then (i + 1) * size else total
  }

  /** The batch that holds sample `j`. */
  function BatchOf(j: nat, size: nat): nat
    requires size > 0
  {
    j / size
  }

  /** The batch count is the ceiling of `total / size`. */
  lemma NumBatchesCeiling(total: nat, size: nat)
    requires size > 0
    ensures NumBatches(total, size) * size >= total
    ensures total > 0 ==> (NumBatches(total, size) - 1) * size < total
    ensures NumBatches(total, size) == 0 <==> total == 0
  {
    var q := NumBatches(total, size);
    var m := total + size - 1;
    assert m == q * size + m % size;
    assert 0 <= m % size < size;
    if total > 0 {
      assert q * size > 0;
    }
  }

  lemma MulMonotone(a: nat, b: nat, size: nat)
    requires a <= b
    ensures a * size <= b * size
  {
  }

  /** Each batch is a non-empty range of at most `size` samples inside `[0, total)`. */
  lemma BatchBounds(total: nat, size: nat, i: nat)
    requires size > 0 && i < NumBatches(total, size)
    ensures BatchStart(i, size) < BatchEnd(i, size, total) <= total
    ensures BatchEnd(i, size, total) - BatchStart(i, size) <= size
  {
    NumBatchesCeiling(total, size);
    MulMonotone(i, NumBatches(total, size) - 1, size);
    assert (i + 1) * size == i * size + size;
  }

  /**
   * The batches follow one another without gap or overlap: the first starts at
   * 0, each begins where the previous one ends, and the last ends at `total`.
   */
  lemma BatchesContiguous(total: nat, size: nat)
    requires size > 0
    ensures forall i: nat :: i + 1 < NumBatches(total, size) ==> BatchEnd(i, size, total) == BatchStart(i + 1, size)
    ensures NumBatches(total, size) > 0 ==>
      BatchStart(0, size) == 0 && BatchEnd(NumBatches(total, size) - 1, size, total) == total
  {
    NumBatchesCeiling(total, size);
    forall i: nat | i + 1 < NumBatches(total, size) ensures BatchEnd(i, size, total) == BatchStart(i + 1, size) {
      BatchBounds(total, size, i + 1);
    }
  }

  /** Sample `j` lies in batch `j / size`, and in no other batch. */
  lemma BatchCover(total: nat, size: nat, j: nat)
    requires size > 0 && j < total
    ensures BatchOf(j, size) < NumBatches(total, size)
    ensures BatchStart(BatchOf(j, size), size) <= j < BatchEnd(BatchOf(j, size), size, total)
    ensures forall i: nat :: i < NumBatches(total, size) && BatchStart(i, size) <= j < BatchEnd(i, size, total) ==> i == BatchOf(j, size)
  {
    var q := j / size;
    assert j == q * size + j % size;
    assert (q + 1) * size == q * size + size;
    NumBatchesCeiling(total, size);
    if q >= NumBatches(total, size) {
      MulMonotone(NumBatches(total, size), q, size);
      assert false;
    }
    forall i: nat | i < NumBatches(total, size) && BatchStart(i, size) <= j < BatchEnd(i, size, total) ensures i == q {
      if i < q {
        MulMonotone(i + 1, q, size);
      } else if i > q {
        MulMonotone(q + 1, i, size);
      }
    }
  }

  // ---------------------------------------------------------------------------
  // The scoring service and its answers

  /** A value of the score table: text, a number, or missing (NaN). */
  datatype Value = Text(text: string) | Number(number: real) | Missing

  /** A named column of a table. */
  datatype Column = Column(name: string, values: seq<Value>)

  /** One scoring call either returns the score table or raises with a message. */
  datatype Attempt = Succeeded(table: seq<Column>) | Failed(message: string)

  /**
   * The outside world: the scoring call by dataset, batch number and attempt,
   * and the values `random.uniform` draws for the jitter and for the spread of
   * each waiting regime, by batch number and attempt.
   */
  datatype Service = Service(
    evaluate: (Dataset, nat, nat) -> Attempt,
    jitter: (nat, nat) -> real,
    throttledSpread: (nat, nat) -> real,
    limitedSpread: (nat, nat) -> real,
    otherSpread: (nat, nat) -> real)

  /** Every draw lies in the interval its `random.uniform` call names. */
  ghost predicate Draws(svc: Service) {
    forall b: nat, a: nat ::
      && 0.5 <= svc.jitter(b, a) <= 2.0
      && 5.0 <= svc.throttledSpread(b, a) <= 15.0
      && 10.0 <= svc.limitedSpread(b, a) <= 30.0
      && 1.0 <= svc.otherSpread(b, a) <= 5.0
  }

  // ---------------------------------------------------------------------------
  // _evaluate_batch

  /** The three waiting regimes of `_evaluate_batch`. */
  datatype Tier = Throttled | RateLimited | Transient

  /** "Connection error" is matched as written, "timeout", "rate" and "limit" in lower case. */
  function TierOf(message: string): (t: Tier)
    ensures t == Throttled <==> Contains(message, "Connection error") || Contains(Lower(message), "timeout")
    ensures t == RateLimited <==>
      && !(Contains(message, "Connection error") || Contains(Lower(message), "timeout"))
      && (Contains(Lower(message), "rate") || Contains(Lower(message), "limit"))
  {
    if Contains(message, "Connection error") || Contains(Lower(message), "timeout") then Throttled
    else if Contains(Lower(message), "rate") || Contains(Lower(message), "limit") then RateLimited
    else Transient
  }

  function Pow(b: nat, e: nat): (r: nat)
    ensures b > 0 ==> r > 0
  {
    if e == 0 then 1 else b * Pow(b, e - 1)
  }

  const BaseDelay: real := 5.0

  /** The wait after failed attempt `a` of batch `batch` (not the last attempt). */
  function Backoff(svc: Service, batch: nat, a: nat, message: string): real {
    match TierOf(message)
    case Throttled => BaseDelay * Pow(3, a) as real + svc.throttledSpread(batch, a)
    case RateLimited => BaseDelay * Pow(4, a) as real + svc.limitedSpread(batch, a)
    case Transient => BaseDelay + svc.otherSpread(batch, a)
  }

  /**
   * The wait of each tier lies in its stated interval, and a throttled wait is
   * never shorter than the one before it.
   */
  lemma BackoffBounds(svc: Service, batch: nat, a: nat, message: string)
    requires Draws(svc)
    ensures TierOf(message) == Throttled ==>
      5.0 * Pow(3, a) as real + 5.0 <= Backoff(svc, batch, a, message) <= 5.0 * Pow(3, a) as real + 15.0
    ensures TierOf(message) == RateLimited ==>
      5.0 * Pow(4, a) as real + 10.0 <= Backoff(svc, batch, a, message) <= 5.0 * Pow(4, a) as real + 30.0
    ensures TierOf(message) == Transient ==> 6.0 <= Backoff(svc, batch, a, message) <= 10.0
    ensures TierOf(message) == Throttled ==> Backoff(svc, batch, a, message) <= Backoff(svc, batch, a + 1, message)
  {
    assert Pow(3, a + 1) == 3 * Pow(3, a);
    assert 5.0 <= svc.throttledSpread(batch, a) <= 15.0 && 5.0 <= svc.throttledSpread(batch, a + 1) <= 15.0;
    assert 10.0 <= svc.limitedSpread(batch, a) <= 30.0;
    assert 1.0 <= svc.otherSpread(batch, a) <= 5.0;
  }

  /** What a retry loop does, in order. */
  datatype Event = Jitter(seconds: real) | Call(attempt: nat) | Wait(seconds: real)

  const BatchRetries: nat := 3

  /** The jitter (for every batch after the first) and the call of attempt `a`. */
  function Lead(svc: Service, batch: nat, a: nat): (r: seq<Event>)
    requires Draws(svc)
    ensures r != [] && r[|r| - 1] == Call(a)
    ensures |r| == (if batch > 1 then 2 else 1) && (batch > 1 ==> r[0].Jitter?)
  {
    (if batch > 1 then [Jitter(svc.jitter(batch, a))] else []) + [Call(a)]
  }

  /** The wait after failed attempt `a`: none after the last attempt. */
  function Pause(svc: Service, batch: nat, maxRetries: nat, a: nat, message: string): (r: seq<Event>)
    requires Draws(svc)
    ensures |r| == (if a + 1 < maxRetries then 1 else 0) && (r != [] ==> r[0].Wait?)
  {
    if a + 1 < maxRetries then [Wait(Backoff(svc, batch, a, message))] else []
  }

  /**
   * `_evaluate_batch` from attempt `a` on: the events it produces and the
   * result it returns (`None` once the attempts are used up).
   */
  function BatchFrom(svc: Service, d: Dataset, batch: nat, maxRetries: nat, a: nat): (seq<Event>, Option<seq<Column>>)
    requires Draws(svc)
    decreases maxRetries - a
  {
    if a >= maxRetries then ([], None)
    else
      match svc.evaluate(d, batch, a)
      case Succeeded(t) => (Lead(svc, batch, a), Some(t))
      case Failed(msg) =>
        var rest := BatchFrom(svc, d, batch, maxRetries, a + 1);
        (Lead(svc, batch, a) + Pause(svc, batch, maxRetries, a, msg) + rest.0, rest.1)
  }

  /** The batch result is the first successful attempt's table, and `None` exactly when every attempt failed. */
  lemma {:induction false} BatchResult(svc: Service, d: Dataset, batch: nat, maxRetries: nat, a: nat)
    requires Draws(svc)
    ensures var r := BatchFrom(svc, d, batch, maxRetries, a).1;
      r.None? <==> forall j :: a <= j < maxRetries ==> svc.evaluate(d, batch, j).Failed?
    ensures var r := BatchFrom(svc, d, batch, maxRetries, a).1;
      r.Some? ==> exists k :: a <= k < maxRetries && svc.evaluate(d, batch, k) == Succeeded(r.value)
                    && forall j :: a <= j < k ==> svc.evaluate(d, batch, j).Failed?
    decreases maxRetries - a
  {
    if a < maxRetries {
      BatchResultStep(svc, d, batch, maxRetries, a);
      match svc.evaluate(d, batch, a)
      case Succeeded(t) =>
        assert svc.evaluate(d, batch, a) == Succeeded(t);
      case Failed(_) =>
        BatchResult(svc, d, batch, maxRetries, a + 1);
        forall j | a <= j < a + 1 ensures svc.evaluate(d, batch, j).Failed? {
          assert j == a;
        }
    }
  }

  /** One attempt of the retry loop: its table when it succeeds, the later attempts' result otherwise. */
  lemma BatchResultStep(svc: Service, d: Dataset, batch: nat, maxRetries: nat, a: nat)
    requires Draws(svc) && a < maxRetries
    ensures BatchFrom(svc, d, batch, maxRetries, a).1
      == match svc.evaluate(d, batch, a)
         case Succeeded(t) => Some(t)
         case Failed(_) => BatchFrom(svc, d, batch, maxRetries, a + 1).1
  {
  }

  /**
   * The events of attempts `a..`: every call is of an attempt in
   * `[a, maxRetries)`; a later batch sleeps a jitter right before every call
   * and the first batch never does; and the trace is empty only when no
   * attempt is left, and otherwise ends with a call, so nothing waits after
   * the last attempt.
   */
  lemma {:induction false} BatchTraceShape(svc: Service, d: Dataset, batch: nat, maxRetries: nat, a: nat)
    requires Draws(svc)
    ensures var t := BatchFrom(svc, d, batch, maxRetries, a).0;
      forall i :: 0 <= i < |t| && t[i].Call? ==> a <= t[i].attempt < maxRetries
    ensures var t := BatchFrom(svc, d, batch, maxRetries, a).0;
      forall i :: 0 <= i < |t| && t[i].Call? ==> (batch > 1 <==> i > 0 && t[i - 1].Jitter?)
    ensures var t := BatchFrom(svc, d, batch, maxRetries, a).0;
      (t == [] <==> a >= maxRetries) && (t != [] ==> t[|t| - 1].Call?)
    decreases maxRetries - a
  {
    if a < maxRetries && svc.evaluate(d, batch, a).Failed? {
      var lead, pause := Lead(svc, batch, a), Pause(svc, batch, maxRetries, a, svc.evaluate(d, batch, a).message);
      var rest := BatchFrom(svc, d, batch, maxRetries, a + 1).0;
      BatchTraceShape(svc, d, batch, maxRetries, a + 1);
      var t := lead + pause + rest;
      assert BatchFrom(svc, d, batch, maxRetries, a).0 == t;
      forall i | 0 <= i < |t| && t[i].Call?
        ensures a <= t[i].attempt < maxRetries && (batch > 1 <==> i > 0 && t[i - 1].Jitter?)
      {
        if i >= |lead| + |pause| {
          var i' := i - |lead| - |pause|;
          assert t[i] == rest[i'];
          if i' > 0 {
            assert t[i - 1] == rest[i' - 1];
          } else {
            assert batch <= 1;
          }
        }
      }
    }
  }

  /** `_evaluate_batch`: at most `maxRetries` attempts; the first success wins. */
  method EvaluateBatch(svc: Service, d: Dataset, batch: nat, maxRetries: nat) returns (result: Option<seq<Column>>, trace: seq<Event>)
    requires Draws(svc)
    ensures (trace, result) == BatchFrom(svc, d, batch, maxRetries, 0)
  {
    trace := [];
    var attempt := 0;
    while attempt < maxRetries
      invariant 0 <= attempt <= maxRetries
      invariant trace + BatchFrom(svc, d, batch, maxRetries, attempt).0 == BatchFrom(svc, d, batch, maxRetries, 0).0
      invariant BatchFrom(svc, d, batch, maxRetries, attempt).1 == BatchFrom(svc, d, batch, maxRetries, 0).1
    {
      var outcome := svc.evaluate(d, batch, attempt);
      if outcome.Succeeded? {
        return Some(outcome.table), trace + Lead(svc, batch, attempt);
      }
      var step := Lead(svc, batch, attempt) + Pause(svc, batch, maxRetries, attempt, outcome.message);
      ghost var rest := BatchFrom(svc, d, batch, maxRetries, attempt + 1).0;
      assert trace + (step + rest) == (trace + step) + rest;
      trace := trace + step;
      attempt := attempt + 1;
    }
    result := None;
    assert BatchFrom(svc, d, batch, maxRetries, attempt) == ([], None);
    assert trace + [] == trace;
  }

  // ---------------------------------------------------------------------------
  // run_batch_evaluation and _merge_results

  /** The present values of a list of options, in order. */
  function Present<T>(s: seq<Option<T>>): (r: seq<T>)
    ensures |r| <= |s|
  {
    if s == [] then [] else Present(s[..|s| - 1]) + (if s[|s| - 1].Some? then [s[|s| - 1].value] else [])
  }

  /** Nothing is present exactly when every entry is `None`; the first present value is that of the first `Some`. */
  lemma {:induction false} PresentFirst<T>(s: seq<Option<T>>)
    ensures Present(s) == [] <==> forall b :: 0 <= b < |s| ==> s[b].None?
    ensures Present(s) != [] ==>
      exists b :: 0 <= b < |s| && s[b] == Some(Present(s)[0]) && forall c :: 0 <= c < b ==> s[c].None?
  {
    if s != [] {
      var init, last := s[..|s| - 1], s[|s| - 1];
      PresentFirst(init);
      assert Present(s) == Present(init) + (if last.Some? then [last.value] else []);
      assert forall b :: 0 <= b < |init| ==> s[b] == init[b];
      if Present(init) != [] {
        var b :| 0 <= b < |init| && init[b] == Some(Present(init)[0]) && forall c :: 0 <= c < b ==> init[c].None?;
        assert s[b] == Some(Present(s)[0]);
      } else if last.Some? {
        assert s[|s| - 1] == Some(Present(s)[0]);
      }
    }
  }

  /** The result of batch `b` (numbered `b + 1` in the source). */
  function BatchOutcome(svc: Service, d: Dataset, size: nat, b: nat): Option<seq<Column>>
    requires Draws(svc) && WellFormed(d) && size > 0 && b < NumBatches(Size(d), size)
  {
    BatchBounds(Size(d), size, b);
    BatchFrom(svc, Slice(d, BatchStart(b, size), BatchEnd(b, size, Size(d))), b + 1, BatchRetries, 0).1
  }

  /** The results of the first `n` batches. */
  function Outcomes(svc: Service, d: Dataset, size: nat, n: nat): (r: seq<Option<seq<Column>>>)
    requires Draws(svc) && WellFormed(d) && size > 0 && n <= NumBatches(Size(d), size)
    ensures |r| == n && forall b :: 0 <= b < n ==> r[b] == BatchOutcome(svc, d, size, b)
  {
    seq(n, b requires 0 <= b < n => BatchOutcome(svc, d, size, b))
  }

  /** `all_results` after the first `n` batches. */
  function Successes(svc: Service, d: Dataset, size: nat, n: nat): seq<seq<Column>>
    requires Draws(svc) && WellFormed(d) && size > 0 && n <= NumBatches(Size(d), size)
  {
    Present(Outcomes(svc, d, size, n))
  }

  lemma SuccessesStep(svc: Service, d: Dataset, size: nat, i: nat)
    requires Draws(svc) && WellFormed(d) && size > 0 && i < NumBatches(Size(d), size)
    ensures Successes(svc, d, size, i + 1) == Successes(svc, d, size, i)
      + if BatchOutcome(svc, d, size, i).Some? then [BatchOutcome(svc, d, size, i).value] else []
  {
    var o := Outcomes(svc, d, size, i + 1);
    assert o[..i] == Outcomes(svc, d, size, i);
  }

  /**
   * There is a success exactly when some batch succeeded, and the first
   * success is the result of the lowest-numbered successful batch.
   */
  lemma FirstBatchWins(svc: Service, d: Dataset, size: nat, n: nat)
    requires Draws(svc) && WellFormed(d) && size > 0 && n <= NumBatches(Size(d), size)
    ensures Successes(svc, d, size, n) == [] <==> forall b :: 0 <= b < n ==> BatchOutcome(svc, d, size, b).None?
    ensures Successes(svc, d, size, n) != [] ==>
      exists b :: 0 <= b < n && BatchOutcome(svc, d, size, b) == Some(Successes(svc, d, size, n)[0])
        && forall c :: 0 <= c < b ==> BatchOutcome(svc, d, size, c).None?
  {
    PresentFirst(Outcomes(svc, d, size, n));
  }

  /** One iteration of `run_batch_evaluation`: cut batch `b` and evaluate it. */
  method RunBatch(svc: Service, d: Dataset, size: nat, b: nat) returns (result: Option<seq<Column>>)
    requires Draws(svc) && WellFormed(d) && size > 0 && b < NumBatches(Size(d), size)
    ensures result == BatchOutcome(svc, d, size, b)
  {
    var total := Size(d);
    var lo := b * size;
    var hi := if (b + 1) * size < total then (b + 1) * size else total;
    BatchBounds(total, size, b);
    var trace;
    result, trace := EvaluateBatch(svc, Slice(d, lo, hi), b + 1, BatchRetries);
  }

  /** `_merge_results`: the first result stands for all of them. */
  function MergeResults(results: seq<seq<Column>>): (r: seq<Column>)
    requires results != []
    ensures r == results[0]
  {
    results[0]
  }

  /**
   * `run_batch_evaluation` (batches of `size`, three attempts each): `None`
   * when every batch failed, otherwise the merge of the successful results.
   */
  method RunBatchEvaluation(svc: Service, d: Dataset, size: nat) returns (merged: Option<seq<Column>>, successful: nat)
    requires Draws(svc) && WellFormed(d) && size > 0
    ensures successful == |Successes(svc, d, size, NumBatches(Size(d), size))|
    ensures merged == if Successes(svc, d, size, NumBatches(Size(d), size)) == [] then None
                      else Some(Successes(svc, d, size, NumBatches(Size(d), size))[0])
  {
    var total := Size(d);
    var n := NumBatches(total, size);
    var all: seq<seq<Column>> := [];
    successful := 0;
    var i := 0;
    while i < n
      invariant 0 <= i <= n
      invariant all == Successes(svc, d, size, i) && successful == |all|
    {
      var result := RunBatch(svc, d, size, i);
      SuccessesStep(svc, d, size, i);
      if result.Some? {
        all := all + [result.value];
        successful := successful + 1;
      }
      i := i + 1;
    }
    if all == [] {
      return None, successful;
    }
    merged := Some(MergeResults(all));
  }

  // ---------------------------------------------------------------------------
  // run_evaluation and _check_evaluation_quality

  /** The zero and missing counts of one metric column. */
  datatype Audit = Audit(metric: string, zeros: nat, missing: nat)

  predicate IsZero(v: Value) {
    v == Number(0.0)
  }

  predicate IsMissing(v: Value) {
    v.Missing?
  }

  function Names(table: seq<Column>): seq<string> {
    seq(|table|, i requires 0 <= i < |table| => table[i].name)
  }

  /** The first column called `name`. */
  function Lookup(table: seq<Column>, name: string): (c: Column)
    requires name in Names(table)
    ensures c in table && c.name == name
  {
    if table[0].name == name then table[0]
    else
      assert Names(table) == [table[0].name] + Names(table[1..]);
      Lookup(table[1..], name)
  }

  /** `_check_evaluation_quality`: one audit per metric that has a column, in metric order. */
  function QualityAudit(metrics: seq<string>, table: seq<Column>): (r: seq<Audit>)
    ensures |r| <= |metrics|
  {
    if metrics == [] then []
    else
      var m := metrics[|metrics| - 1];
      QualityAudit(metrics[..|metrics| - 1], table)
        + if m in Names(table) then
            var values := Lookup(table, m).values;
            [Audit(m, Count(values, IsZero), Count(values, IsMissing))]
          else []
  }

  /**
   * An audit exists exactly for the metrics that have a column; each counts
   * the exact zeros and the missing values of that column, which never
   * overlap.
   */
  lemma {:induction false} QualityAuditSpec(metrics: seq<string>, table: seq<Column>)
    ensures forall k :: 0 <= k < |QualityAudit(metrics, table)| ==>
      var a := QualityAudit(metrics, table)[k];
      a.metric in metrics && a.metric in Names(table)
        && a.zeros == Count(Lookup(table, a.metric).values, IsZero)
        && a.missing == Count(Lookup(table, a.metric).values, IsMissing)
        && a.zeros + a.missing <= |Lookup(table, a.metric).values|
    ensures forall m :: m in metrics && m in Names(table) <==> exists k :: 0 <= k < |QualityAudit(metrics, table)| && QualityAudit(metrics, table)[k].metric == m
  {
    if metrics != [] {
      var init, m := metrics[..|metrics| - 1], metrics[|metrics| - 1];
      assert metrics == init + [m];
      QualityAuditSpec(init, table);
      var prev := QualityAudit(init, table);
      var r := QualityAudit(metrics, table);
      assert forall k :: 0 <= k < |prev| ==> r[k] == prev[k];
      if m in Names(table) {
        ZerosAndMissing(Lookup(table, m).values);
        assert r[|prev|].metric == m;
      }
      forall x | x in metrics && x in Names(table)
        ensures exists k :: 0 <= k < |r| && r[k].metric == x
      {
        if x in init {
          var k :| 0 <= k < |prev| && prev[k].metric == x;
          assert r[k].metric == x;
        } else {
          assert x == m && r[|prev|].metric == x;
        }
      }
    }
  }

  /** A value is never both an exact zero and missing. */
  lemma {:induction false} ZerosAndMissing(values: seq<Value>)
    ensures Count(values, IsZero) + Count(values, IsMissing) <= |values|
  {
    if values != [] {
      ZerosAndMissing(values[..|values| - 1]);
    }
  }

  /** How `run_evaluation` ends. */
  datatype Run =
    | Completed(table: seq<Column>, audit: seq<Audit>)   // a call succeeded; its table was audited
    | Raised(message: string)                           // every attempt failed; the last error propagates
    | NoAttempt                                         // `max_retries` was 0

  /** `run_evaluation` from attempt `a` on: the waits it sleeps and how it ends. */
  function RunFrom(svc: Service, d: Dataset, metrics: seq<string>, maxRetries: nat, a: nat): (seq<nat>, Run)
    decreases maxRetries - a
  {
    if a >= maxRetries then ([], NoAttempt)
    else
      match svc.evaluate(d, 0, a)
      case Succeeded(t) => ([], Completed(t, QualityAudit(metrics, t)))
      case Failed(msg) =>
        if a < maxRetries - 1 then
          var rest := RunFrom(svc, d, metrics, maxRetries, a + 1);
          ([(a + 1) * 10] + rest.0, rest.1)
        else ([], Raised(msg))
  }

  /**
   * From attempt `a`: the run completes with the first successful call's table
   * and its audit; it raises the last failure's message when every attempt
   * fails; the `j`-th wait is `(a + j + 1) * 10` seconds, one per failed
   * attempt except the last.
   */
  lemma {:induction false} RunSpec(svc: Service, d: Dataset, metrics: seq<string>, maxRetries: nat, a: nat)
    requires a < maxRetries
    ensures var (waits, run) := RunFrom(svc, d, metrics, maxRetries, a);
      && (run.Completed? ==>
            exists k :: a <= k < maxRetries && svc.evaluate(d, 0, k) == Succeeded(run.table)
              && run.audit == QualityAudit(metrics, run.table) && |waits| == k - a
              && forall j :: a <= j < k ==> svc.evaluate(d, 0, j).Failed?)
      && (run.Raised? <==> forall j :: a <= j < maxRetries ==> svc.evaluate(d, 0, j).Failed?)
      && (run.Raised? ==> svc.evaluate(d, 0, maxRetries - 1) == Failed(run.message) && |waits| == maxRetries - 1 - a)
      && !run.NoAttempt?
      && forall j :: 0 <= j < |waits| ==> waits[j] == (a + j + 1) * 10
    decreases maxRetries - a
  {
    if svc.evaluate(d, 0, a).Failed? && a < maxRetries - 1 {
      RunSpec(svc, d, metrics, maxRetries, a + 1);
    }
  }

  /** `run_evaluation`: retries with growing waits and audits the first table it gets. */
  method RunEvaluation(svc: Service, d: Dataset, metrics: seq<string>, maxRetries: nat) returns (run: Run, waits: seq<nat>)
    ensures (waits, run) == RunFrom(svc, d, metrics, maxRetries, 0)
  {
    waits := [];
    var attempt := 0;
    while attempt < maxRetries
      invariant 0 <= attempt <= maxRetries
      invariant waits + RunFrom(svc, d, metrics, maxRetries, attempt).0 == RunFrom(svc, d, metrics, maxRetries, 0).0
      invariant RunFrom(svc, d, metrics, maxRetries, attempt).1 == RunFrom(svc, d, metrics, maxRetries, 0).1
    {
      var outcome := svc.evaluate(d, 0, attempt);
      if outcome.Succeeded? {
        var audit := CheckQuality(metrics, outcome.table);
        assert RunFrom(svc, d, metrics, maxRetries, attempt) == ([], Completed(outcome.table, audit));
        assert waits + [] == waits;
        return Completed(outcome.table, audit), waits;
      }
      if attempt < maxRetries - 1 {
        var rest := RunFrom(svc, d, metrics, maxRetries, attempt + 1).0;
        assert waits + ([(attempt + 1) * 10] + rest) == (waits + [(attempt + 1) * 10]) + rest;
        waits := waits + [(attempt + 1) * 10];
      } else {
        assert RunFrom(svc, d, metrics, maxRetries, attempt) == ([], Raised(outcome.message));
        assert waits + [] == waits;
        return Raised(outcome.message), waits;
      }
      attempt := attempt + 1;
    }
    run := NoAttempt;
    assert RunFrom(svc, d, metrics, maxRetries, attempt) == ([], NoAttempt);
    assert waits + [] == waits;
  }

  /** The loop of `_check_evaluation_quality`. */
  method CheckQuality(metrics: seq<string>, table: seq<Column>) returns (audit: seq<Audit>)
    ensures audit == QualityAudit(metrics, table)
  {
    audit := [];
    var i := 0;
    while i < |metrics|
      invariant 0 <= i <= |metrics|
      invariant audit == QualityAudit(metrics[..i], table)
    {
      var m := metrics[i];
      assert metrics[..i + 1][..i] == metrics[..i];
      if m in Names(table) {
        var values := Lookup(table, m).values;
        audit := audit + [Audit(m, Count(values, IsZero), Count(values, IsMissing))];
      }
      i := i + 1;
    }
    assert metrics[..i] == metrics;
  }

  // ---------------------------------------------------------------------------
  // save_results

  /** The three base columns of the saved table. */
  function BaseColumns(items: seq<Sample>): (r: seq<Column>)
    ensures Names(r) == ["question", "answer", "ground_truth"]
  {
    [Column("question", seq(|items|, i requires 0 <= i < |items| => Text(items[i].question))),
     Column("answer", seq(|items|, i requires 0 <= i < |items| => Text(items[i].answer))),
     Column("ground_truth", seq(|items|, i requires 0 <= i < |items| => Text(GroundTruth(items[i]))))]
  }

  /** The columns after adding the score columns in order, skipping names already present. */
  function Combined(base: seq<Column>, scores: seq<Column>): seq<Column> {
    if scores == [] then base
    else
      var m := Combined(base, scores[..|scores| - 1]);
      var c := scores[|scores| - 1];
      if c.name in Names(m) then m else m + [c]
  }

  /**
   * The saved table starts with the base columns, has no repeated name, and
   * holds every base and score name; each added column is a score column.
   */
  lemma {:induction false} CombinedSpec(base: seq<Column>, scores: seq<Column>)
    requires Distinct(Names(base))
    ensures |Combined(base, scores)| >= |base| && Combined(base, scores)[..|base|] == base
    ensures Distinct(Names(Combined(base, scores)))
    ensures forall n :: n in Names(Combined(base, scores)) <==> n in Names(base) || n in Names(scores)
    ensures forall k :: |base| <= k < |Combined(base, scores)| ==> Combined(base, scores)[k] in scores
  {
    if scores != [] {
      var init, c := scores[..|scores| - 1], scores[|scores| - 1];
      var m := Combined(base, init);
      CombinedSpec(base, init);
      assert Names(scores) == Names(init) + [c.name];
      if c.name !in Names(m) {
        assert Names(m + [c]) == Names(m) + [c.name];
        assert (m + [c])[..|base|] == m[..|base|];
      }
    }
  }

  /** The column merge of `save_results`. */
  method SaveColumns(items: seq<Sample>, scores: seq<Column>) returns (columns: seq<Column>)
    ensures columns == Combined(BaseColumns(items), scores)
  {
    columns := BaseColumns(items);
    var i := 0;
    while i < |scores|
      invariant 0 <= i <= |scores|
      invariant columns == Combined(BaseColumns(items), scores[..i])
    {
      assert scores[..i + 1][..i] == scores[..i];
      var c := scores[i];
      if c.name !in Names(columns) {
        columns := columns + [c];
      }
      i := i + 1;
    }
    assert scores[..i] == scores;
  }
}

=== FILE: fetching.dfy ===
/**
 * What the two fetch scripts share: reading the text value out of the
 * assistant's reply, the bounded save retry of `safe_update_excel`, the
 * task list of `process_file_parallel` and its four-way status tally.
 *
 * The remote call, the spreadsheet file and the thread pool are parameters:
 * a reply is a string or an error, a save attempt succeeds or not, and the
 * pool finishes the tasks in some order that is a permutation of the task list.
 */
module Fetching {
  import opened Wrappers
  import opened Text
  import opened Seqs
  import opened Table

  /** What the HTTP call gives back: the body of a successful reply, or the message of a timeout, request error or other exception. */
  datatype Reply = Replied(text: string) | Failed(error: string)

  const ContentMarker: string := "\"content\":{\"type\":\"text\",\"value\":\""
  const ValueClose: string := "\"}"

  // ---------------------------------------------------------------------------
  // The reply's text value

  /**
   * The escaped value as the scripts cut it: from the end of the first content
   * marker to the next `"}`, so the value itself never holds `"}`.
   */
  function RawContent(reply: string): (r: Option<string>)
    ensures r.Some? ==> Contains(reply, ContentMarker) && !Contains(r.value, ValueClose)
  {
    match IndexFrom(reply, ContentMarker, 0)
    case None => None
    case Some(m) =>
      var start := m + |ContentMarker|;
      match IndexFrom(reply, ValueClose, start)
      case None => None
      case Some(e) =>
        CutHasNoClose(reply, start, e);
        Some(reply[start..e])
  }

  /** Text cut before the first `"}` from `start` holds no `"}`. */
  lemma CutHasNoClose(s: string, start: nat, e: nat)
    requires start <= e <= |s| && forall k :: start <= k < e ==> !OccursAt(s, ValueClose, k)
    ensures !Contains(s[start..e], ValueClose)
  {
    var v := s[start..e];
    forall k | 0 <= k && k + 2 <= |v| ensures !OccursAt(v, ValueClose, k) {
      assert !OccursAt(s, ValueClose, start + k);
      assert v[k..k + 2] == [v[k], v[k + 1]] == [s[start + k], s[start + k + 1]] == s[start + k..start + k + 2];
    }
  }

  /** The end of a JSON string value from `i`: the first quote that no backslash escapes, with `}` after it. */
  function ValueEnd(s: string, i: nat): (r: Option<nat>)
    ensures r.Some? ==> i <= r.value && r.value + 1 < |s| && s[r.value] == '"' && s[r.value + 1] == '}'
    decreases |s| - i
  {
    if i >= |s| then None
    else if s[i] == '\\' then (if i + 1 < |s| then ValueEnd(s, i + 2) else None)
    else if s[i] == '"' then (if i + 1 < |s| && s[i + 1] == '}' then Some(i) else None)
    else ValueEnd(s, i + 1)
  }

  /** The escaped value, ending where the JSON string ends: the evident intent of the cut. */
  function ContentValue(reply: string): Option<string> {
    match IndexFrom(reply, ContentMarker, 0)
    case None => None
    case Some(m) =>
      var start := m + |ContentMarker|;
      match ValueEnd(reply, start)
      case None => None
      case Some(e) => Some(reply[start..e])
  }

  /** `.replace('\\"', '"').replace('\\n', '\n')`. */
  function Unescape(t: string): string {
    ReplaceAll(ReplaceAll(t, "\\\"", "\""), "\\n", "\n")
  }

  /** The reply's text value as the scripts read it: cut at the first `"}`, then unescaped. */
  function Extracted(reply: string): Option<string> {
    match RawContent(reply)
    case None => None
    case Some(v) => Some(Unescape(v))
  }

  /** The reply's text value read to the end of the JSON string, then unescaped. */
  function ExtractedJson(reply: string): Option<string> {
    match ContentValue(reply)
    case None => None
    case Some(v) => Some(Unescape(v))
  }

  /** A text whose only characters that JSON escapes are quotes and newlines. */
  predicate Plain(t: string) {
    forall k :: 0 <= k < |t| ==> t[k] != '\\' && (t[k] >= ' ' || t[k] == '\n')
  }

  /** JSON string encoding of one character of a plain text. */
  function EscapeChar(c: char): string {
    if c == '"' then "\\\"" else if c == '\n' then "\\n" else [c]
  }

  /** JSON string encoding of a plain text. */
  function Escape(t: string): string {
    if t == [] then [] else EscapeChar(t[0]) + Escape(t[1..])
  }

  /** A plain text with only its newlines still escaped. */
  function NewlinesEscaped(t: string): string {
    if t == [] then []
    else (if t[0] == '\n' then "\\n" else [t[0]]) + NewlinesEscaped(t[1..])
  }

  /** A character that cannot start the pattern passes through a replacement unchanged. */
  lemma ReplaceHead(c: char, x: string, pat: string, repl: string)
    requires |pat| > 0 && c != pat[0]
    ensures ReplaceAll([c] + x, pat, repl) == [c] + ReplaceAll(x, pat, repl)
  {
    var s := [c] + x;
    assert s[1..] == x;
    if |s| >= |pat| {
      assert s[..|pat|][0] == c;
    }
  }

  lemma {:induction false} QuotesBack(t: string)
    requires Plain(t)
    ensures ReplaceAll(Escape(t), "\\\"", "\"") == NewlinesEscaped(t)
  {
    if t != [] {
      var rest := Escape(t[1..]);
      QuotesBack(t[1..]);
      if t[0] == '"' {
        var s := "\\\"" + rest;
        assert s[..2] == "\\\"" && s[2..] == rest;
      } else if t[0] == '\n' {
        var s := "\\n" + rest;
        assert s[..2] != "\\\"";
        assert s[1..] == ['n'] + rest;
        ReplaceHead('n', rest, "\\\"", "\"");
      } else {
        ReplaceHead(t[0], rest, "\\\"", "\"");
      }
    }
  }

  lemma {:induction false} NewlinesBack(t: string)
    requires Plain(t)
    ensures ReplaceAll(NewlinesEscaped(t), "\\n", "\n") == t
  {
    if t != [] {
      var rest := NewlinesEscaped(t[1..]);
      NewlinesBack(t[1..]);
      if t[0] == '\n' {
        var s := "\\n" + rest;
        assert s[..2] == "\\n" && s[2..] == rest;
      } else {
        ReplaceHead(t[0], rest, "\\n", "\n");
      }
      assert t == [t[0]] + t[1..];
    }
  }

  /** Unescaping undoes the JSON encoding of a plain text. */
  lemma UnescapeEscape(t: string)
    requires Plain(t)
    ensures Unescape(Escape(t)) == t
  {
    QuotesBack(t);
    NewlinesBack(t);
  }

  /** The scan for the end of the string steps over one encoded character, from `i` to `j`. */
  lemma ValueEndSkip(s: string, i: nat, j: nat, c: char)
    requires c != '\\' && j == i + |EscapeChar(c)| && j < |s| && s[i..j] == EscapeChar(c)
    ensures ValueEnd(s, i) == ValueEnd(s, j)
  {
    assert s[i] == s[i..j][0];
  }

  /** Both halves of a slice `i..f` that spells `a + b`, split at `j`. */
  lemma SliceSplit(s: string, i: nat, j: nat, f: nat, a: string, b: string)
    requires j == i + |a| && f == j + |b| && f <= |s| && s[i..f] == a + b
    ensures s[i..j] == a && s[j..f] == b
  {
    assert s[i..j] == s[i..f][..|a|];
    assert s[j..f] == s[i..f][|a|..];
  }

  /** The scan stops at a closing `"}`. */
  lemma ValueEndClose(s: string, i: nat)
    requires i + 2 <= |s| && s[i..i + 2] == ValueClose
    ensures ValueEnd(s, i) == Some(i)
  {
    assert s[i] == s[i..i + 2][0] == '"';
    assert s[i + 1] == s[i..i + 2][1] == '}';
  }

  /** The JSON string that starts at `i` with the encoding of `t` ends right after it, at `f`. */
  lemma {:induction false} ValueEndAt(s: string, i: nat, f: nat, t: string)
    requires Plain(t) && f == i + |Escape(t)| && f + 2 <= |s|
    requires s[i..f] == Escape(t) && s[f..f + 2] == ValueClose
    ensures ValueEnd(s, i) == Some(f)
    decreases |t|
  {
    if t == [] {
      ValueEndClose(s, i);
    } else {
      var head, tail := EscapeChar(t[0]), Escape(t[1..]);
      var j := i + |head|;
      assert Escape(t) == head + tail;
      PlainTail(t);
      SliceSplit(s, i, j, f, head, tail);
      ValueEndAt(s, j, f, t[1..]);
      ValueEndSkip(s, i, j, t[0]);
    }
  }

  /** The first character of a plain text is no backslash, and the rest is plain too. */
  lemma PlainTail(t: string)
    requires Plain(t) && t != []
    ensures t[0] != '\\' && Plain(t[1..])
  {
    forall k | 0 <= k < |t| - 1 ensures t[1..][k] == t[k + 1] {}
  }

  /** An occurrence with none before it, from `start`, is what `find` returns. */
  lemma IndexAt(s: string, pat: string, start: nat, p: nat)
    requires start <= p && OccursAt(s, pat, p)
    requires forall k :: start <= k < p ==> !OccursAt(s, pat, k)
    ensures IndexFrom(s, pat, start) == Some(p)
  {
  }

  /** The content marker is found at `m` when no quote comes before it. */
  lemma MarkerAt(s: string, m: nat)
    requires m + |ContentMarker| <= |s| && s[m..m + |ContentMarker|] == ContentMarker
    requires forall k :: 0 <= k < m ==> s[k] != '"'
    ensures IndexFrom(s, ContentMarker, 0) == Some(m)
  {
    forall k | 0 <= k < m ensures !OccursAt(s, ContentMarker, k) {
      assert s[k..k + |ContentMarker|][0] == s[k];
    }
    IndexAt(s, ContentMarker, 0, m);
  }

  lemma ContentValueAt(s: string, m: nat, e: nat)
    requires IndexFrom(s, ContentMarker, 0) == Some(m) && ValueEnd(s, m + |ContentMarker|) == Some(e)
    ensures ContentValue(s) == Some(s[m + |ContentMarker|..e])
  {
  }

  /** A reply with the marker at `m..a`, no quote before it, and an encoded value at `a..f`, read to the end of the JSON string. */
  lemma JsonContentAt(s: string, m: nat, a: nat, f: nat, t: string)
    requires Plain(t) && a == m + |ContentMarker| && f == a + |Escape(t)| && f + 2 <= |s|
    requires forall k :: 0 <= k < m ==> s[k] != '"'
    requires s[m..a] == ContentMarker && s[a..f] == Escape(t) && s[f..f + 2] == ValueClose
    ensures ExtractedJson(s) == Some(t)
  {
    MarkerAt(s, m);
    ValueEndAt(s, a, f, t);
    ContentValueAt(s, m, f);
    UnescapeEscape(t);
  }

  /**
   * Read to the end of the JSON string, a reply that carries the content marker
   * and then the encoding of any plain text gives back exactly that text.
   */
  lemma JsonContentRoundTrip(pre: string, t: string, post: string)
    requires '"' !in pre && Plain(t)
    ensures ExtractedJson(pre + ContentMarker + Escape(t) + ValueClose + post) == Some(t)
  {
    var s := pre + ContentMarker + Escape(t) + ValueClose + post;
    Parts(pre, ContentMarker, Escape(t), ValueClose, post);
    JsonContentAt(s, |pre|, |pre| + |ContentMarker|, |pre| + |ContentMarker| + |Escape(t)|, t);
  }

  /** No `"` directly followed by `}`. */
  predicate NoQuoteBrace(x: string) {
    forall k :: 0 <= k < |x| - 1 ==> !(x[k] == '"' && x[k + 1] == '}')
  }

  /** `"}` occurs in a text exactly where a quote is directly followed by a brace. */
  lemma NoQuoteBraceIff(x: string)
    ensures NoQuoteBrace(x) <==> !Contains(x, ValueClose)
  {
    if Contains(x, ValueClose) {
      var k := IndexFrom(x, ValueClose, 0).value;
      assert x[k..k + 2] == [x[k], x[k + 1]];
    } else {
      forall k | 0 <= k < |x| - 1 ensures !(x[k] == '"' && x[k + 1] == '}') {
        assert !OccursAt(x, ValueClose, k);
        assert x[k..k + 2] == [x[k], x[k + 1]];
      }
    }
  }

  /** The first character of an encoded non-empty text is the first of its first character's encoding. */
  lemma EscapeHead(t: string)
    requires t != []
    ensures Escape(t) != [] && Escape(t)[0] == EscapeChar(t[0])[0]
    ensures Escape(t)[0] == '}' <==> t[0] == '}'
  {
  }

  /** Encoding a plain text without `"}` cannot create one: every encoded quote is followed by the encoding of the next character. */
  lemma {:induction false} EscapeNoQuoteBrace(t: string)
    requires Plain(t) && NoQuoteBrace(t)
    ensures NoQuoteBrace(Escape(t))
    decreases |t|
  {
    if t != [] {
      var h, r := EscapeChar(t[0]), Escape(t[1..]);
      var x := Escape(t);
      assert x == h + r;
      PlainTail(t);
      var u := t[1..];
      assert NoQuoteBrace(u) by {
        forall k | 0 <= k < |u| - 1 ensures !(u[k] == '"' && u[k + 1] == '}') {
          assert u[k] == t[k + 1] && u[k + 1] == t[k + 2];
        }
      }
      EscapeNoQuoteBrace(t[1..]);
      forall k | 0 <= k < |x| - 1 ensures !(x[k] == '"' && x[k + 1] == '}') {
        if k >= |h| {
          assert x[k] == r[k - |h|] && x[k + 1] == r[k + 1 - |h|];
        } else if k + 1 == |h| {
          assert x[k + 1] == r[0];
          EscapeHead(t[1..]);
          if t[0] == '"' {
            assert t[1] != '}';
          }
        }
      }
    }
  }

  /** The first `"}` from `a` is the one right after a value without `"}`. */
  lemma CloseFirstAt(s: string, a: nat, f: nat, v: string)
    requires f == a + |v| && f + 2 <= |s| && s[a..f] == v && NoQuoteBrace(v) && s[f..f + 2] == ValueClose
    ensures IndexFrom(s, ValueClose, a) == Some(f)
  {
    assert s[f] == '"' && s[f + 1] == '}' by {
      assert s[f..f + 2] == [s[f], s[f + 1]];
    }
    forall k | a <= k < f ensures !OccursAt(s, ValueClose, k) {
      assert s[k..k + 2] == [s[k], s[k + 1]];
      assert s[k] == v[k - a];
      if k + 1 < f {
        assert s[k + 1] == v[k + 1 - a];
      }
    }
    IndexAt(s, ValueClose, a, f);
  }

  /** A reply with the marker at `m..a`, no quote before it, and the encoding of a text without `"}` at `a..f`. */
  lemma ContentAt(s: string, m: nat, a: nat, f: nat, t: string)
    requires Plain(t) && NoQuoteBrace(t) && a == m + |ContentMarker| && f == a + |Escape(t)| && f + 2 <= |s|
    requires forall k :: 0 <= k < m ==> s[k] != '"'
    requires s[m..a] == ContentMarker && s[a..f] == Escape(t) && s[f..f + 2] == ValueClose
    ensures Extracted(s) == Some(t)
  {
    MarkerAt(s, m);
    EscapeNoQuoteBrace(t);
    CloseFirstAt(s, a, f, Escape(t));
    UnescapeEscape(t);
  }

  /**
   * A reply that carries the content marker and then the JSON encoding of a
   * plain text without `"}` gives back exactly that text.
   */
  lemma ContentRoundTrip(pre: string, t: string, post: string)
    requires '"' !in pre && Plain(t) && !Contains(t, ValueClose)
    ensures Extracted(pre + ContentMarker + Escape(t) + ValueClose + post) == Some(t)
  {
    var s := pre + ContentMarker + Escape(t) + ValueClose + post;
    Parts(pre, ContentMarker, Escape(t), ValueClose, post);
    NoQuoteBraceIff(t);
    ContentAt(s, |pre|, |pre| + |ContentMarker|, |pre| + |ContentMarker| + |Escape(t)|, t);
  }

  /** The pieces of a concatenation, as slices of it. */
  lemma Parts(a: string, b: string, c: string, d: string, e: string)
    ensures var s := a + b + c + d + e;
      var i, j, k := |a|, |a| + |b|, |a| + |b| + |c|;
      (forall x :: 0 <= x < i ==> s[x] == a[x]) && s[i..j] == b && s[j..k] == c && s[k..k + |d|] == d
  {
  }

  /**
   * Cutting at the first `"}` stops inside a value that contains an escaped
   * quote followed by `}`: the value `a"}b` comes back as `a\`.
   */
  lemma EscapedQuoteCutsValue()
    ensures RawContent(ContentMarker + "a\\\"}b\"}}") == Some("a\\")
    ensures Unescape("a\\") == "a\\"
  {
    var v := "a\\\"}b\"}}";
    var s := ContentMarker + v;
    var start := |ContentMarker|;
    assert s[..start] == ContentMarker && s[start..start + 4] == v[..4];
    assert s[start] == v[0] && s[start + 1] == v[1] && s[start + 2..start + 4] == v[2..4];
    CutAtEscapedQuote(s, start);
    LoneBackslashKept();
  }

  /** The cut of the reply of `EscapedQuoteCutsValue`: `a\` and then the closing text. */
  lemma CutAtEscapedQuote(s: string, start: nat)
    requires start == |ContentMarker| && start + 4 <= |s| && s[..start] == ContentMarker
    requires s[start] == 'a' && s[start + 1] == '\\' && s[start + 2..start + 4] == ValueClose
    ensures RawContent(s) == Some("a\\")
  {
    MarkerAt(s, 0);
    CloseAfterTwo(s, start);
    assert s[start..start + 2] == [s[start], s[start + 1]];
  }

  /** Two characters other than a quote, then the closing text: the value ends after those two. */
  lemma CloseAfterTwo(s: string, start: nat)
    requires start + 4 <= |s| && s[start] != '"' && s[start + 1] != '"'
    requires s[start + 2..start + 4] == ValueClose
    ensures IndexFrom(s, ValueClose, start) == Some(start + 2)
  {
    forall k | start <= k < start + 2 ensures !OccursAt(s, ValueClose, k) {
      assert s[k..k + 2][0] == s[k];
    }
    IndexAt(s, ValueClose, start, start + 2);
  }


  /** A backslash followed by nothing is not an escape and stays. */
  lemma LoneBackslashKept()
    ensures Unescape("a\\") == "a\\"
  {
    var t := "a\\";
    assert t[..2][0] == 'a' && t[1..] == "\\";
    assert ReplaceAll(t, "\\\"", "\"") == [t[0]] + ReplaceAll(t[1..], "\\\"", "\"");
    assert ReplaceAll(t, "\\n", "\n") == [t[0]] + ReplaceAll(t[1..], "\\n", "\n");
  }

  /** The same reply read up to the end of the JSON string keeps the whole value. */
  lemma EscapedQuoteKept()
    ensures ExtractedJson(ContentMarker + "a\\\"}b\"}}") == Some("a\"}b")
  {
    var s := ContentMarker + "a\\\"}b\"}}";
    var start := |ContentMarker|;
    assert s[0..start] == ContentMarker;
    assert Escape("a\"}b") == "a\\\"}b";
    assert s[start..start + 5] == Escape("a\"}b");
    assert s[start + 5..start + 7] == ValueClose;
    JsonContentAt(s, 0, start, start + 5, "a\"}b");
  }

  // ---------------------------------------------------------------------------
  // safe_update_excel

  const SaveAttempts: nat := 3

  /** A write attempt, or the one-second pause after a failed one. */
  datatype SaveEvent = Write(attempt: nat) | Pause

  /** The save retry from attempt `a` on, given which attempts succeed: its events and whether it saved. */
  function SaveFrom(succeeds: nat -> bool, a: nat): (seq<SaveEvent>, bool)
    decreases SaveAttempts - a
  {
    if a >= SaveAttempts then ([], false)
    else if succeeds(a) then ([Write(a)], true)
    else if a < SaveAttempts - 1 then
      var rest := SaveFrom(succeeds, a + 1);
      ([Write(a), Pause] + rest.0, rest.1)
    else ([Write(a)], false)
  }

  /** The first succeeding attempt from `a` on, or `SaveAttempts`. */
  function FirstSuccess(succeeds: nat -> bool, a: nat): (f: nat)
    ensures a <= f || a > SaveAttempts
    ensures f <= SaveAttempts || a > SaveAttempts
    decreases SaveAttempts - a
  {
    if a >= SaveAttempts then a
    else if succeeds(a) then a
    else FirstSuccess(succeeds, a + 1)
  }

  /**
   * The retry saves exactly when one of the three attempts succeeds, stops at
   * the first success, and alternates attempts with pauses, so a pause only
   * ever separates two attempts.
   */
  lemma SaveFromSpec(succeeds: nat -> bool, a: nat)
    requires a <= SaveAttempts
    ensures SaveFrom(succeeds, a).1 <==> exists j :: a <= j < SaveAttempts && succeeds(j)
    ensures SaveFrom(succeeds, a).1 ==>
      var f := FirstSuccess(succeeds, a);
      f < SaveAttempts && succeeds(f) && (forall j :: a <= j < f ==> !succeeds(j))
      && SaveFrom(succeeds, a).0[|SaveFrom(succeeds, a).0| - 1] == Write(f)
    ensures a < SaveAttempts ==> |SaveFrom(succeeds, a).0| % 2 == 1
    ensures |SaveFrom(succeeds, a).0| <= 2 * (SaveAttempts - a)
    ensures forall k :: 0 <= k < |SaveFrom(succeeds, a).0| ==>
      if k % 2 == 0 then SaveFrom(succeeds, a).0[k] == Write(a + k / 2) else SaveFrom(succeeds, a).0[k] == Pause
  {
    SaveOutcome(succeeds, a);
    SaveEvents(succeeds, a);
  }

  /** Whether the retry saves, and which attempt was the final write. */
  lemma {:induction false} SaveOutcome(succeeds: nat -> bool, a: nat)
    requires a <= SaveAttempts
    ensures SaveFrom(succeeds, a).1 <==> exists j :: a <= j < SaveAttempts && succeeds(j)
    ensures SaveFrom(succeeds, a).1 ==>
      var f := FirstSuccess(succeeds, a);
      f < SaveAttempts && succeeds(f) && (forall j :: a <= j < f ==> !succeeds(j))
      && SaveFrom(succeeds, a).0[|SaveFrom(succeeds, a).0| - 1] == Write(f)
    decreases SaveAttempts - a
  {
    if a < SaveAttempts && !succeeds(a) && a < SaveAttempts - 1 {
      SaveOutcome(succeeds, a + 1);
      var ev := SaveFrom(succeeds, a).0;
      var rest := SaveFrom(succeeds, a + 1).0;
      assert ev == [Write(a), Pause] + rest;
    }
  }

  /** The event log alternates writes and pauses, starting and ending with a write. */
  lemma {:induction false} SaveEvents(succeeds: nat -> bool, a: nat)
    requires a <= SaveAttempts
    ensures a < SaveAttempts ==> |SaveFrom(succeeds, a).0| % 2 == 1
    ensures |SaveFrom(succeeds, a).0| <= 2 * (SaveAttempts - a)
    ensures forall k :: 0 <= k < |SaveFrom(succeeds, a).0| ==>
      if k % 2 == 0 then SaveFrom(succeeds, a).0[k] == Write(a + k / 2) else SaveFrom(succeeds, a).0[k] == Pause
    decreases SaveAttempts - a
  {
    if a < SaveAttempts && !succeeds(a) && a < SaveAttempts - 1 {
      SaveEvents(succeeds, a + 1);
      var ev := SaveFrom(succeeds, a).0;
      var rest := SaveFrom(succeeds, a + 1).0;
      assert ev == [Write(a), Pause] + rest;
      forall k | 0 <= k < |ev|
        ensures if k % 2 == 0 then ev[k] == Write(a + k / 2) else ev[k] == Pause
      {
        if k >= 2 {
          assert ev[k] == rest[k - 2];
        }
      }
    }
  }

  /** A failed attempt that is not the last is followed by a pause and the next attempt. */
  lemma SaveRetries(succeeds: nat -> bool, a: nat)
    requires a < SaveAttempts - 1 && !succeeds(a)
    ensures SaveFrom(succeeds, a) == ([Write(a), Pause] + SaveFrom(succeeds, a + 1).0, SaveFrom(succeeds, a + 1).1)
  {
  }

  /** `safe_update_excel`: up to three write attempts, pausing after each failed one but the last. */
  method SafeUpdate(succeeds: nat -> bool) returns (saved: bool, events: seq<SaveEvent>)
    ensures (events, saved) == SaveFrom(succeeds, 0)
  {
    events := [];
    var attempt := 0;
    ghost var all := SaveFrom(succeeds, 0);
    while attempt < SaveAttempts
      invariant attempt <= SaveAttempts
      invariant events + SaveFrom(succeeds, attempt).0 == all.0
      invariant SaveFrom(succeeds, attempt).1 == all.1
    {
      ghost var before := events;
      events := events + [Write(attempt)];
      if succeeds(attempt) {
        SaveExit(succeeds, attempt, before, all);
        return true, events;
      }
      if attempt < SaveAttempts - 1 {
        SaveContinue(succeeds, attempt, before, all);
        events := events + [Pause];
      } else {
        SaveExit(succeeds, attempt, before, all);
        return false, events;
      }
      attempt := attempt + 1;
    }
    assert events + [] == events;
    saved := false;
  }

  /** A successful attempt, or a failed last one, is the final write. */
  lemma SaveExit(succeeds: nat -> bool, a: nat, before: seq<SaveEvent>, all: (seq<SaveEvent>, bool))
    requires a < SaveAttempts && (succeeds(a) || a == SaveAttempts - 1)
    requires before + SaveFrom(succeeds, a).0 == all.0 && SaveFrom(succeeds, a).1 == all.1
    ensures (before + [Write(a)], succeeds(a)) == all
  {
  }

  /** A failed attempt that is not the last: a write, a pause, and the log goes on from the next attempt. */
  lemma SaveContinue(succeeds: nat -> bool, a: nat, before: seq<SaveEvent>, all: (seq<SaveEvent>, bool))
    requires a < SaveAttempts - 1 && !succeeds(a)
    requires before + SaveFrom(succeeds, a).0 == all.0 && SaveFrom(succeeds, a).1 == all.1
    ensures (before + [Write(a)]) + [Pause] + SaveFrom(succeeds, a + 1).0 == all.0
    ensures SaveFrom(succeeds, a + 1).1 == all.1
  {
    SaveRetries(succeeds, a);
    assert before + SaveFrom(succeeds, a).0 == before + ([Write(a), Pause] + SaveFrom(succeeds, a + 1).0);
  }

  // ---------------------------------------------------------------------------
  // process_file_parallel

  /** The status `process_single_question` reports. */
  datatype Status = Completed | Skipped | ApiFailed | SaveFailed

  /** What one task reports, and the row the file holds after a successful save. */
  datatype TaskOutcome = TaskOutcome(status: Status, written: Option<Row>)

  /** The four counters of `results`. */
  datatype Counts = Counts(completed: nat, skipped: nat, apiFailed: nat, saveFailed: nat)

  function Total(c: Counts): nat {
    c.completed + c.skipped + c.apiFailed + c.saveFailed
  }

  /** `results[status] += 1`. */
  function Bump(c: Counts, s: Status): (r: Counts)
    ensures Total(r) == Total(c) + 1
    ensures r.completed == c.completed + (if s == Completed then 1 else 0)
    ensures r.skipped == c.skipped + (if s == Skipped then 1 else 0)
    ensures r.apiFailed == c.apiFailed + (if s == ApiFailed then 1 else 0)
    ensures r.saveFailed == c.saveFailed + (if s == SaveFailed then 1 else 0)
  {
    match s
    case Completed => c.(completed := c.completed + 1)
    case Skipped => c.(skipped := c.skipped + 1)
    case ApiFailed => c.(apiFailed := c.apiFailed + 1)
    case SaveFailed => c.(saveFailed := c.saveFailed + 1)
  }

  /** The rows that get a task: those whose question is not blank, in row order. */
  function TaskRows(rows: seq<Row>): (ts: seq<nat>)
    ensures forall k :: 0 <= k < |ts| ==> ts[k] < |rows|
  {
    if rows == [] then []
    else
      var n := |rows| - 1;
      TaskRows(rows[..n]) + (if Blank(rows[n].question) then [] else [n])
  }

  /** A row has a task exactly when its question is not blank. */
  lemma TaskRowsMember(rows: seq<Row>)
    ensures forall i :: 0 <= i < |rows| ==> (i in TaskRows(rows) <==> !Blank(rows[i].question))
  {
    forall i | 0 <= i < |rows| ensures i in TaskRows(rows) <==> !Blank(rows[i].question) {
      TaskRowAt(rows, i);
    }
  }

  /** Row `i` is a task exactly when its question is not blank. */
  lemma {:induction false} TaskRowAt(rows: seq<Row>, i: nat)
    requires i < |rows|
    ensures i in TaskRows(rows) <==> !Blank(rows[i].question)
  {
    var n := |rows| - 1;
    var front := rows[..n];
    var head := TaskRows(front);
    var tail := if Blank(rows[n].question) then [] else [n];
    assert TaskRows(rows) == head + tail;
    if i < n {
      TaskRowAt(front, i);
      assert front[i] == rows[i];
      assert i !in tail;
    } else {
      assert i !in head;
    }
  }

  /** There are no tasks exactly when every question is blank. */
  lemma NoTaskRows(rows: seq<Row>)
    ensures TaskRows(rows) == [] <==> forall i :: 0 <= i < |rows| ==> Blank(rows[i].question)
  {
    TaskRowsMember(rows);
    if TaskRows(rows) != [] {
      assert TaskRows(rows)[0] in TaskRows(rows);
    }
  }

  /** Row `i` once every task has finished: what its task saved, or the row as read. */
  lemma AppliedTasks(rows: seq<Row>, outcome: (nat, Row) -> TaskOutcome, i: nat)
    requires i < |rows|
    ensures Applied(rows, outcome, TaskRows(rows), i)
         == if !Blank(rows[i].question) && outcome(i, rows[i]).written.Some? then outcome(i, rows[i]).written.value
            else rows[i]
  {
    TaskRowsMember(rows);
  }

  /** The tasks come in row order. */
  lemma {:induction false} TaskRowsOrdered(rows: seq<Row>)
    ensures forall k, l :: 0 <= k < l < |TaskRows(rows)| ==> TaskRows(rows)[k] < TaskRows(rows)[l]
  {
    if rows != [] {
      var n := |rows| - 1;
      TaskRowsOrdered(rows[..n]);
      assert forall k :: 0 <= k < |TaskRows(rows[..n])| ==> TaskRows(rows[..n])[k] < n;
    }
  }

  /** Whether task `i` reported `st`. */
  function HasStatus(rows: seq<Row>, outcome: (nat, Row) -> TaskOutcome, st: Status): nat -> bool {
    (i: nat) => i < |rows| && outcome(i, rows[i]).status == st
  }

  /** The counters after the tasks `done`. */
  function TallyOf(rows: seq<Row>, outcome: (nat, Row) -> TaskOutcome, done: seq<nat>): Counts {
    Counts(Count(done, HasStatus(rows, outcome, Completed)), Count(done, HasStatus(rows, outcome, Skipped)),
           Count(done, HasStatus(rows, outcome, ApiFailed)), Count(done, HasStatus(rows, outcome, SaveFailed)))
  }

  /** Finishing one more task moves the counter of its status. */
  lemma TallyStep(rows: seq<Row>, outcome: (nat, Row) -> TaskOutcome, done: seq<nat>, x: nat)
    requires x < |rows|
    ensures TallyOf(rows, outcome, done + [x]) == Bump(TallyOf(rows, outcome, done), outcome(x, rows[x]).status)
  {
    var d := done + [x];
    assert d[..|d| - 1] == done && d[|d| - 1] == x;
  }

  /** Every finished task moves exactly one counter, so the counters add up to the tasks finished. */
  lemma {:induction false} TallyTotal(rows: seq<Row>, outcome: (nat, Row) -> TaskOutcome, done: seq<nat>)
    requires forall k :: 0 <= k < |done| ==> done[k] < |rows|
    ensures Total(TallyOf(rows, outcome, done)) == |done|
  {
    if done != [] {
      var n := |done| - 1;
      TallyTotal(rows, outcome, done[..n]);
      assert done == done[..n] + [done[n]];
      TallyStep(rows, outcome, done[..n], done[n]);
    }
  }

  /** The counters do not depend on the order in which the pool finishes the tasks. */
  lemma TallyOrderFree(rows: seq<Row>, outcome: (nat, Row) -> TaskOutcome, a: seq<nat>, b: seq<nat>)
    requires multiset(a) == multiset(b)
    ensures TallyOf(rows, outcome, a) == TallyOf(rows, outcome, b)
  {
    CountPermutation(a, b, HasStatus(rows, outcome, Completed));
    CountPermutation(a, b, HasStatus(rows, outcome, Skipped));
    CountPermutation(a, b, HasStatus(rows, outcome, ApiFailed));
    CountPermutation(a, b, HasStatus(rows, outcome, SaveFailed));
  }

  /** The totals at which progress is logged: every fifth task and the last one. */
  function ProgressPoints(n: nat, k: nat): seq<nat> {
    if k == 0 then [] else ProgressPoints(n, k - 1) + (if k % 5 == 0 || k == n then [k] else [])
  }

  lemma {:induction false} ProgressPointsSpec(n: nat, k: nat)
    ensures forall x :: x in ProgressPoints(n, k) <==> 1 <= x <= k && (x % 5 == 0 || x == n)
  {
    if k > 0 {
      ProgressPointsSpec(n, k - 1);
    }
  }

  /** `completed / (tasks - skipped) * 100`, computed only when some task was not skipped. */
  function SuccessRate(tasks: nat, c: Counts): (r: Option<real>)
  {
    if tasks > c.skipped then Some(c.completed as real / (tasks - c.skipped) as real * 100.0) else None
  }

  /** The rate is a percentage whenever the counters come from the tasks. */
  lemma SuccessRateBounds(tasks: nat, c: Counts)
    requires Total(c) == tasks
    ensures SuccessRate(tasks, c).Some? <==> tasks > c.skipped
    ensures SuccessRate(tasks, c).Some? ==> 0.0 <= SuccessRate(tasks, c).value <= 100.0
  {
    if tasks > c.skipped {
      var d := (tasks - c.skipped) as real;
      var q := c.completed as real / d;
      assert c.completed as real <= d;
      assert q * d == c.completed as real;
      assert 0.0 <= q <= 1.0;
    }
  }

  /** How `process_file_parallel` ends. */
  datatype Report =
    | NoTasks                                                   // no row has a question
    | Summary(counts: Counts, progress: seq<nat>, rate: Option<real>)

  /** Row `i` of the file after the tasks `done`: what the last successful save wrote, or the row as read. */
  function Applied(rows: seq<Row>, outcome: (nat, Row) -> TaskOutcome, done: seq<nat>, i: nat): Row
    requires i < |rows|
  {
    if i in done && outcome(i, rows[i]).written.Some? then outcome(i, rows[i]).written.value else rows[i]
  }

  /** One more finished task changes only its own row, and only when its save succeeded. */
  lemma AppliedStep(rows: seq<Row>, outcome: (nat, Row) -> TaskOutcome, done: seq<nat>, x: nat, i: nat)
    requires x < |rows| && i < |rows|
    ensures Applied(rows, outcome, done + [x], i)
         == if i == x && outcome(x, rows[x]).written.Some? then outcome(x, rows[x]).written.value
            else Applied(rows, outcome, done, i)
  {
    assert i in done + [x] <==> i in done || i == x;
  }

  /** The file depends only on which tasks finished. */
  lemma AppliedSame(rows: seq<Row>, outcome: (nat, Row) -> TaskOutcome, a: seq<nat>, b: seq<nat>, i: nat)
    requires i < |rows| && multiset(a) == multiset(b)
    ensures Applied(rows, outcome, a, i) == Applied(rows, outcome, b, i)
  {
    assert i in a <==> i in multiset(a);
    assert i in b <==> i in multiset(b);
  }

  /** The tasks finishing one after another in `order`: the file, the counters and the progress lines. */
  method FinishTasks(rows: seq<Row>, order: seq<nat>, outcome: (nat, Row) -> TaskOutcome)
    returns (sheet: seq<Row>, counts: Counts, progress: seq<nat>)
    requires forall k :: 0 <= k < |order| ==> order[k] < |rows|
    ensures |sheet| == |rows|
    ensures forall i :: 0 <= i < |rows| ==> sheet[i] == Applied(rows, outcome, order, i)
    ensures counts == TallyOf(rows, outcome, order)
    ensures progress == ProgressPoints(|order|, |order|)
  {
    sheet := rows;
    counts := Counts(0, 0, 0, 0);
    progress := [];
    var k := 0;
    while k < |order|
      invariant k <= |order| && |sheet| == |rows|
      invariant counts == TallyOf(rows, outcome, order[..k])
      invariant progress == ProgressPoints(|order|, k)
      invariant forall i :: 0 <= i < |rows| ==> sheet[i] == Applied(rows, outcome, order[..k], i)
    {
      var index := order[k];
      var result := outcome(index, rows[index]);
      assert order[..k + 1] == order[..k] + [index];
      TallyStep(rows, outcome, order[..k], index);
      counts := Bump(counts, result.status);
      if result.written.Some? {
        sheet := sheet[index := result.written.value];
      }
      forall i | 0 <= i < |rows|
        ensures sheet[i] == Applied(rows, outcome, order[..k + 1], i)
      {
        AppliedStep(rows, outcome, order[..k], index, i);
      }
      k := k + 1;
      if k % 5 == 0 || k == |order| {
        progress := progress + [k];
      }
    }
    assert order[..k] == order;
  }

  /**
   * `process_file_parallel` after the file is read: the pool finishes the
   * tasks in `order`, and `outcome(i, row)` is what `process_single_question`
   * reports for row `i` as read at the start.
   */
  method RunTasks(rows: seq<Row>, order: seq<nat>, outcome: (nat, Row) -> TaskOutcome)
    returns (sheet: seq<Row>, report: Report)
    requires multiset(order) == multiset(TaskRows(rows))
    ensures |sheet| == |rows|
    ensures forall i :: 0 <= i < |rows| ==> sheet[i] == Applied(rows, outcome, TaskRows(rows), i)
    ensures report == if TaskRows(rows) == [] then NoTasks
                      else Summary(TallyOf(rows, outcome, TaskRows(rows)),
                                   ProgressPoints(|TaskRows(rows)|, |TaskRows(rows)|),
                                   SuccessRate(|TaskRows(rows)|, TallyOf(rows, outcome, TaskRows(rows))))
  {
    var tasks := TaskRows(rows);
    assert |order| == |tasks| by {
      assert |multiset(order)| == |multiset(tasks)|;
    }
    if |tasks| == 0 {
      return rows, NoTasks;
    }
    forall k | 0 <= k < |order| ensures order[k] < |rows| {
      assert order[k] in multiset(tasks);
    }
    var counts, progress;
    sheet, counts, progress := FinishTasks(rows, order, outcome);
    TallyOrderFree(rows, outcome, order, tasks);
    forall i | 0 <= i < |rows| ensures sheet[i] == Applied(rows, outcome, tasks, i) {
      AppliedSame(rows, outcome, order, tasks, i);
    }
    report := Summary(counts, progress, SuccessRate(|tasks|, counts));
  }
}

=== FILE: orchestrator.dfy ===
/**
 * The resumable fetch step of `process_method2_file`: merging a saved
 * checkpoint into the freshly read sheet, building one task list per fetch
 * kind, and the two result loops that write each finished fetch into the sheet,
 * grow the kind's progress set and save a checkpoint on every tenth completion
 * of that kind, with one last save at the end.
 *
 * The thread pool is not modelled: a kind's tasks finish in `order`, any
 * permutation of its task list, and `results` gives each row's fetch outcome.
 */
module Orchestrator {
  import opened Wrappers
  import opened Text
  import opened Table
  import opened Seqs
  import opened Checkpoints

  /** The two fetch kinds: answers (`AI回答` with `参考文档`) and passages (`Contexts`). */
  datatype Kind = Answers | Contexts

  /** A fetch task: the row index and the stripped question. */
  datatype Task = Task(index: nat, question: string)

  /**
   * How a fetch ended: `query_answer`'s dict (`text` is the answer, `reference` the
   * reference list) or `query_contexts`' pair (`text` is the passages), or an exception.
   */
  datatype Outcome = Returned(success: bool, text: string, reference: string) | Raised

  /** The part of the session a checkpoint captures. */
  datatype State = State(rows: seq<Row>, answerProgress: set<nat>, contextProgress: set<nat>)

  function Field(row: Row, kind: Kind): Cell {
    if kind == Answers then row.answer else row.contexts
  }

  function RecordField(rec: Record, kind: Kind): Cell {
    if kind == Answers then rec.answer else rec.contexts
  }

  function Progress(st: State, kind: Kind): set<nat> {
    if kind == Answers then st.answerProgress else st.contextProgress
  }

  /** The state after the checkpoint, if one loads, is merged in. */
  function Resumed(st: State, loaded: Option<Checkpoint>): (r: State)
    ensures |r.rows| == |st.rows|
  {
    match loaded
    case None => st
    case Some(c) => Merged(st, c)
  }

  /** The `kind` tasks built from a state. */
  function Tasks(st: State, kind: Kind): seq<Task> {
    TaskList(st.rows, Progress(st, kind), kind)
  }

  function SnapshotOf(st: State): Checkpoint {
    Snapshot(st.rows, st.answerProgress, st.contextProgress)
  }

  // ---------------------------------------------------------------------------
  // Checkpoint merge

  /** One saved record merged into the current row: a filled saved value wins over the current one. */
  function MergeRow(row: Row, rec: Record): Row {
    var r := if !Blank(rec.answer) then row.(answer := rec.answer, reference := rec.reference) else row;
    if !Blank(rec.contexts) then r.(contexts := rec.contexts) else r
  }

  /** The indices below `n` whose saved `kind` value is filled. */
  function FilledBelow(recs: seq<Record>, n: nat, kind: Kind): set<nat> {
    if recs == [] then {}
    else
      var j := |recs| - 1;
      FilledBelow(recs[..j], n, kind) + (if j < n && !Blank(RecordField(recs[j], kind)) then {j} else {})
  }

  lemma {:induction false} FilledBelowMembers(recs: seq<Record>, n: nat, kind: Kind, i: nat)
    ensures i in FilledBelow(recs, n, kind) <==> i < |recs| && i < n && !Blank(RecordField(recs[i], kind))
  {
    if recs != [] {
      var j := |recs| - 1;
      FilledBelowMembers(recs[..j], n, kind, i);
      if i < j {
        assert recs[..j][i] == recs[i];
      }
    }
  }

  /** The state after merging checkpoint `c` into `st`: the saved progress sets, grown by every filled saved value. */
  function Merged(st: State, c: Checkpoint): (r: State)
    ensures |r.rows| == |st.rows|
  {
    State(
      seq(|st.rows|, i requires 0 <= i < |st.rows| =>
        if i < |c.records| then MergeRow(st.rows[i], c.records[i]) else st.rows[i]),
      c.answerProgress + FilledBelow(c.records, |st.rows|, Answers),
      c.contextProgress + FilledBelow(c.records, |st.rows|, Contexts))
  }

  /** What the merge does to each row: a filled saved value replaces the current one, whatever that was. */
  lemma MergedRows(st: State, c: Checkpoint, i: nat)
    requires i < |st.rows|
    ensures var row := Merged(st, c).rows[i];
      && row.question == st.rows[i].question && row.others == st.rows[i].others
      && (i < |c.records| && !Blank(c.records[i].answer) ==>
            row.answer == c.records[i].answer && row.reference == c.records[i].reference)
      && (i >= |c.records| || Blank(c.records[i].answer) ==>
            row.answer == st.rows[i].answer && row.reference == st.rows[i].reference)
      && (i < |c.records| && !Blank(c.records[i].contexts) ==> row.contexts == c.records[i].contexts)
      && (i >= |c.records| || Blank(c.records[i].contexts) ==> row.contexts == st.rows[i].contexts)
  {
  }

  /** Merging the same checkpoint twice is merging it once. */
  lemma MergeIdempotent(st: State, c: Checkpoint)
    ensures Merged(Merged(st, c), c) == Merged(st, c)
  {
    var once := Merged(st, c);
    var twice := Merged(once, c);
    assert twice.rows == once.rows by {
      forall i | 0 <= i < |once.rows| ensures twice.rows[i] == once.rows[i] {
        if i < |c.records| {
          MergeRowIdempotent(st.rows[i], c.records[i]);
        }
      }
    }
  }

  lemma MergeRowIdempotent(row: Row, rec: Record)
    ensures MergeRow(MergeRow(row, rec), rec) == MergeRow(row, rec)
  {
  }

  /** The merge loop's progress update for saved record `j`. */
  lemma ProgressStep(base: set<nat>, recs: seq<Record>, n: nat, kind: Kind, j: nat, p: set<nat>)
    requires j < |recs| && p == base + FilledBelow(recs[..j], n, kind)
    ensures p + (if j < n && !Blank(RecordField(recs[j], kind)) then {j} else {})
      == base + FilledBelow(recs[..j + 1], n, kind)
  {
    assert recs[..j + 1][..j] == recs[..j];
  }

  // ---------------------------------------------------------------------------
  // Task building

  /** Row `i` gets a `kind` task: its question is filled, `i` is not in the kind's progress and the field is blank. */
  predicate Needs(rows: seq<Row>, progress: set<nat>, kind: Kind, i: nat)
    requires i < |rows|
  {
    !Blank(rows[i].question) && i !in progress && Blank(Field(rows[i], kind))
  }

  /** The `kind` tasks of `rows`, in row order. */
  function TaskList(rows: seq<Row>, progress: set<nat>, kind: Kind): (ts: seq<Task>)
    ensures |ts| <= |rows|
    ensures forall k :: 0 <= k < |ts| ==> ts[k].index < |rows|
  {
    if rows == [] then []
    else
      var n := |rows| - 1;
      TaskList(rows[..n], progress, kind)
        + (if Needs(rows, progress, kind, n) then [Task(n, Strip(rows[n].question.value))] else [])
  }

  /** Every task is for a row that needs one, and carries that row's stripped question. */
  lemma TaskListSound(rows: seq<Row>, progress: set<nat>, kind: Kind)
    ensures forall k :: 0 <= k < |TaskList(rows, progress, kind)| ==>
      TaskList(rows, progress, kind)[k].index < |rows| && Needs(rows, progress, kind, TaskList(rows, progress, kind)[k].index)
      && TaskList(rows, progress, kind)[k].question == Strip(rows[TaskList(rows, progress, kind)[k].index].question.value)
  {
    forall k | 0 <= k < |TaskList(rows, progress, kind)| {
      TaskAt(rows, progress, kind, k);
    }
  }

  lemma {:induction false} TaskAt(rows: seq<Row>, progress: set<nat>, kind: Kind, k: nat)
    requires k < |TaskList(rows, progress, kind)|
    ensures var t := TaskList(rows, progress, kind)[k];
      t.index < |rows| && Needs(rows, progress, kind, t.index) && t.question == Strip(rows[t.index].question.value)
  {
    var n := |rows| - 1;
    var pre := rows[..n];
    var tp := TaskList(pre, progress, kind);
    if k < |tp| {
      TaskAt(pre, progress, kind, k);
      assert TaskList(rows, progress, kind)[k] == tp[k];
      assert rows[tp[k].index] == pre[tp[k].index];
    }
  }

  /** Every row that needs a task gets one. */
  lemma TaskListComplete(rows: seq<Row>, progress: set<nat>, kind: Kind)
    ensures forall i :: 0 <= i < |rows| && Needs(rows, progress, kind, i) ==>
      Task(i, Strip(rows[i].question.value)) in TaskList(rows, progress, kind)
  {
    forall i | 0 <= i < |rows| && Needs(rows, progress, kind, i) {
      TaskFor(rows, progress, kind, i);
    }
  }

  lemma {:induction false} TaskFor(rows: seq<Row>, progress: set<nat>, kind: Kind, i: nat)
    requires i < |rows| && Needs(rows, progress, kind, i)
    ensures Task(i, Strip(rows[i].question.value)) in TaskList(rows, progress, kind)
  {
    var n := |rows| - 1;
    var ts := TaskList(rows, progress, kind);
    var pre := rows[..n];
    var tp := TaskList(pre, progress, kind);
    if i == n {
      assert ts[|ts| - 1] == Task(i, Strip(rows[i].question.value));
    } else {
      assert pre[i] == rows[i];
      TaskFor(pre, progress, kind, i);
      assert ts == tp + (if Needs(rows, progress, kind, n) then [Task(n, Strip(rows[n].question.value))] else []);
    }
  }

  /** Tasks come in increasing row order, so no row is fetched twice in one run. */
  lemma {:induction false} TaskListOrdered(rows: seq<Row>, progress: set<nat>, kind: Kind)
    ensures forall k, l :: 0 <= k < l < |TaskList(rows, progress, kind)| ==> TaskList(rows, progress, kind)[k].index < TaskList(rows, progress, kind)[l].index
  {
    if rows != [] {
      var n := |rows| - 1;
      var ts := TaskList(rows, progress, kind);
      var tp := TaskList(rows[..n], progress, kind);
      TaskListOrdered(rows[..n], progress, kind);
      forall k, l | 0 <= k < l < |ts| ensures ts[k].index < ts[l].index {
        assert ts[k] == tp[k];
        if l < |tp| {
          assert ts[l] == tp[l];
        }
      }
    }
  }

  /** The task-building loop: one pass over the rows, filling both lists. */
  method BuildTasks(rows: seq<Row>, answerProgress: set<nat>, contextProgress: set<nat>)
    returns (answerTasks: seq<Task>, contextTasks: seq<Task>)
    ensures answerTasks == TaskList(rows, answerProgress, Answers)
    ensures contextTasks == TaskList(rows, contextProgress, Contexts)
  {
    answerTasks, contextTasks := [], [];
    var index := 0;
    while index < |rows|
      invariant 0 <= index <= |rows|
      invariant answerTasks == TaskList(rows[..index], answerProgress, Answers)
      invariant contextTasks == TaskList(rows[..index], contextProgress, Contexts)
    {
      var row := rows[index];
      assert rows[..index + 1][..index] == rows[..index];
      if !Blank(row.question) {
        var question := Strip(row.question.value);
        if index !in answerProgress && Blank(row.answer) {
          answerTasks := answerTasks + [Task(index, question)];
        }
        if index !in contextProgress && Blank(row.contexts) {
          contextTasks := contextTasks + [Task(index, question)];
        }
      }
      index := index + 1;
    }
    assert rows[..index] == rows;
  }

  // ---------------------------------------------------------------------------
  // Result loops

  predicate Succeeded(results: map<nat, Outcome>, i: nat) {
    i in results && results[i].Returned? && results[i].success
  }

  function SucceededIn(results: map<nat, Outcome>): Task -> bool {
    (t: Task) => Succeeded(results, t.index)
  }

  /** The row after a successful fetch of `kind` has been written into it. */
  function WriteBack(row: Row, kind: Kind, o: Outcome): Row
    requires o.Returned?
  {
    match kind
    case Answers => row.(answer := Some(o.text), reference := Some(o.reference))
    case Contexts => row.(contexts := Some(o.text))
  }

  /** One finished task: a successful result is written and its row joins the kind's progress; anything else changes nothing. */
  function Apply(st: State, kind: Kind, t: Task, o: Outcome): (r: State)
    requires t.index < |st.rows|
    ensures |r.rows| == |st.rows|
  {
    if o.Returned? && o.success then
      var rows := st.rows[t.index := WriteBack(st.rows[t.index], kind, o)];
      match kind
      case Answers => st.(rows := rows, answerProgress := st.answerProgress + {t.index})
      case Contexts => st.(rows := rows, contextProgress := st.contextProgress + {t.index})
    else st
  }

  predicate Fits(st: State, order: seq<Task>, results: map<nat, Outcome>) {
    forall k :: 0 <= k < |order| ==> order[k].index < |st.rows| && order[k].index in results
  }

  /** The state after the tasks of `order` have finished, in that order. */
  function Run(st: State, kind: Kind, order: seq<Task>, results: map<nat, Outcome>): (r: State)
    requires Fits(st, order, results)
    ensures |r.rows| == |st.rows|
  {
    if order == [] then st
    else
      var n := |order| - 1;
      var t := order[n];
      Apply(Run(st, kind, order[..n], results), kind, t, results[t.index])
  }

  /** The rows whose fetch succeeded among the tasks of `order`. */
  function DoneSet(order: seq<Task>, results: map<nat, Outcome>): set<nat> {
    set k | 0 <= k < |order| && Succeeded(results, order[k].index) :: order[k].index
  }

  /** An independent description of the result loop: every succeeded row written once, its index added to progress. */
  function Closed(st: State, kind: Kind, done: set<nat>, results: map<nat, Outcome>): (r: State)
    ensures |r.rows| == |st.rows|
  {
    var rows := seq(|st.rows|, i requires 0 <= i < |st.rows| =>
      if i in done && Succeeded(results, i) then WriteBack(st.rows[i], kind, results[i]) else st.rows[i]);
    match kind
    case Answers => st.(rows := rows, answerProgress := st.answerProgress + done)
    case Contexts => st.(rows := rows, contextProgress := st.contextProgress + done)
  }

  lemma WriteBackIdempotent(row: Row, kind: Kind, o: Outcome)
    requires o.Returned?
    ensures WriteBack(WriteBack(row, kind, o), kind, o) == WriteBack(row, kind, o)
  {
  }

  lemma DoneSetStep(order: seq<Task>, results: map<nat, Outcome>)
    requires order != []
    ensures var n := |order| - 1;
      DoneSet(order, results)
        == DoneSet(order[..n], results) + (if Succeeded(results, order[n].index) then {order[n].index} else {})
  {
    var n := |order| - 1;
    var pre := order[..n];
    forall x | x in DoneSet(order, results)
      ensures x in DoneSet(pre, results) || (Succeeded(results, order[n].index) && x == order[n].index)
    {
      var k :| 0 <= k < |order| && Succeeded(results, order[k].index) && order[k].index == x;
      if k < n {
        assert pre[k] == order[k];
      }
    }
    forall x | x in DoneSet(pre, results) ensures x in DoneSet(order, results) {
      var k :| 0 <= k < |pre| && Succeeded(results, pre[k].index) && pre[k].index == x;
      assert order[k] == pre[k];
    }
  }

  /** One more finished task on top of the closed form. */
  lemma ClosedStep(st: State, kind: Kind, done: set<nat>, results: map<nat, Outcome>, t: Task)
    requires t.index < |st.rows| && t.index in results
    requires forall i :: i in done ==> Succeeded(results, i)
    ensures Apply(Closed(st, kind, done, results), kind, t, results[t.index])
      == Closed(st, kind, done + (if Succeeded(results, t.index) then {t.index} else {}), results)
  {
    var c := Closed(st, kind, done, results);
    if Succeeded(results, t.index) {
      var d2 := done + {t.index};
      var c2 := Closed(st, kind, d2, results);
      var a := Apply(c, kind, t, results[t.index]);
      assert a.rows == c2.rows by {
        forall i | 0 <= i < |st.rows| ensures a.rows[i] == c2.rows[i] {
          if i == t.index && t.index in done {
            WriteBackIdempotent(st.rows[i], kind, results[i]);
          }
        }
      }
    }
  }

  /** The result loop equals its closed form, whatever the completion order. */
  lemma {:induction false} RunClosed(st: State, kind: Kind, order: seq<Task>, results: map<nat, Outcome>)
    requires Fits(st, order, results)
    ensures Run(st, kind, order, results) == Closed(st, kind, DoneSet(order, results), results)
    decreases |order|
  {
    if order == [] {
      var c := Closed(st, kind, {}, results);
      assert c.rows == st.rows;
    } else {
      var n := |order| - 1;
      var t := order[n];
      assert Fits(st, order[..n], results);
      RunClosed(st, kind, order[..n], results);
      DoneSetStep(order, results);
      ClosedStep(st, kind, DoneSet(order[..n], results), results, t);
    }
  }

  /**
   * The sheet and progress after a kind's loop do not depend on the order the pool
   * finishes the tasks in, and neither does the number of successes.
   */
  lemma RunOrderIndependent(st: State, kind: Kind, o1: seq<Task>, o2: seq<Task>, results: map<nat, Outcome>)
    requires Fits(st, o1, results) && multiset(o1) == multiset(o2)
    ensures Fits(st, o2, results)
    ensures Run(st, kind, o1, results) == Run(st, kind, o2, results)
    ensures Count(o1, SucceededIn(results)) == Count(o2, SucceededIn(results))
  {
    forall k | 0 <= k < |o2| ensures o2[k].index < |st.rows| && o2[k].index in results {
      assert o2[k] in multiset(o1);
    }
    assert DoneSet(o1, results) == DoneSet(o2, results) by {
      forall x | x in DoneSet(o1, results) ensures x in DoneSet(o2, results) {
        var k :| 0 <= k < |o1| && Succeeded(results, o1[k].index) && o1[k].index == x;
        assert o1[k] in multiset(o2);
        var l :| 0 <= l < |o2| && o2[l] == o1[k];
      }
      forall x | x in DoneSet(o2, results) ensures x in DoneSet(o1, results) {
        var k :| 0 <= k < |o2| && Succeeded(results, o2[k].index) && o2[k].index == x;
        assert o2[k] in multiset(o1);
        var l :| 0 <= l < |o1| && o1[l] == o2[k];
      }
    }
    RunClosed(st, kind, o1, results);
    RunClosed(st, kind, o2, results);
    CountPermutation(o1, o2, SucceededIn(results));
  }

  /**
   * The loop only adds to progress: the kind's set grows by the succeeded rows, the other
   * kind's set and every row that did not succeed are untouched.
   */
  lemma RunEffect(st: State, kind: Kind, order: seq<Task>, results: map<nat, Outcome>, i: nat)
    requires Fits(st, order, results) && i < |st.rows|
    ensures var r := Run(st, kind, order, results);
      && Progress(r, kind) == Progress(st, kind) + DoneSet(order, results)
      && (kind == Answers ==> r.contextProgress == st.contextProgress)
      && (kind == Contexts ==> r.answerProgress == st.answerProgress)
      && (i !in DoneSet(order, results) ==> r.rows[i] == st.rows[i])
      && (i in DoneSet(order, results) ==> r.rows[i] == WriteBack(st.rows[i], kind, results[i]))
  {
    RunClosed(st, kind, order, results);
    if i in DoneSet(order, results) {
      var k :| 0 <= k < |order| && Succeeded(results, order[k].index) && order[k].index == i;
    }
  }

  /** A task list is empty when no row needs a task. */
  lemma TaskListEmpty(rows: seq<Row>, progress: set<nat>, kind: Kind)
    requires forall i :: 0 <= i < |rows| ==> !Needs(rows, progress, kind, i)
    ensures TaskList(rows, progress, kind) == []
  {
    if TaskList(rows, progress, kind) != [] {
      TaskAt(rows, progress, kind, 0);
    }
  }

  /** When every task of a kind succeeds, rebuilding that kind's tasks finds nothing left to do. */
  lemma RunCompletes(st: State, kind: Kind, order: seq<Task>, results: map<nat, Outcome>)
    requires Fits(st, order, results)
    requires multiset(order) == multiset(TaskList(st.rows, Progress(st, kind), kind))
    requires forall k :: 0 <= k < |order| ==> Succeeded(results, order[k].index)
    ensures var r := Run(st, kind, order, results); TaskList(r.rows, Progress(r, kind), kind) == []
  {
    var r := Run(st, kind, order, results);
    forall i | 0 <= i < |r.rows| ensures !Needs(r.rows, Progress(r, kind), kind, i) {
      NoLongerNeeded(st, kind, order, results, i);
    }
    TaskListEmpty(r.rows, Progress(r, kind), kind);
  }

  lemma NoLongerNeeded(st: State, kind: Kind, order: seq<Task>, results: map<nat, Outcome>, i: nat)
    requires Fits(st, order, results) && i < |st.rows|
    requires multiset(order) == multiset(TaskList(st.rows, Progress(st, kind), kind))
    requires forall k :: 0 <= k < |order| ==> Succeeded(results, order[k].index)
    ensures var r := Run(st, kind, order, results); !Needs(r.rows, Progress(r, kind), kind, i)
  {
    RunEffect(st, kind, order, results, i);
    if Needs(st.rows, Progress(st, kind), kind, i) {
      NeededIsDone(st, kind, order, results, i);
    }
  }

  lemma NeededIsDone(st: State, kind: Kind, order: seq<Task>, results: map<nat, Outcome>, i: nat)
    requires i < |st.rows| && Needs(st.rows, Progress(st, kind), kind, i)
    requires multiset(order) == multiset(TaskList(st.rows, Progress(st, kind), kind))
    requires forall k :: 0 <= k < |order| ==> Succeeded(results, order[k].index)
    ensures i in DoneSet(order, results)
  {
    var ts := TaskList(st.rows, Progress(st, kind), kind);
    TaskFor(st.rows, Progress(st, kind), kind, i);
    var t := Task(i, Strip(st.rows[i].question.value));
    assert t in multiset(order);
    var l :| 0 <= l < |order| && order[l] == t;
  }

  /** A completion order of a kind's tasks, with an outcome for each task, fits the state. */
  lemma TasksFit(st: State, kind: Kind, order: seq<Task>, results: map<nat, Outcome>)
    requires multiset(order) == multiset(Tasks(st, kind))
    requires forall k :: 0 <= k < |order| ==> order[k].index in results
    ensures Fits(st, order, results)
  {
    var ts := Tasks(st, kind);
    forall k | 0 <= k < |order| ensures order[k].index < |st.rows| {
      assert order[k] in multiset(ts);
      var l :| 0 <= l < |ts| && ts[l] == order[k];
    }
  }

  // ---------------------------------------------------------------------------
  // Resuming

  /** A restart never fetches again a row whose fetch succeeded before the last checkpoint was saved. */
  lemma ResumeSkipsDone(sheet: State, c: Checkpoint, kind: Kind, i: nat)
    requires i in (if kind == Answers then c.answerProgress else c.contextProgress)
    ensures forall k :: 0 <= k < |Tasks(Merged(sheet, c), kind)| ==> Tasks(Merged(sheet, c), kind)[k].index != i
  {
    var m := Merged(sheet, c);
    TaskListSound(m.rows, Progress(m, kind), kind);
  }

  /** Reloading the saved state into the original sheet brings back every fetched value and all progress. */
  lemma ResumeRestores(st: State, sheet: seq<Row>, i: nat)
    requires |sheet| == |st.rows| && i < |sheet|
    ensures var m := Merged(State(sheet, {}, {}), SnapshotOf(st));
      && st.answerProgress <= m.answerProgress && st.contextProgress <= m.contextProgress
      && (!Blank(st.rows[i].answer) ==> m.rows[i].answer == st.rows[i].answer && m.rows[i].reference == st.rows[i].reference)
      && (!Blank(st.rows[i].contexts) ==> m.rows[i].contexts == st.rows[i].contexts)
  {
    MergedRows(State(sheet, {}, {}), SnapshotOf(st), i);
  }

  // ---------------------------------------------------------------------------
  // The session

  /** `process_method2_file` from the moment the sheet is read: the sheet, the progress sets, the counters and the state directory. */
  class Session {
    const hash: string
    var rows: seq<Row>
    var answerProgress: set<nat>
    var contextProgress: set<nat>
    var completed: nat
    var successfulAnswers: nat
    var successfulContexts: nat
    var store: Store
    /** How the state directory looks to the sweep at the session's `n`-th save. */
    const views: nat -> SweepView
    /** Every checkpoint written by this session, oldest first. */
    var history: seq<Checkpoint>

    function Current(): State
      reads this
    {
      State(rows, answerProgress, contextProgress)
    }

    /** The state directory holds this session's latest checkpoint once it has saved one. */
    predicate Valid()
      reads this
    {
      history != [] ==> Load(store, hash) == Some(history[|history| - 1])
    }

    constructor (hash: string, rows: seq<Row>, store: Store, views: nat -> SweepView)
      ensures this.hash == hash && this.rows == rows && this.store == store && this.views == views
      ensures answerProgress == {} && contextProgress == {} && history == []
      ensures completed == 0 && successfulAnswers == 0 && successfulContexts == 0
      ensures Valid()
    {
      this.hash := hash;
      this.rows := rows;
      this.store := store;
      this.views := views;
      answerProgress, contextProgress := {}, {};
      completed, successfulAnswers, successfulContexts := 0, 0, 0;
      history := [];
    }

    /** `save_processing_state(file_hash, df, answer_progress, context_progress)`. */
    method SaveState()
      modifies this
      ensures store == Save(old(store), views(|old(history)|), hash, SnapshotOf(Current()), Written).0
      ensures history == old(history) + [SnapshotOf(Current())]
      ensures Current() == old(Current()) && completed == old(completed)
      ensures successfulAnswers == old(successfulAnswers) && successfulContexts == old(successfulContexts)
      ensures Valid()
    {
      var snap := SnapshotOf(Current());
      store := Save(store, views(|history|), hash, snap, Written).0;
      LoadAfterSave(old(store), views(|old(history)|), hash, snap);
      history := history + [snap];
    }

    /** The merge loop over the saved rows. */
    method MergeCheckpoint(c: Checkpoint)
      modifies this
      ensures Current() == Merged(old(Current()), c)
      ensures store == old(store) && history == old(history) && completed == old(completed)
      ensures successfulAnswers == old(successfulAnswers) && successfulContexts == old(successfulContexts)
    {
      ghost var st0 := Current();
      ghost var s0, h0, n0, a0, c0 := store, history, completed, successfulAnswers, successfulContexts;
      answerProgress := c.answerProgress;
      contextProgress := c.contextProgress;
      var idx := 0;
      while idx < |c.records|
        invariant 0 <= idx <= |c.records|
        invariant |rows| == |st0.rows|
        invariant forall i :: 0 <= i < |rows| && i < idx ==> rows[i] == MergeRow(st0.rows[i], c.records[i])
        invariant forall i :: idx <= i < |rows| ==> rows[i] == st0.rows[i]
        invariant answerProgress == c.answerProgress + FilledBelow(c.records[..idx], |st0.rows|, Answers)
        invariant contextProgress == c.contextProgress + FilledBelow(c.records[..idx], |st0.rows|, Contexts)
        invariant store == s0 && history == h0 && completed == n0
        invariant successfulAnswers == a0 && successfulContexts == c0
      {
        ProgressStep(c.answerProgress, c.records, |rows|, Answers, idx, answerProgress);
        ProgressStep(c.contextProgress, c.records, |rows|, Contexts, idx, contextProgress);
        MergeRecord(idx, c.records[idx]);
        idx := idx + 1;
      }
      assert c.records[..idx] == c.records;
      assert rows == Merged(st0, c).rows;
    }

    /** The merge loop's body: saved record `idx` merged into row `idx`, if the sheet has that row. */
    method MergeRecord(idx: nat, rec: Record)
      modifies this
      ensures idx < |old(rows)| ==> rows == old(rows)[idx := MergeRow(old(rows)[idx], rec)]
      ensures idx >= |old(rows)| ==> rows == old(rows)
      ensures answerProgress
        == old(answerProgress) + (if idx < |old(rows)| && !Blank(RecordField(rec, Answers)) then {idx} else {})
      ensures contextProgress
        == old(contextProgress) + (if idx < |old(rows)| && !Blank(RecordField(rec, Contexts)) then {idx} else {})
      ensures store == old(store) && history == old(history) && completed == old(completed)
      ensures successfulAnswers == old(successfulAnswers) && successfulContexts == old(successfulContexts)
    {
      if idx < |rows| {
        rows := rows[idx := MergeRow(rows[idx], rec)];
        answerProgress := answerProgress + (if !Blank(rec.answer) then {idx} else {});
        contextProgress := contextProgress + (if !Blank(rec.contexts) then {idx} else {});
      }
    }

    /** One finished future of a kind's loop: a successful result is written and counted. */
    method Finish(kind: Kind, t: Task, o: Outcome)
      requires t.index < |rows|
      modifies this
      ensures Current() == Apply(old(Current()), kind, t, o)
      ensures completed == old(completed) + 1
      ensures successfulAnswers == old(successfulAnswers) + (if kind == Answers && o.Returned? && o.success then 1 else 0)
      ensures successfulContexts == old(successfulContexts) + (if kind == Contexts && o.Returned? && o.success then 1 else 0)
      ensures store == old(store) && history == old(history)
    {
      if o.Returned? && o.success {
        match kind {
          case Answers =>
            rows := rows[t.index := WriteBack(rows[t.index], kind, o)];
            answerProgress := answerProgress + {t.index};
            successfulAnswers := successfulAnswers + 1;
          case Contexts =>
            rows := rows[t.index := WriteBack(rows[t.index], kind, o)];
            contextProgress := contextProgress + {t.index};
            successfulContexts := successfulContexts + 1;
        }
      }
      completed := completed + 1;
    }

    /**
     * `process_method2_file` from the read sheet to the last save: load and merge the
     * checkpoint, build both task lists, run the answer loop, then the passage loop, and
     * save once more. Each loop's tasks finish in an order the pool chooses.
     */
    method Process(answerOrder: seq<Task>, answerResults: map<nat, Outcome>,
                   contextOrder: seq<Task>, contextResults: map<nat, Outcome>)
      requires Valid()
      requires multiset(answerOrder) == multiset(Tasks(Resumed(Current(), Load(store, hash)), Answers))
      requires multiset(contextOrder) == multiset(Tasks(Resumed(Current(), Load(store, hash)), Contexts))
      requires forall k :: 0 <= k < |answerOrder| ==> answerOrder[k].index in answerResults
      requires forall k :: 0 <= k < |contextOrder| ==> contextOrder[k].index in contextResults
      modifies this
      ensures Fits(Resumed(old(Current()), Load(old(store), hash)), answerOrder, answerResults)
      ensures Fits(Resumed(old(Current()), Load(old(store), hash)), contextOrder, contextResults)
      ensures Current() == Run(Run(Resumed(old(Current()), Load(old(store), hash)), Answers, answerOrder, answerResults),
                               Contexts, contextOrder, contextResults)
      ensures completed == old(completed) + |answerOrder| + |contextOrder|
      ensures successfulAnswers == old(successfulAnswers) + Count(answerOrder, SucceededIn(answerResults))
      ensures successfulContexts == old(successfulContexts) + Count(contextOrder, SucceededIn(contextResults))
      ensures |history| == |old(history)| + |answerOrder| / 10 + |contextOrder| / 10 + 1
      ensures Load(store, hash) == Some(SnapshotOf(Current()))
    {
      var previous := Load(store, hash);
      if previous.Some? {
        MergeCheckpoint(previous.value);
      }
      var answerTasks, contextTasks := BuildTasks(rows, answerProgress, contextProgress);
      ghost var m := Current();
      TasksFit(m, Answers, answerOrder, answerResults);
      TasksFit(m, Contexts, contextOrder, contextResults);
      RunPhase(Answers, answerOrder, answerResults);
      SavedAfterSpec(m, Answers, answerOrder, answerResults, |answerOrder|);
      ghost var a := Current();
      assert Fits(a, contextOrder, contextResults);
      RunPhase(Contexts, contextOrder, contextResults);
      SavedAfterSpec(a, Contexts, contextOrder, contextResults, |contextOrder|);
      SaveState();
    }

    /** Completion `k` of a kind's loop, in terms of the run over the first `k` completions. */
    method Advance(kind: Kind, order: seq<Task>, results: map<nat, Outcome>, k: nat, ghost st0: State)
      requires Fits(st0, order, results) && k < |order|
      requires Current() == Run(st0, kind, order[..k], results)
      modifies this
      ensures Current() == Run(st0, kind, order[..k + 1], results)
      ensures completed == old(completed) + 1
      ensures successfulAnswers == old(successfulAnswers)
        + (if kind == Answers then Count(order[..k + 1], SucceededIn(results)) - Count(order[..k], SucceededIn(results)) else 0)
      ensures successfulContexts == old(successfulContexts)
        + (if kind == Contexts then Count(order[..k + 1], SucceededIn(results)) - Count(order[..k], SucceededIn(results)) else 0)
      ensures store == old(store) && history == old(history)
    {
      var t := order[k];
      RunStep(st0, kind, order, results, k);
      CountStep(order, results, k);
      Finish(kind, t, results[t.index]);
    }

    /** One kind's result loop: finish each task in completion order and save after every tenth. */
    method RunPhase(kind: Kind, order: seq<Task>, results: map<nat, Outcome>)
      requires Fits(Current(), order, results)
      requires Valid()
      modifies this
      ensures Current() == Run(old(Current()), kind, order, results)
      ensures completed == old(completed) + |order|
      ensures successfulAnswers
        == old(successfulAnswers) + (if kind == Answers then Count(order, SucceededIn(results)) else 0)
      ensures successfulContexts
        == old(successfulContexts) + (if kind == Contexts then Count(order, SucceededIn(results)) else 0)
      ensures history == old(history) + SavedAfter(old(Current()), kind, order, results, |order|)
      ensures Valid()
    {
      ghost var st0 := Current();
      ghost var h0, n0, a0, c0 := history, completed, successfulAnswers, successfulContexts;
      var saveCounter := 0;
      var k := 0;
      while k < |order|
        invariant 0 <= k <= |order| && saveCounter == k
        invariant Fits(st0, order, results) && |rows| == |st0.rows|
        invariant Current() == Run(st0, kind, order[..k], results)
        invariant completed == n0 + k
        invariant successfulAnswers
          == a0 + (if kind == Answers then Count(order[..k], SucceededIn(results)) else 0)
        invariant successfulContexts
          == c0 + (if kind == Contexts then Count(order[..k], SucceededIn(results)) else 0)
        invariant history == h0 + SavedAfter(st0, kind, order, results, k)
        invariant Valid()
      {
        Advance(kind, order, results, k, st0);
        saveCounter := saveCounter + 1;
        k := k + 1;
        if saveCounter % 10 == 0 {
          SaveState();
          SavedAfterSave(st0, kind, order, results, k, h0);
        } else {
          SavedAfterSkip(st0, kind, order, results, k);
        }
      }
      assert order[..k] == order;
    }
  }

  /** The checkpoints a kind's loop has saved after its first `k` completions: one after every tenth. */
  function SavedAfter(st: State, kind: Kind, order: seq<Task>, results: map<nat, Outcome>, k: nat): seq<Checkpoint>
    requires Fits(st, order, results) && k <= |order|
  {
    if k == 0 then []
    else
      SavedAfter(st, kind, order, results, k - 1)
        + (if k % 10 == 0 then [SnapshotOf(Run(st, kind, order[..k], results))] else [])
  }

  /** A tenth completion adds the checkpoint of the run so far. */
  lemma SavedAfterSave(st: State, kind: Kind, order: seq<Task>, results: map<nat, Outcome>, k: nat, h0: seq<Checkpoint>)
    requires Fits(st, order, results) && 0 < k <= |order| && k % 10 == 0
    ensures h0 + SavedAfter(st, kind, order, results, k)
      == h0 + SavedAfter(st, kind, order, results, k - 1) + [SnapshotOf(Run(st, kind, order[..k], results))]
  {
  }

  /** Any other completion adds none. */
  lemma SavedAfterSkip(st: State, kind: Kind, order: seq<Task>, results: map<nat, Outcome>, k: nat)
    requires Fits(st, order, results) && 0 < k <= |order| && k % 10 != 0
    ensures SavedAfter(st, kind, order, results, k) == SavedAfter(st, kind, order, results, k - 1)
  {
  }


  /**
   * After `k` completions the loop has saved `k / 10` checkpoints, and the `j`-th holds
   * the state after the first `10 * (j + 1)` completions.
   */
  lemma {:induction false} SavedAfterSpec(st: State, kind: Kind, order: seq<Task>, results: map<nat, Outcome>, k: nat)
    requires Fits(st, order, results) && k <= |order|
    ensures |SavedAfter(st, kind, order, results, k)| == k / 10
    ensures forall j :: 0 <= j < k / 10 ==>
      SavedAfter(st, kind, order, results, k)[j] == SnapshotOf(Run(st, kind, order[..10 * (j + 1)], results))
  {
    if k > 0 {
      SavedAfterSpec(st, kind, order, results, k - 1);
      if k % 10 == 0 {
        assert k / 10 == (k - 1) / 10 + 1 && 10 * ((k - 1) / 10 + 1) == k;
      } else {
        assert k / 10 == (k - 1) / 10;
      }
    }
  }

  lemma CountStep(order: seq<Task>, results: map<nat, Outcome>, k: nat)
    requires k < |order|
    ensures Count(order[..k + 1], SucceededIn(results))
      == Count(order[..k], SucceededIn(results)) + (if Succeeded(results, order[k].index) then 1 else 0)
  {
    assert order[..k + 1][..k] == order[..k];
  }

  /** The `k`-th completion extends the run over the first `k` tasks by one step. */
  lemma RunStep(st: State, kind: Kind, order: seq<Task>, results: map<nat, Outcome>, k: nat)
    requires Fits(st, order, results) && k < |order|
    ensures Run(st, kind, order[..k + 1], results)
      == Apply(Run(st, kind, order[..k], results), kind, order[k], results[order[k].index])
  {
    assert order[..k + 1][..k] == order[..k];
  }
}

=== FILE: ragas_formats.dfy ===
/**
 * Converting the answered question sheet into evaluation samples
 * (`{'question', 'answer', 'contexts', 'ground_truth'}`): the two dataset
 * formats, the fallback contexts taken from a long standard answer, and the
 * reading of a reference list (`- name.ext (相关度: score)` lines) into the
 * names of its three best-scored documents.
 */
module RagasFormats {
  import opened Wrappers
  import opened Text
  import opened Seqs
  import opened Table
  import opened ContextsColumn
  import AnswerCleaning
  import Alignment

  const ScoreWord: string := "相关度"
  const ScoreMarker: string := " (相关度: "
  const SourcePrefix: string := "来源文档: "

  // ---------------------------------------------------------------------------
  // The reference pattern  - (.+?\.(?:xlsx|doc|pdf)) \(相关度: ([\d.]+)\)

  /** One match: the document name and the score text. */
  datatype DocMatch = DocMatch(name: string, score: string)

  /** The extension after the dot at `m`, the alternatives tried in order. */
  function ExtensionEnd(s: string, m: nat): (r: Option<nat>)
    ensures r.Some? ==> m + 4 <= r.value <= |s|
  {
    if OccursAt(s, "xlsx", m + 1) then Some(m + 5)
    else if OccursAt(s, "doc", m + 1) then Some(m + 4)
    else if OccursAt(s, "pdf", m + 1) then Some(m + 4)
    else None
  }

  predicate ScoreChar(c: char) {
    IsDigit(c) || c == '.'
  }

  /** The greedy `[\d.]+` from `p`: the end of the run of digits and dots. */
  function ScoreRunEnd(s: string, p: nat): (r: nat)
    requires p <= |s|
    ensures p <= r <= |s|
    ensures forall k :: p <= k < r ==> ScoreChar(s[k])
    ensures r < |s| ==> !ScoreChar(s[r])
    decreases |s| - p
  {
    if p < |s| && ScoreChar(s[p]) then ScoreRunEnd(s, p + 1) else p
  }

  /**
   * The rest of the pattern with the name's final dot at `m`: the extension,
   * the score marker, the score and `)`.  The result is the extension's end
   * and the score's end.  Giving back digits of the score cannot help, since
   * `)` is neither a digit nor a dot.
   */
  function TailAt(s: string, m: nat): (r: Option<(nat, nat)>)
    requires m < |s|
    ensures r.Some? ==> m + 4 <= r.value.0 && r.value.0 + |ScoreMarker| < r.value.1 < |s|
    ensures r.Some? ==> s[r.value.1] == ')'
  {
    if s[m] != '.' then None
    else match ExtensionEnd(s, m)
      case None => None
      case Some(x) =>
        if OccursAt(s, ScoreMarker, x) then
          var e := ScoreRunEnd(s, x + |ScoreMarker|);
          if x + |ScoreMarker| < e < |s| && s[e] == ')' then Some((x, e)) else None
        else None
  }

  /** The lazy `.+?` of the name: the first dot, from `m` on, after which the rest fits. */
  function NameFrom(s: string, m: nat): (r: Option<(nat, nat)>)
    requires m <= |s|
    ensures r.Some? ==> m + 4 <= r.value.0 && r.value.0 + |ScoreMarker| < r.value.1 < |s|
    decreases |s| - m
  {
    if m == |s| then None
    else match TailAt(s, m)
      case Some(t) => Some(t)
      case None => if s[m] != '\n' then NameFrom(s, m + 1) else None
  }

  /** A match starting at `i`, and where it ends. */
  function DocMatchAt(s: string, i: nat): (r: Option<(DocMatch, nat)>)
    ensures r.Some? ==> i < r.value.1 <= |s|
  {
    if OccursAt(s, "- ", i) && i + 2 < |s| && s[i + 2] != '\n' then
      match NameFrom(s, i + 3)
      case Some((x, e)) => Some((DocMatch(s[i + 2..x], s[x + |ScoreMarker|..e]), e + 1))
      case None => None
    else None
  }

  /** `re.findall` from `i`: every non-overlapping match, left to right. */
  function FindDocs(s: string, i: nat): (r: seq<DocMatch>)
    decreases |s| - i
  {
    if i >= |s| then []
    else match DocMatchAt(s, i)
      case Some((d, e)) => [d] + FindDocs(s, e)
      case None => FindDocs(s, i + 1)
  }

  // ---------------------------------------------------------------------------
  // float(score)

  function DigitValue(c: char): nat {
    if IsDigit(c) then c as int - '0' as int else 0
  }

  /** The number a run of decimal digits denotes. */
  function DigitsValue(t: string): nat {
    if t == [] then 0 else 10 * DigitsValue(t[..|t| - 1]) + DigitValue(t[|t| - 1])
  }

  function Pow10(k: nat): (r: nat)
    ensures r >= 1
  {
    if k == 0 then 1 else 10 * Pow10(k - 1)
  }

  /** At most one dot in `t`. */
  predicate OneDotAtMost(t: string) {
    forall a, b :: 0 <= a < b < |t| && t[a] == '.' ==> t[b] != '.'
  }

  /**
   * `float(t)` on a run of digits and dots, as an exact decimal; `None` is the
   * `ValueError` that a second dot or a missing digit raises.
   */
  function ParseScore(t: string): (r: Option<real>)
  {
    var d := CharFrom(t, '.', 0);
    if d == |t| then
      if t == [] then None else Some(DigitsValue(t) as real)
    else
      var whole := t[..d];
      var frac := t[d + 1..];
      if CharFrom(t, '.', d + 1) < |t| || |whole| + |frac| == 0 then None
      else Some(DigitsValue(whole) as real + DigitsValue(frac) as real / Pow10(|frac|) as real)
  }

  /** A score text parses exactly when it has at most one dot and at least one digit. */
  lemma ParseScoreAccepts(t: string)
    requires forall k :: 0 <= k < |t| ==> ScoreChar(t[k])
    ensures ParseScore(t).Some? <==> OneDotAtMost(t) && exists k :: 0 <= k < |t| && IsDigit(t[k])
  {
    var d := CharFrom(t, '.', 0);
    if d < |t| {
      var d2 := CharFrom(t, '.', d + 1);
      if d2 < |t| {
        assert !OneDotAtMost(t) by { assert t[d] == '.' && t[d2] == '.'; }
      } else {
        if |t[..d]| + |t[d + 1..]| == 0 {
          assert |t| == 1;
        } else if d > 0 {
          assert IsDigit(t[0]);
        } else {
          assert IsDigit(t[d + 1]);
        }
      }
    } else if t != [] {
      assert IsDigit(t[0]);
    }
  }

  // ---------------------------------------------------------------------------
  // sorted(matches, key=lambda x: float(x[1]), reverse=True)[:3]

  datatype Ranked = Ranked(name: string, value: real)

  /** Every score parsed, or `None` when one of them raises. */
  function ScoreAll(ms: seq<DocMatch>): (r: Option<seq<Ranked>>)
    ensures r.Some? ==> |r.value| == |ms|
    ensures r.Some? ==> forall k :: 0 <= k < |ms| ==>
      r.value[k].name == ms[k].name && ParseScore(ms[k].score) == Some(r.value[k].value)
    ensures r.None? <==> exists k :: 0 <= k < |ms| && ParseScore(ms[k].score).None?
  {
    if ms == [] then Some([])
    else match (ParseScore(ms[0].score), ScoreAll(ms[1..]))
      case (Some(v), Some(rest)) => Some([Ranked(ms[0].name, v)] + rest)
      case (Some(_), None) =>
        assert exists k :: 0 <= k < |ms[1..]| && ParseScore(ms[1..][k].score).None?;
        None
      case (None, _) => None
  }

  predicate Descending(s: seq<Ranked>) {
    forall i, j :: 0 <= i < j < |s| ==> s[j].value <= s[i].value
  }

  /** Insert `x` before the first element that does not score higher. */
  function InsertDesc(x: Ranked, s: seq<Ranked>): (r: seq<Ranked>)
    ensures multiset(r) == multiset(s) + multiset{x}
    ensures |r| == |s| + 1
  {
    if s == [] || s[0].value <= x.value then [x] + s
    else
      assert s == [s[0]] + s[1..];
      [s[0]] + InsertDesc(x, s[1..])
  }

  /** A stable sort, highest value first. */
  function SortDesc(s: seq<Ranked>): (r: seq<Ranked>)
    ensures multiset(r) == multiset(s)
    ensures |r| == |s|
  {
    if s == [] then []
    else
      assert s == [s[0]] + s[1..];
      InsertDesc(s[0], SortDesc(s[1..]))
  }

  /** Inserting keeps every value under a bound that `x` and `s` are under. */
  lemma {:induction false} InsertDescBounded(x: Ranked, s: seq<Ranked>, b: real)
    requires x.value <= b && forall k :: 0 <= k < |s| ==> s[k].value <= b
    ensures forall k :: 0 <= k < |InsertDesc(x, s)| ==> InsertDesc(x, s)[k].value <= b
  {
    if s != [] && x.value < s[0].value {
      InsertDescBounded(x, s[1..], b);
    }
  }

  lemma {:induction false} InsertDescSorted(x: Ranked, s: seq<Ranked>)
    requires Descending(s)
    ensures Descending(InsertDesc(x, s))
  {
    if s != [] && x.value < s[0].value {
      InsertDescSorted(x, s[1..]);
      InsertDescBounded(x, s[1..], s[0].value);
    }
  }

  lemma {:induction false} SortDescSorted(s: seq<Ranked>)
    ensures Descending(SortDesc(s))
  {
    if s != [] {
      SortDescSorted(s[1..]);
      InsertDescSorted(s[0], SortDesc(s[1..]));
    }
  }

  /** The elements scoring exactly `v`, in order. */
  function Tied(s: seq<Ranked>, v: real): (r: seq<Ranked>)
  {
    if s == [] then [] else (if s[0].value == v then [s[0]] else []) + Tied(s[1..], v)
  }

  lemma {:induction false} InsertDescStable(x: Ranked, s: seq<Ranked>, v: real)
    ensures Tied(InsertDesc(x, s), v) == Tied([x] + s, v)
  {
    if s != [] && x.value < s[0].value {
      InsertDescStable(x, s[1..], v);
      InsertDescStep(x, s, v);
    } else {
      TiedCons(x, s, v);
    }
  }

  /** Inserting past a higher-scored head keeps the tied order when inserting into the tail does. */
  lemma InsertDescStep(x: Ranked, s: seq<Ranked>, v: real)
    requires s != [] && x.value < s[0].value
    requires Tied(InsertDesc(x, s[1..]), v) == Tied([x] + s[1..], v)
    ensures Tied(InsertDesc(x, s), v) == Tied([x] + s, v)
  {
    var rest := s[1..];
    assert s == [s[0]] + rest;
    assert InsertDesc(x, s) == [s[0]] + InsertDesc(x, rest);
    TiedSwap(s[0], x, InsertDesc(x, rest), rest, v);
  }

  /** Two elements of different scores can trade places without changing the tied elements. */
  lemma TiedSwap(a: Ranked, x: Ranked, ins: seq<Ranked>, t: seq<Ranked>, v: real)
    requires a.value != x.value && Tied(ins, v) == Tied([x] + t, v)
    ensures Tied([a] + ins, v) == Tied([x] + ([a] + t), v)
  {
    TiedCons(a, ins, v);
    TiedCons(x, t, v);
    TiedCons(x, [a] + t, v);
    TiedCons(a, t, v);
    if a.value == v {
      assert Tied([a] + ins, v) == [a] + Tied(t, v);
    } else {
      assert Tied([a] + ins, v) == Tied([x] + t, v);
    }
  }

  /** The tied elements of `[a] + t`: `a` when it is tied, then those of `t`. */
  lemma TiedCons(a: Ranked, t: seq<Ranked>, v: real)
    ensures Tied([a] + t, v) == (if a.value == v then [a] else []) + Tied(t, v)
  {
    assert ([a] + t)[1..] == t;
  }

  /** The sort keeps elements of equal score in their original order. */
  lemma {:induction false} SortDescStable(s: seq<Ranked>, v: real)
    ensures Tied(SortDesc(s), v) == Tied(s, v)
  {
    if s != [] {
      SortDescStable(s[1..], v);
      InsertDescStable(s[0], SortDesc(s[1..]), v);
      assert ([s[0]] + SortDesc(s[1..]))[1..] == SortDesc(s[1..]);
    }
  }

  /** The three best-scored documents (fewer when there are fewer). */
  function Top(ranked: seq<Ranked>): (r: seq<Ranked>)
    ensures |r| <= 3 && |r| <= |ranked|
  {
    var sorted := SortDesc(ranked);
    if |sorted| <= 3 then sorted else sorted[..3]
  }

  /**
   * The top list is in descending order, has `min(3, n)` entries drawn from
   * the input, and scores at least as high as everything it leaves out.
   */
  lemma TopSpec(ranked: seq<Ranked>)
    ensures |Top(ranked)| == if |ranked| < 3 then |ranked| else 3
    ensures Descending(Top(ranked))
    ensures multiset(Top(ranked)) <= multiset(ranked)
    ensures forall x, y :: x in multiset(ranked) - multiset(Top(ranked)) && y in Top(ranked) ==> x.value <= y.value
  {
    var sorted := SortDesc(ranked);
    SortDescSorted(ranked);
    var t := Top(ranked);
    var rest := sorted[|t|..];
    assert sorted == t + rest;
    HeadOfDescending(sorted, t, rest);
    forall x, y | x in multiset(ranked) - multiset(t) && y in t ensures x.value <= y.value {
      LeftOut(sorted, t, rest, x, y);
    }
  }

  /** The head of a descending list cut in two is descending and drawn from the list. */
  lemma HeadOfDescending(sorted: seq<Ranked>, t: seq<Ranked>, rest: seq<Ranked>)
    requires Descending(sorted) && sorted == t + rest
    ensures Descending(t) && multiset(t) <= multiset(sorted)
  {
    assert multiset(sorted) == multiset(t) + multiset(rest);
    forall i, j | 0 <= i < j < |t| ensures t[j].value <= t[i].value {
      assert t[i] == sorted[i] && t[j] == sorted[j];
    }
  }

  /** In a descending list cut in two, what the tail holds scores no higher than the head. */
  lemma LeftOut(sorted: seq<Ranked>, t: seq<Ranked>, rest: seq<Ranked>, x: Ranked, y: Ranked)
    requires Descending(sorted) && sorted == t + rest
    requires x in multiset(sorted) - multiset(t) && y in t
    ensures x.value <= y.value
  {
    assert multiset(sorted) == multiset(t) + multiset(rest);
    assert x in multiset(rest);
    var i :| 0 <= i < |rest| && rest[i] == x;
    var j :| 0 <= j < |t| && t[j] == y;
    assert sorted[|t| + i] == x && sorted[j] == y;
  }

  function Sources(top: seq<Ranked>): (r: seq<string>)
    ensures |r| == |top|
    ensures forall k :: 0 <= k < |top| ==> r[k] == SourcePrefix + top[k].name
  {
    if top == [] then [] else [SourcePrefix + top[0].name] + Sources(top[1..])
  }

  // ---------------------------------------------------------------------------
  // extract_contexts_from_reference

  /** A line the fallback keeps: not blank, and no score in it. */
  predicate KeptLine(line: string) {
    !IsBlank(line) && !Contains(line, ScoreWord)
  }

  /** The stripped lines that are not blank and do not mention a score. */
  function KeepLines(lines: seq<string>): (r: seq<string>)
    ensures |r| <= |lines|
  {
    if lines == [] then []
    else (if KeptLine(lines[0]) then [Strip(lines[0])] else []) + KeepLines(lines[1..])
  }

  /** Every kept line is the stripped form of a line that qualifies. */
  lemma {:induction false} KeepLinesSpec(lines: seq<string>)
    ensures forall x :: x in KeepLines(lines) ==> exists line :: line in lines && KeptLine(line) && x == Strip(line)
  {
    if lines != [] {
      KeepLinesSpec(lines[1..]);
      forall x | x in KeepLines(lines) ensures exists line :: line in lines && KeptLine(line) && x == Strip(line) {
        if x !in KeepLines(lines[1..]) {
          assert KeptLine(lines[0]) && x == Strip(lines[0]);
        } else {
          var line :| line in lines[1..] && KeptLine(line) && x == Strip(line);
          assert line in lines;
        }
      }
    }
  }

  /** The first two lines of the stripped text (the `[:3]` after them never cuts). */
  function FirstLines(text: string): (r: seq<string>)
    ensures |r| <= 2
  {
    var lines := Split(Strip(text), "\n");
    if |lines| <= 2 then lines else lines[..2]
  }

  /**
   * `extract_contexts_from_reference` on a cell, `None` being NaN.  The result
   * is `None` when `float` raises on a matched score.
   */
  function ExtractContextsFromReference(cell: Option<string>): (r: Option<seq<string>>)
  {
    if cell.None? || cell.value == "" then Some([NoReference])
    else
      var ms := FindDocs(cell.value, 0);
      if ms != [] then
        match ScoreAll(ms)
        case None => None
        case Some(ranked) => Some(Sources(Top(ranked)))
      else
        var lines := KeepLines(FirstLines(cell.value));
        Some(if lines != [] then lines else [Unclear])
  }

  /** Empty input gives the no-reference marker, a bad score raises, and otherwise the list is never empty. */
  lemma ReferenceOutcome(cell: Option<string>)
    ensures cell.None? || cell == Some("") ==> ExtractContextsFromReference(cell) == Some([NoReference])
    ensures ExtractContextsFromReference(cell).None? <==>
      cell.Some? && cell.value != "" &&
      exists k :: 0 <= k < |FindDocs(cell.value, 0)| && ParseScore(FindDocs(cell.value, 0)[k].score).None?
    ensures ExtractContextsFromReference(cell).Some? ==> ExtractContextsFromReference(cell).value != []
  {
    if cell.Some? && cell.value != "" {
      var ms := FindDocs(cell.value, 0);
      var r := ExtractContextsFromReference(cell);
      if ms == [] {
        assert r.Some? && r.value != [];
      } else {
        match ScoreAll(ms)
        case None =>
          assert r.None?;
          var k :| 0 <= k < |ms| && ParseScore(ms[k].score).None?;
          assert 0 <= k < |FindDocs(cell.value, 0)| && ParseScore(FindDocs(cell.value, 0)[k].score).None?;
        case Some(ranked) =>
          TopSpec(ranked);
          assert r == Some(Sources(Top(ranked)));
      }
    }
  }

  /**
   * With matches whose scores all parse, the result names the best-scored
   * documents, at most three, highest first, ties in text order, none left out
   * that scores higher than one kept.
   */
  lemma ReferenceRanked(text: string)
    requires text != "" && FindDocs(text, 0) != [] && ScoreAll(FindDocs(text, 0)).Some?
    ensures var ranked := ScoreAll(FindDocs(text, 0)).value;
      && ExtractContextsFromReference(Some(text)) == Some(Sources(Top(ranked)))
      && |Top(ranked)| == (if |ranked| < 3 then |ranked| else 3)
      && Descending(Top(ranked))
      && multiset(Top(ranked)) <= multiset(ranked)
      && (forall x, y :: x in multiset(ranked) - multiset(Top(ranked)) && y in Top(ranked) ==> x.value <= y.value)
      && (forall v :: Tied(SortDesc(ranked), v) == Tied(ranked, v))
  {
    var ranked := ScoreAll(FindDocs(text, 0)).value;
    TopSpec(ranked);
    forall v ensures Tied(SortDesc(ranked), v) == Tied(ranked, v) {
      SortDescStable(ranked, v);
    }
  }

  /** Without a match, the result is made of stripped first lines that mention no score, or the unclear marker. */
  lemma ReferenceFallback(text: string)
    requires text != "" && FindDocs(text, 0) == []
    ensures ExtractContextsFromReference(Some(text)) == Some([Unclear])
         || (&& 1 <= |ExtractContextsFromReference(Some(text)).value| <= 2
             && ExtractContextsFromReference(Some(text)).value == KeepLines(FirstLines(text))
             && forall x :: x in KeepLines(FirstLines(text)) ==>
                  exists line :: line in FirstLines(text) && KeptLine(line) && x == Strip(line))
  {
    KeepLinesSpec(FirstLines(text));
  }

  // ---------------------------------------------------------------------------
  // Fallback contexts from the standard answer

  predicate Separator(c: char) {
    c == '；' || c == ';' || c == '。'
  }

  /** The first separator at or after `i`, or `|s|`. */
  function SeparatorFrom(s: string, i: nat): (r: nat)
    requires i <= |s|
    ensures i <= r <= |s|
    ensures forall k :: i <= k < r ==> !Separator(s[k])
    ensures r < |s| ==> Separator(s[r])
    decreases |s| - i
  {
    if i == |s| || Separator(s[i]) then i else SeparatorFrom(s, i + 1)
  }

  /** `re.split(r'[；;。]', s[i..])`. */
  function Segments(s: string, i: nat): (r: seq<string>)
    requires i <= |s|
    ensures |r| >= 1
    ensures forall k, c :: 0 <= k < |r| && 0 <= c < |r[k]| ==> !Separator(r[k][c])
    decreases |s| - i
  {
    var j := SeparatorFrom(s, i);
    var seg := s[i..j];
    assert forall c :: 0 <= c < |seg| ==> !Separator(seg[c]) by {
      forall c | 0 <= c < |seg| ensures !Separator(seg[c]) { assert seg[c] == s[i + c]; }
    }
    if j == |s| then [seg] else [seg] + Segments(s, j + 1)
  }

  /** The stripped segments that are not blank. */
  function KeepSegments(segs: seq<string>): (r: seq<string>)
    ensures |r| <= |segs|
    ensures forall k :: 0 <= k < |r| ==> r[k] != [] && exists j :: 0 <= j < |segs| && r[k] == Strip(segs[j])
  {
    if segs == [] then []
    else
      var rest := KeepSegments(segs[1..]);
      assert forall k :: 0 <= k < |rest| ==> exists j :: 0 <= j < |segs| && rest[k] == Strip(segs[j]) by {
        forall k | 0 <= k < |rest| ensures exists j :: 0 <= j < |segs| && rest[k] == Strip(segs[j]) {
          var j :| 0 <= j < |segs[1..]| && rest[k] == Strip(segs[1..][j]);
          assert segs[1..][j] == segs[j + 1];
        }
      }
      (if Strip(segs[0]) != [] then [Strip(segs[0])] else []) + rest
  }

  /** Contexts taken from the stripped standard answer when the row has none. */
  function FallbackContexts(standard: string): (r: seq<string>)
  {
    if |standard| > 200 then
      var segs := Segments(standard, 0);
      KeepSegments(if |segs| <= 3 then segs else segs[..3])
    else [standard]
  }

  /**
   * A short answer is its own context; a long one gives at most three
   * non-blank, stripped pieces, none holding a separator.
   */
  lemma FallbackContextsShape(standard: string)
    ensures |standard| <= 200 ==> FallbackContexts(standard) == [standard]
    ensures |standard| > 200 ==>
      var r := FallbackContexts(standard);
      && |r| <= 3
      && forall k :: 0 <= k < |r| ==> !IsBlank(r[k]) && Strip(r[k]) == r[k] && forall c :: 0 <= c < |r[k]| ==> !Separator(r[k][c])
  {
    if |standard| > 200 {
      var segs := Segments(standard, 0);
      var first := if |segs| <= 3 then segs else segs[..3];
      var r := FallbackContexts(standard);
      forall k | 0 <= k < |r|
        ensures !IsBlank(r[k]) && Strip(r[k]) == r[k] && forall c :: 0 <= c < |r[k]| ==> !Separator(r[k][c])
      {
        var j :| 0 <= j < |first| && r[k] == Strip(first[j]);
        StripIdempotent(first[j]);
        StripKeepsNoSeparator(first[j]);
      }
    }
  }

  /** Stripping a piece without separators leaves none in it. */
  lemma StripKeepsNoSeparator(x: string)
    requires forall c :: 0 <= c < |x| ==> !Separator(x[c])
    ensures forall c :: 0 <= c < |Strip(x)| ==> !Separator(Strip(x)[c])
  {
    StripSpec(x);
    var o := StripOffset(x);
    forall c | 0 <= c < |Strip(x)| ensures !Separator(Strip(x)[c]) {
      assert Strip(x)[c] == x[o + c];
    }
  }

  // ---------------------------------------------------------------------------
  // create_format1_ai_answer / create_format2_empty_answer

  /**
   * The cells a converter reads: `问题`, `标准答案`, `AI回答` and `Contexts`;
   * a sheet without a Contexts column reads as NaN there.
   */
  datatype SheetRow = SheetRow(question: Cell, standard: Cell, aiAnswer: Cell, contexts: Cell)

  /** The contexts of a row: its Contexts cell when present, else the standard answer's pieces. */
  function RowContexts(row: SheetRow): seq<string>
    requires row.standard.Some?
  {
    if row.contexts.Some? then ExtractContexts(row.contexts) else FallbackContexts(Strip(row.standard.value))
  }

  /** Format 1: the cleaned AI answer is the answer under evaluation. */
  function Format1Row(row: SheetRow): Option<Alignment.Item> {
    if row.question.None? || row.standard.None? || row.aiAnswer.None? then None
    else Some(Alignment.Item(Strip(row.question.value), AnswerCleaning.CleanAnswer(row.aiAnswer),
                             RowContexts(row), Strip(row.standard.value)))
  }

  /** Format 2: the answer is left empty for the scorer to generate. */
  function Format2Row(row: SheetRow): Option<Alignment.Item> {
    if row.question.None? || row.standard.None? then None
    else Some(Alignment.Item(Strip(row.question.value), "", RowContexts(row), Strip(row.standard.value)))
  }

  /** What a format-1 sample holds, and which rows give one. */
  lemma Format1RowSpec(row: SheetRow)
    ensures Format1Row(row).Some? <==> row.question.Some? && row.standard.Some? && row.aiAnswer.Some?
    ensures Format1Row(row).Some? ==>
      var it := Format1Row(row).value;
      && it.question == Strip(row.question.value)
      && it.groundTruth == Strip(row.standard.value)
      && it.answer == AnswerCleaning.CleanAnswer(row.aiAnswer)
      && |it.answer| <= |row.aiAnswer.value| && Trimmed(it.answer)
      && (row.contexts.Some? ==> it.contexts == ExtractContexts(row.contexts))
      && (row.contexts.None? && |Strip(row.standard.value)| <= 200 ==> it.contexts == [Strip(row.standard.value)])
  {
    if Format1Row(row).Some? {
      AnswerCleaning.CleanAnswerShape(row.aiAnswer);
    }
  }

  /** What a format-2 sample holds, and which rows give one. */
  lemma Format2RowSpec(row: SheetRow)
    ensures Format2Row(row).Some? <==> row.question.Some? && row.standard.Some?
    ensures Format2Row(row).Some? ==>
      var it := Format2Row(row).value;
      && it.question == Strip(row.question.value)
      && it.groundTruth == Strip(row.standard.value)
      && it.answer == ""
      && (row.contexts.Some? ==> it.contexts == ExtractContexts(row.contexts))
      && (row.contexts.None? && |Strip(row.standard.value)| <= 200 ==> it.contexts == [Strip(row.standard.value)])
  {
  }

  /** The contexts of a row are empty only when a long standard answer has no non-blank piece. */
  lemma ContextsNonEmpty(row: SheetRow)
    requires row.standard.Some?
    ensures RowContexts(row) == [] ==> row.contexts.None? && |Strip(row.standard.value)| > 200
  {
  }

  /** The loop of `create_format1_ai_answer`. */
  method CreateFormat1(rows: seq<SheetRow>) returns (data: seq<Alignment.Item>)
    ensures data == FilterMap(rows, Format1Row)
  {
    data := [];
    var i := 0;
    while i < |rows|
      invariant 0 <= i <= |rows|
      invariant data == FilterMap(rows[..i], Format1Row)
    {
      assert rows[..i + 1][..i] == rows[..i];
      var row := rows[i];
      if row.question.Some? && row.standard.Some? && row.aiAnswer.Some? {
        var contexts := RowContexts(row);
        var item := Alignment.Item(Strip(row.question.value), AnswerCleaning.CleanAnswer(row.aiAnswer),
                                   contexts, Strip(row.standard.value));
        data := data + [item];
      }
      i := i + 1;
    }
    assert rows[..i] == rows;
  }

  /** The loop of `create_format2_empty_answer`. */
  method CreateFormat2(rows: seq<SheetRow>) returns (data: seq<Alignment.Item>)
    ensures data == FilterMap(rows, Format2Row)
  {
    data := [];
    var i := 0;
    while i < |rows|
      invariant 0 <= i <= |rows|
      invariant data == FilterMap(rows[..i], Format2Row)
    {
      assert rows[..i + 1][..i] == rows[..i];
      var row := rows[i];
      if row.question.Some? && row.standard.Some? {
        data := data + [Alignment.Item(Strip(row.question.value), "", RowContexts(row), Strip(row.standard.value))];
      }
      i := i + 1;
    }
    assert rows[..i] == rows;
  }

  /**
   * Each converter emits one sample per row that has its required cells, in
   * row order, and skips the rest; format 2 keeps every row format 1 keeps.
   */
  lemma FormatsPartition(rows: seq<SheetRow>)
    ensures |FilterMap(rows, Format1Row)| + Count(rows, Drops(Format1Row)) == |rows|
    ensures |KeptIndices(rows, Format1Row)| == |FilterMap(rows, Format1Row)|
    ensures |FilterMap(rows, Format2Row)| + Count(rows, Drops(Format2Row)) == |rows|
    ensures forall k :: 0 <= k < |FilterMap(rows, Format1Row)| ==>
      KeptIndices(rows, Format1Row)[k] < |rows| && Format1Row(rows[KeptIndices(rows, Format1Row)[k]]) == Some(FilterMap(rows, Format1Row)[k])
    ensures forall k :: 0 <= k < |FilterMap(rows, Format2Row)| ==> FilterMap(rows, Format2Row)[k].answer == ""
    ensures |FilterMap(rows, Format1Row)| <= |FilterMap(rows, Format2Row)|
  {
    FilterMapPartition(rows, Format1Row);
    FilterMapPartition(rows, Format2Row);
    forall k | 0 <= k < |FilterMap(rows, Format1Row)|
      ensures KeptIndices(rows, Format1Row)[k] < |rows| && Format1Row(rows[KeptIndices(rows, Format1Row)[k]]) == Some(FilterMap(rows, Format1Row)[k])
    {
      FilterMapAt(rows, Format1Row, k);
    }
    forall k | 0 <= k < |FilterMap(rows, Format2Row)| ensures FilterMap(rows, Format2Row)[k].answer == "" {
      FilterMapAt(rows, Format2Row, k);
    }
    Format2KeepsMore(rows);
  }

  lemma {:induction false} Format2KeepsMore(rows: seq<SheetRow>)
    ensures |FilterMap(rows, Format1Row)| <= |FilterMap(rows, Format2Row)|
  {
    if rows != [] {
      Format2KeepsMore(rows[..|rows| - 1]);
    }
  }
}

=== FILE: seqs.dfy ===
/** Sequence facts shared by the counters, tallies and de-duplications of the pipeline. */
module Seqs {
  import opened Wrappers

  /** How many elements of `s` satisfy `p`. */
  function Count<T>(s: seq<T>, p: T -> bool): (n: nat)
    ensures n <= |s|
  {
    if s == [] then 0 else Count(s[..|s| - 1], p) + (if p(s[|s| - 1]) then 1 else 0)
  }

  lemma {:induction false} CountAppend<T>(a: seq<T>, b: seq<T>, p: T -> bool)
    ensures Count(a + b, p) == Count(a, p) + Count(b, p)
    decreases |b|
  {
    if b == [] {
      assert a + b == a;
    } else {
      CountAppend(a, b[..|b| - 1], p);
      assert (a + b)[..|a + b| - 1] == a + b[..|b| - 1];
    }
  }

  /** Removing one element of `b` lowers the count by that element's share. */
  lemma CountRemove<T>(b: seq<T>, j: nat, p: T -> bool)
    requires j < |b|
    ensures Count(b, p) == Count(b[..j] + b[j + 1..], p) + (if p(b[j]) then 1 else 0)
  {
    var pre, mid, post := b[..j], [b[j]], b[j + 1..];
    assert b == pre + (mid + post);
    CountAppend(pre, mid + post, p);
    CountAppend(mid, post, p);
    CountAppend(pre, post, p);
    assert Count(mid, p) == (if p(b[j]) then 1 else 0) by { assert mid[..0] == []; }
  }

  lemma MultisetRemove<T>(b: seq<T>, j: nat)
    requires j < |b|
    ensures multiset(b[..j] + b[j + 1..]) == multiset(b) - multiset{b[j]}
  {
    assert b == b[..j] + [b[j]] + b[j + 1..];
  }

  /** Counting does not depend on the order of the elements. */
  lemma {:induction false} CountPermutation<T>(a: seq<T>, b: seq<T>, p: T -> bool)
    requires multiset(a) == multiset(b)
    ensures Count(a, p) == Count(b, p)
    decreases |a|
  {
    if a != [] {
      var init, x := a[..|a| - 1], a[|a| - 1];
      assert a == init + [x];
      assert x in multiset(b);
      var j :| 0 <= j < |b| && b[j] == x;
      var rest := b[..j] + b[j + 1..];
      MultisetRemove(b, j);
      assert multiset(init) == multiset(rest);
      CountPermutation(init, rest, p);
      CountRemove(b, j, p);
    }
  }

  predicate Distinct<T(==)>(s: seq<T>) {
    forall i, j :: 0 <= i < j < |s| ==> s[i] != s[j]
  }

  /** Index of the first occurrence of `x` in `s`. */
  function FirstIndex<T(==)>(s: seq<T>, x: T): (k: nat)
    requires x in s
    ensures k < |s| && s[k] == x && x !in s[..k]
  {
    if s[0] == x then 0 else 1 + FirstIndex(s[1..], x)
  }

  /** The first occurrence of every element of `s`, in order. */
  function Dedup<T(==)>(s: seq<T>): (d: seq<T>)
  {
    if s == [] then []
    else
      var init := s[..|s| - 1];
      Dedup(init) + (if s[|s| - 1] in init then [] else [s[|s| - 1]])
  }

  /** De-duplication keeps every element once and nothing else. */
  lemma {:induction false} DedupElements<T>(s: seq<T>)
    ensures Distinct(Dedup(s))
    ensures forall x :: x in Dedup(s) <==> x in s
    ensures forall i :: 0 <= i < |Dedup(s)| ==> Dedup(s)[i] in s
    decreases |s|
  {
    if s != [] {
      var init := s[..|s| - 1];
      DedupElements(init);
      assert s == init + [s[|s| - 1]];
    }
  }

  /** Appending one element to the input appends it to the output exactly when it is new. */
  lemma DedupSnoc<T>(s: seq<T>, x: T)
    ensures Dedup(s + [x]) == Dedup(s) + (if x in Dedup(s) then [] else [x])
  {
    var t := s + [x];
    assert t[..|t| - 1] == s;
    DedupElements(s);
  }

  /** One more element of `xs` taken after `a`. */
  lemma PrefixSnoc<T>(a: seq<T>, xs: seq<T>, k: nat)
    requires k < |xs|
    ensures a + xs[..k + 1] == (a + xs[..k]) + [xs[k]]
  {
    assert xs[..k + 1] == xs[..k] + [xs[k]];
  }

  /** De-duplication keeps the order of first occurrences. */
  lemma {:induction false} DedupOrder<T>(s: seq<T>, i: nat, j: nat)
    requires i < j < |Dedup(s)|
    ensures Dedup(s)[i] in s && Dedup(s)[j] in s
    ensures FirstIndex(s, Dedup(s)[i]) < FirstIndex(s, Dedup(s)[j])
    decreases |s|
  {
    DedupElements(s);
    var init := s[..|s| - 1];
    DedupElements(init);
    var d := Dedup(s);
    assert s == init + [s[|s| - 1]];
    assert d == Dedup(init) + (if s[|s| - 1] in init then [] else [s[|s| - 1]]);
    assert i < |Dedup(init)| && d[i] == Dedup(init)[i];
    assert Dedup(init)[i] in Dedup(init);
    FirstIndexPrefix(s, init, d[i]);
    if j < |Dedup(init)| {
      DedupOrder(init, i, j);
      FirstIndexPrefix(s, init, d[j]);
    } else {
      assert d[j] == s[|s| - 1] && d[j] !in init;
      FirstIndexUnique(s, d[j], |s| - 1);
    }
  }

  lemma FirstIndexUnique<T>(s: seq<T>, x: T, k: nat)
    requires k < |s| && s[k] == x && x !in s[..k]
    ensures FirstIndex(s, x) == k
  {
  }

  /** The first occurrence inside a prefix is the first occurrence in the whole sequence. */
  lemma FirstIndexPrefix<T>(s: seq<T>, init: seq<T>, x: T)
    requires init <= s && x in init
    ensures x in s && FirstIndex(s, x) == FirstIndex(init, x)
  {
    var k := FirstIndex(init, x);
    assert s[..k] == init[..k];
    FirstIndexUnique(s, x, k);
  }

  /** The elements of `s` that satisfy `p`, in order. */
  function Filter<T>(s: seq<T>, p: T -> bool): (r: seq<T>)
    ensures |r| <= |s|
  {
    if s == [] then []
    else
      var n := |s| - 1;
      Filter(s[..n], p) + (if p(s[n]) then [s[n]] else [])
  }

  function Not<T>(p: T -> bool): T -> bool {
    (x: T) => !p(x)
  }

  /** A filter keeps exactly the elements that satisfy the predicate and counts the others out. */
  lemma FilterSpec<T>(s: seq<T>, p: T -> bool)
    ensures forall k :: 0 <= k < |Filter(s, p)| ==> p(Filter(s, p)[k])
    ensures forall x :: x in Filter(s, p) <==> x in s && p(x)
    ensures |Filter(s, p)| + Count(s, Not(p)) == |s|
    ensures |Filter(s, p)| == Count(s, p)
  {
    FilterKeeps(s, p);
    FilterCounts(s, p);
  }

  /** What a filter keeps: the elements of `s` that satisfy `p`. */
  lemma {:induction false} FilterKeeps<T>(s: seq<T>, p: T -> bool)
    ensures forall k :: 0 <= k < |Filter(s, p)| ==> p(Filter(s, p)[k])
    ensures forall x :: x in Filter(s, p) <==> x in s && p(x)
  {
    if s != [] {
      var n := |s| - 1;
      FilterKeeps(s[..n], p);
      assert s == s[..n] + [s[n]];
    }
  }

  /** How many a filter keeps: the count of `p`, and the rest are counted by `Not(p)`. */
  lemma {:induction false} FilterCounts<T>(s: seq<T>, p: T -> bool)
    ensures |Filter(s, p)| + Count(s, Not(p)) == |s|
    ensures |Filter(s, p)| == Count(s, p)
  {
    if s != [] {
      var n := |s| - 1;
      FilterCounts(s[..n], p);
    }
  }

  /** A filter keeps something exactly when some element satisfies the predicate. */
  lemma FilterNonEmpty<T>(s: seq<T>, p: T -> bool)
    ensures Filter(s, p) != [] <==> exists k :: 0 <= k < |s| && p(s[k])
  {
    FilterSpec(s, p);
    if Filter(s, p) != [] {
      assert Filter(s, p)[0] in Filter(s, p);
    }
    if exists k :: 0 <= k < |s| && p(s[k]) {
      var k :| 0 <= k < |s| && p(s[k]);
      assert s[k] in Filter(s, p);
    }
  }

  /** A filter that every element passes changes nothing. */
  lemma {:induction false} FilterAll<T>(s: seq<T>, p: T -> bool)
    requires forall k :: 0 <= k < |s| ==> p(s[k])
    ensures Filter(s, p) == s
  {
    if s != [] {
      var n := |s| - 1;
      FilterAll(s[..n], p);
      assert s == s[..n] + [s[n]];
    }
  }

  /** The `Some` results of `f` over `s`, in order. */
  function FilterMap<T, U>(s: seq<T>, f: T -> Option<U>): (r: seq<U>)
    ensures |r| <= |s|
  {
    if s == [] then []
    else
      var n := |s| - 1;
      FilterMap(s[..n], f) + (match f(s[n]) case Some(u) => [u] case None => [])
  }

  /** The indices of `s` whose `f` result is a `Some`, in order. */
  function KeptIndices<T, U>(s: seq<T>, f: T -> Option<U>): (r: seq<nat>)
    ensures |r| <= |s|
    ensures forall k :: 0 <= k < |r| ==> r[k] < |s|
  {
    if s == [] then []
    else
      var n := |s| - 1;
      KeptIndices(s[..n], f) + (if f(s[n]).Some? then [n] else [])
  }

  function Drops<T, U>(f: T -> Option<U>): T -> bool {
    (x: T) => f(x).None?
  }

  /** Every element is counted once: it yields a result or it is dropped. */
  lemma {:induction false} FilterMapPartition<T, U>(s: seq<T>, f: T -> Option<U>)
    ensures |FilterMap(s, f)| + Count(s, Drops(f)) == |s|
    ensures |KeptIndices(s, f)| == |FilterMap(s, f)|
  {
    if s != [] {
      FilterMapPartition(s[..|s| - 1], f);
    }
  }

  /** Result `k` is `f` of the element at kept index `k`. */
  lemma {:induction false} FilterMapAt<T, U>(s: seq<T>, f: T -> Option<U>, k: nat)
    requires k < |FilterMap(s, f)|
    ensures |KeptIndices(s, f)| == |FilterMap(s, f)|
    ensures KeptIndices(s, f)[k] < |s| && f(s[KeptIndices(s, f)[k]]) == Some(FilterMap(s, f)[k])
  {
    FilterMapPartition(s, f);
    var n := |s| - 1;
    var pre := s[..n];
    FilterMapPartition(pre, f);
    if k < |FilterMap(pre, f)| {
      FilterMapAt(pre, f, k);
      assert FilterMap(s, f)[k] == FilterMap(pre, f)[k];
      assert KeptIndices(s, f)[k] == KeptIndices(pre, f)[k];
      assert s[KeptIndices(pre, f)[k]] == pre[KeptIndices(pre, f)[k]];
    }
  }

  /** Kept indices increase, so results come in the order of their elements. */
  lemma {:induction false} KeptIndicesOrdered<T, U>(s: seq<T>, f: T -> Option<U>)
    ensures forall k, l :: 0 <= k < l < |KeptIndices(s, f)| ==> KeptIndices(s, f)[k] < KeptIndices(s, f)[l]
  {
    if s != [] {
      var n := |s| - 1;
      var ks := KeptIndices(s, f);
      var kp := KeptIndices(s[..n], f);
      KeptIndicesOrdered(s[..n], f);
      forall k, l | 0 <= k < l < |ks| ensures ks[k] < ks[l] {
        assert ks[k] == kp[k];
        if l < |kp| {
          assert ks[l] == kp[l];
        }
      }
    }
  }

  /** Every element with a result is kept. */
  lemma {:induction false} KeptIndicesComplete<T, U>(s: seq<T>, f: T -> Option<U>, i: nat)
    requires i < |s| && f(s[i]).Some?
    ensures exists k :: 0 <= k < |KeptIndices(s, f)| && KeptIndices(s, f)[k] == i
  {
    var n := |s| - 1;
    var ks := KeptIndices(s, f);
    if i == n {
      assert ks[|ks| - 1] == i;
    } else {
      var pre := s[..n];
      assert pre[i] == s[i];
      KeptIndicesComplete(pre, f, i);
      var k :| 0 <= k < |KeptIndices(pre, f)| && KeptIndices(pre, f)[k] == i;
      assert ks[k] == KeptIndices(pre, f)[k];
    }
  }
}

=== FILE: table.dfy ===
/**
 * The question spreadsheet as the pipeline reads it with pandas: one row per
 * question, each cell a string or NaN.
 */
module Table {
  import opened Wrappers
  import opened Text

  /** A spreadsheet cell; `None` is pandas' NaN. */
  type Cell = Option<string>

  /** `pd.isna(c) or str(c).strip() == ""`. */
  predicate Blank(c: Cell) {
    c.None? || IsBlank(c.value)
  }

  /** `str(c)`: NaN prints as "nan". */
  function Str(c: Cell): (r: string)
    ensures c.None? ==> r == "nan"
    ensures c.Some? ==> r == c.value
  {
    if c.None? then "nan" else c.value
  }

  /**
   * A row of the working sheet: the question, the fetched answer (`AI回答`), its
   * reference list (`参考文档`), the fetched passages (`Contexts`) and every other
   * column, in order.
   */
  datatype Row = Row(question: Cell, answer: Cell, reference: Cell, contexts: Cell, others: seq<Cell>)

  /** The four columns a checkpoint keeps of a row. */
  datatype Record = Record(question: Cell, answer: Cell, reference: Cell, contexts: Cell)

  function Project(row: Row): (r: Record)
    ensures r.question == row.question && r.answer == row.answer
    ensures r.reference == row.reference && r.contexts == row.contexts
  {
    Record(row.question, row.answer, row.reference, row.contexts)
  }

  /** `df[['问题', 'AI回答', '参考文档', 'Contexts']].to_dict('records')`. */
  function ProjectAll(rows: seq<Row>): (r: seq<Record>)
    ensures |r| == |rows|
    ensures forall i :: 0 <= i < |rows| ==> r[i] == Project(rows[i])
  {
    seq(|rows|, i requires 0 <= i < |rows| => Project(rows[i]))
  }
}

=== FILE: text.dfy ===
/**
 * The handful of Python `str` operations the pipeline relies on, with the
 * exact semantics CPython gives them: `strip()`, `in`, `find()`,
 * `replace()`, `split(sep)` and the whitespace class shared by `str.isspace`
 * and the regular-expression class `\s` for str patterns.
 */
module Text {
  import opened Wrappers

  /** Python's `str.isspace()` set; `\s` in a str pattern matches the same characters. */
  predicate IsSpace(c: char) {
    || ('\U{0009}' <= c <= '\U{000D}')
    || ('\U{001C}' <= c <= '\U{0020}')
    || c == '\U{0085}' || c == '\U{00A0}' || c == '\U{1680}'
    || ('\U{2000}' <= c <= '\U{200A}')
    || c == '\U{2028}' || c == '\U{2029}' || c == '\U{202F}' || c == '\U{205F}' || c == '\U{3000}'
  }

  predicate AllSpace(s: string) {
    forall i :: 0 <= i < |s| ==> IsSpace(s[i])
  }

  /** End of the whitespace run that starts at `i`. */
  function SpaceRunEnd(s: string, i: nat): (r: nat)
    requires i <= |s|
    ensures i <= r <= |s|
    ensures forall k :: i <= k < r ==> IsSpace(s[k])
    ensures r < |s| ==> !IsSpace(s[r])
    decreases |s| - i
  {
    if i < |s| && IsSpace(s[i]) then SpaceRunEnd(s, i + 1) else i
  }

  /** Start of the whitespace run that ends at `j`. */
  function SpaceRunStart(s: string, j: nat): (r: nat)
    requires j <= |s|
    ensures r <= j
    ensures forall k :: r <= k < j ==> IsSpace(s[k])
    ensures r > 0 ==> !IsSpace(s[r - 1])
  {
    if j > 0 && IsSpace(s[j - 1]) then SpaceRunStart(s, j - 1) else j
  }

  /** Where `s.strip()` starts inside `s`. */
  function StripOffset(s: string): (o: nat)
    ensures o <= |s|
  {
    SpaceRunEnd(s, 0)
  }

  /** `s.strip()`; what it keeps is stated by `StripSpec`. */
  function Strip(s: string): (r: string)
    ensures |r| <= |s|
  {
    var a := SpaceRunEnd(s, 0);
    if a == |s| then [] else s[a..SpaceRunStart(s, |s|)]
  }

  /** `s.strip()` is the infix of `s` left after removing whitespace at both ends. */
  lemma StripSpec(s: string)
    ensures var r := Strip(s);
      && StripOffset(s) + |r| <= |s| && r == s[StripOffset(s)..StripOffset(s) + |r|]
      && (r != [] ==> !IsSpace(r[0]) && !IsSpace(r[|r| - 1]))
      && (r == [] <==> AllSpace(s))
  {
  }

  /** No whitespace at either end. */
  predicate Trimmed(r: string) {
    r != [] ==> !IsSpace(r[0]) && !IsSpace(r[|r| - 1])
  }

  /** `s.strip()` is no longer than `s` and has no whitespace at either end. */
  lemma StripTrims(s: string)
    ensures |Strip(s)| <= |s| && Trimmed(Strip(s))
  {
    StripSpec(s);
  }

  /** Python's test `str(x).strip() == ""`. */
  predicate IsBlank(s: string) {
    Strip(s) == []
  }

  lemma StripIdempotent(s: string)
    ensures Strip(Strip(s)) == Strip(s)
  {
    var r := Strip(s);
    StripSpec(s);
    if r != [] {
      StripTrimmed(r);
    }
  }

  predicate OccursAt(s: string, pat: string, k: int) {
    0 <= k && k + |pat| <= |s| && s[k..k + |pat|] == pat
  }

  /** The characters of `pat` from `j` on appear in `s` from `k + j` on, compared one at a time. */
  predicate MatchFrom(s: string, pat: string, k: nat, j: nat)
    requires k + |pat| <= |s| && j <= |pat|
    decreases |pat| - j
  {
    j == |pat| || (s[k + j] == pat[j] && MatchFrom(s, pat, k, j + 1))
  }

  lemma {:induction false} MatchFromIff(s: string, pat: string, k: nat, j: nat)
    requires k + |pat| <= |s| && j <= |pat|
    ensures MatchFrom(s, pat, k, j) <==> s[k + j..k + |pat|] == pat[j..]
    decreases |pat| - j
  {
    if j < |pat| {
      MatchFromIff(s, pat, k, j + 1);
      assert s[k + j..k + |pat|] == [s[k + j]] + s[k + j + 1..k + |pat|];
      assert pat[j..] == [pat[j]] + pat[j + 1..];
    }
  }

  /** `s.find(pat, start)`, with `None` for Python's -1. */
  function IndexFrom(s: string, pat: string, start: nat): (r: Option<nat>)
    ensures r.Some? ==> start <= r.value && OccursAt(s, pat, r.value)
    ensures r.Some? ==> forall k :: start <= k < r.value ==> !OccursAt(s, pat, k)
    ensures r.None? ==> forall k :: start <= k ==> !OccursAt(s, pat, k)
    decreases |s| - start
  {
    if start + |pat| > |s| then None
    else
      MatchFromIff(s, pat, start, 0);
      if MatchFrom(s, pat, start, 0) then Some(start)
      else IndexFrom(s, pat, start + 1)
  }

  /** Python's substring test `pat in s`. */
  predicate Contains(s: string, pat: string) {
    IndexFrom(s, pat, 0).Some?
  }

  lemma ContainsIff(s: string, pat: string)
    ensures Contains(s, pat) <==> exists k :: OccursAt(s, pat, k)
  {
  }

  /** An occurrence inside a prefix is an occurrence in the whole string. */
  lemma OccursInPrefix(s: string, pat: string, n: nat, k: int)
    requires n <= |s| && OccursAt(s[..n], pat, k)
    ensures OccursAt(s, pat, k) && k + |pat| <= n
  {
    assert s[..n][k..k + |pat|] == s[k..k + |pat|];
  }

  /** `s.replace(pat, repl)`: non-overlapping occurrences, left to right. */
  function ReplaceAll(s: string, pat: string, repl: string): (r: string)
    requires |pat| > 0
    decreases |s|
  {
    if |s| < |pat| then s
    else if s[..|pat|] == pat then repl + ReplaceAll(s[|pat|..], pat, repl)
    else [s[0]] + ReplaceAll(s[1..], pat, repl)
  }

  lemma {:induction false} ReplaceAbsent(s: string, pat: string, repl: string)
    requires |pat| > 0 && !Contains(s, pat)
    ensures ReplaceAll(s, pat, repl) == s
    decreases |s|
  {
    if |s| >= |pat| {
      assert !OccursAt(s, pat, 0);
      forall k | OccursAt(s[1..], pat, k) ensures false {
        assert s[1..][k..k + |pat|] == s[k + 1..k + 1 + |pat|];
        assert OccursAt(s, pat, k + 1);
      }
      ReplaceAbsent(s[1..], pat, repl);
    }
  }

  /** `s.split(sep)` for a non-empty separator. */
  function Split(s: string, sep: string): (r: seq<string>)
    requires |sep| > 0
    ensures |r| >= 1
    ensures forall k :: 0 <= k < |r| ==> !Contains(r[k], sep)
    decreases |s|
  {
    match IndexFrom(s, sep, 0)
    case None => [s]
    case Some(k) =>
      assert !Contains(s[..k], sep) by {
        forall j | OccursAt(s[..k], sep, j) ensures false {
          OccursInPrefix(s, sep, k, j);
        }
      }
      [s[..k]] + Split(s[k + |sep|..], sep)
  }

  /** `sep.join(parts)`. */
  function Join(parts: seq<string>, sep: string): string
  {
    if |parts| == 0 then ""
    else if |parts| == 1 then parts[0]
    else parts[0] + sep + Join(parts[1..], sep)
  }

  /** Splitting and joining on the same separator gives back the original text. */
  lemma {:induction false} SplitJoin(s: string, sep: string)
    requires |sep| > 0
    ensures Join(Split(s, sep), sep) == s
    decreases |s|
  {
    match IndexFrom(s, sep, 0)
    case None =>
    case Some(k) =>
      var rest := s[k + |sep|..];
      var tail := Split(rest, sep);
      SplitJoin(rest, sep);
      assert Split(s, sep) == [s[..k]] + tail;
      assert ([s[..k]] + tail)[1..] == tail;
      assert Join([s[..k]] + tail, sep) == s[..k] + sep + Join(tail, sep);
      assert s == s[..k] + sep + rest;
  }

  /** `re.sub(r'\s+', ' ', s)`: every maximal whitespace run becomes one space. */
  function CollapseSpaces(s: string): (r: string)
    ensures |r| <= |s| && (r == [] <==> s == [])
    ensures s != [] ==> IsSpace(r[0]) == IsSpace(s[0])
    decreases |s|
  {
    if s == [] then []
    else if IsSpace(s[0]) then [' '] + CollapseSpaces(s[SpaceRunEnd(s, 0)..])
    else [s[0]] + CollapseSpaces(s[1..])
  }

  /** The text after a leading whitespace run keeps every non-space character. */
  lemma RunSkipKeepsText(s: string, c: char)
    requires !IsSpace(c)
    ensures c in s[SpaceRunEnd(s, 0)..] <==> c in s
  {
    var k := SpaceRunEnd(s, 0);
    if c in s {
      var i :| 0 <= i < |s| && s[i] == c;
      assert s[k..][i - k] == c;
    }
  }

  /** `re.sub(r'\s+', ' ', s)` ends in whitespace exactly when `s` does. */
  lemma {:induction false} CollapseSpacesLast(s: string)
    requires s != []
    ensures var r := CollapseSpaces(s); IsSpace(r[|r| - 1]) == IsSpace(s[|s| - 1])
    decreases |s|
  {
    if IsSpace(s[0]) {
      var k := SpaceRunEnd(s, 0);
      var rest := s[k..];
      if rest != [] {
        CollapseSpacesLast(rest);
        assert rest[|rest| - 1] == s[|s| - 1];
      }
    } else if |s| > 1 {
      CollapseSpacesLast(s[1..]);
      assert s[1..][|s| - 2] == s[|s| - 1];
    }
  }

  /** Whitespace in `r` is only single plain spaces. */
  predicate SingleSpaced(r: string) {
    && (forall i :: 0 <= i < |r| && IsSpace(r[i]) ==> r[i] == ' ')
    && (forall i :: 0 <= i < |r| - 1 ==> !IsSpace(r[i]) || !IsSpace(r[i + 1]))
  }

  lemma ConsSingleSpaced(c: char, t: string)
    requires SingleSpaced(t)
    requires IsSpace(c) ==> c == ' ' && (t == [] || !IsSpace(t[0]))
    ensures SingleSpaced([c] + t)
  {
    var r := [c] + t;
    forall i | 1 <= i < |r| ensures r[i] == t[i - 1] { }
  }

  /** Every whitespace character `re.sub(r'\s+', ' ', s)` leaves is a plain space, never two in a row. */
  lemma {:induction false} CollapseSpacesRuns(s: string)
    ensures SingleSpaced(CollapseSpaces(s))
    decreases |s|
  {
    if s != [] {
      var t := if IsSpace(s[0]) then s[SpaceRunEnd(s, 0)..] else s[1..];
      CollapseSpacesRuns(t);
      ConsSingleSpaced(if IsSpace(s[0]) then ' ' else s[0], CollapseSpaces(t));
    }
  }

  /** Text that is already single-spaced is left as it is. */
  lemma {:induction false} CollapseSingleSpaced(s: string)
    requires SingleSpaced(s)
    ensures CollapseSpaces(s) == s
    decreases |s|
  {
    if s != [] {
      var t := s[1..];
      assert SingleSpaced(t) by {
        forall i | 0 <= i < |t| ensures t[i] == s[i + 1] { }
      }
      if IsSpace(s[0]) {
        assert SpaceRunEnd(s, 0) == 1 by {
          assert |s| > 1 ==> !IsSpace(s[1]);
        }
      }
      CollapseSingleSpaced(t);
    }
  }

  /** Collapsing twice is collapsing once. */
  lemma CollapseSpacesIdempotent(s: string)
    ensures CollapseSpaces(CollapseSpaces(s)) == CollapseSpaces(s)
  {
    CollapseSpacesRuns(s);
    CollapseSingleSpaced(CollapseSpaces(s));
  }

  /** `re.sub(r'\s+', ' ', s)` keeps exactly the non-space characters of `s`. */
  lemma {:induction false} CollapseSpacesText(s: string, c: char)
    requires !IsSpace(c)
    ensures c in CollapseSpaces(s) <==> c in s
    decreases |s|
  {
    if s == [] {
    } else if IsSpace(s[0]) {
      CollapseSpacesText(s[SpaceRunEnd(s, 0)..], c);
      RunSkipKeepsText(s, c);
    } else {
      CollapseSpacesText(s[1..], c);
      assert s == [s[0]] + s[1..];
    }
  }

  /**
   * ASCII upper case to lower case. For the keywords searched after `.lower()`
   * (`timeout`, `rate`, `limit`) this is exact: none contains `k`, so the Kelvin
   * sign cannot lower into one, and none ends in `i`, so the two-character
   * lowering of U+0130 cannot complete one.
   */
  function LowerChar(c: char): char {
    if 'A' <= c <= 'Z' then (c as int + 32) as char else c
  }

  /** `s.lower()`, restricted to ASCII letters. */
  function Lower(s: string): (r: string)
    ensures |r| == |s|
    ensures forall i :: 0 <= i < |s| ==> r[i] == LowerChar(s[i])
  {
    seq(|s|, i requires 0 <= i < |s| => LowerChar(s[i]))
  }

  predicate IsDigit(c: char) {
    '0' <= c <= '9'
  }

  /**
   * The regular-expression class `\w`: ASCII letters, digits and `_`, plus
   * the CJK unified ideographs; see README for the other Unicode letters.
   */
  predicate IsWord(c: char) {
    || IsDigit(c) || ('a' <= c <= 'z') || ('A' <= c <= 'Z') || c == '_'
    || ('\U{4E00}' <= c <= '\U{9FFF}')
  }

  /** Index of the first `c` at or after `i`, or `|s|` when there is none. */
  function CharFrom(s: string, c: char, i: nat): (r: nat)
    requires i <= |s|
    ensures i <= r <= |s|
    ensures forall k :: i <= k < r ==> s[k] != c
    ensures r < |s| ==> s[r] == c
    decreases |s| - i
  {
    if i == |s| || s[i] == c then i else CharFrom(s, c, i + 1)
  }

  /** Text that already starts and ends with a non-space character is its own `strip()`. */
  lemma StripTrimmed(s: string)
    requires s != [] && !IsSpace(s[0]) && !IsSpace(s[|s| - 1])
    ensures Strip(s) == s
  {
  }
}

=== FILE: wrappers.dfy ===
/** The optional value used for NaN cells, missing checkpoint files and absent results. */
module Wrappers {

  datatype Option<+T> = None | Some(value: T)
}
